=== FILE: README.md ===
# Hades: network hooks, anti-rootkit scans and two host collectors

This project models the core of the Hades host intrusion detection system in
Dafny and proves properties of the model. It covers five parts.

- **Kernel network hooks** (`NetHooks`, `Dns`):
  - `connect` entry and exit, correlated through a cache keyed by `pid_tgid`;
  - the bind hook;
  - the UDP receive entry, which keeps only DNS and mDNS traffic;
  - the UDP receive exit. For a DNS response it copies the first I/O segment
    into a per-CPU scratch buffer. It reads the header flags and walks the
    question name in place, turning length bytes into dots. It reads the
    question and answer record types and emits an event. The hook is modelled
    twice, selected by `Events.Variant`: `AsWritten` copies `iov_len & 512`
    bytes and ORs the two type bytes, as the code does; `Corrected` copies
    the segment truncated to 512 bytes and reads the types big-endian.
- **Kernel anti-rootkit checks** (`Rootkit`):
  - kernel-symbol lookup by fixed-width key;
  - the all-or-nothing scan of monitored `sys_call_table` slots;
  - the interrupt descriptor table scan. It reads 16 of the 256 entries per
    call and keeps a cursor in a small cache, so that 16 clean calls cover
    the whole table;
  - the field layout of the module-load, kernel-read-file and
    usermode-helper events.
- **User-space decoders** (`Decoder`, `SocketBind`, `Execveat`, `IdtScan`):
  - the bind record, with its IPv4 and IPv6 `sockaddr` layouts;
  - the `execveat` record, with its dynamic windows, the environment scan
    for `SSH_CONNECTION` and `LD_PRELOAD`, and the `-1` defaults. The decoder
    is modelled twice as well: `AsWritten` scans for any `SSH_` variable, as
    the code does; `Corrected` scans for `SSH_CONNECTION=`;
  - the IDT-scan report, and the periodic trigger that asks about vector
    0x80.

  Each decoder writes into a reused record. Fields that a call does not reach
  keep their previous values, and the model keeps this behaviour.
- **The sshd configuration collector** (`SshdConfig`): fixed defaults,
  trimmed and field-split lines, and the last setting of each keyword
  winning.
- **The user collector** (`Users`):
  - accounts from `/etc/passwd`, where the last line for a name wins;
  - last-login data from the fixed 384-byte `utmp` records of
    `/var/log/wtmp`;
  - a result keyed by decimal UID.

`Bits` holds unsigned bit operations over naturals. `Events` holds the event
shape and the 32-bit conversions. `Text` holds the Go string and number
helpers the collectors rely on.

Values that kernel helpers compute are symbolic payloads. This covers the
executable path, the process tree, socket details and strings read through
user pointers. Everything outside the model is a parameter:
- kernel memory;
- the symbol table;
- the decoder's variable-length readers;
- the address printers;
- the window checks;
- the group lookup;
- the IP parser;
- the order in which the Go runtime walks a map.

## Model

| member | source | states |
|---|---|---|
| NetHooks.EnterConnect | plugin/ebpfdriver/kern/include/hades_net.h:36-49 | a non-null address stores (fd, family, address length) under the caller's `pid_tgid`; a null address leaves the cache as it was; no other key changes |
| NetHooks.ExitConnect | plugin/ebpfdriver/kern/include/hades_net.h:52-89 | no stored context means no event and no change; the event is sent exactly when the context exists, initialisation succeeded, the process is not filtered, the fd has a socket and the family is IPv4 or IPv6; its fields are the family, the connection details for that family and the executable; the entry is removed unless the hook returned early |
| NetHooks.ConnectEndToEnd | plugin/ebpfdriver/kern/include/hades_net.h:36-89 | an IPv4 connect seen at entry and exit produces the three-field event and leaves the cache without that key |
| NetHooks.Bind | plugin/ebpfdriver/kern/include/hades_net.h:91-130 | an event only for IPv4 and IPv6 sockets when initialisation succeeded and the process is not filtered; the raw `sockaddr` is captured at its family's size (16 or 28 bytes), then the executable and the protocol |
| NetHooks.NtohsInvolution | plugin/ebpfdriver/kern/include/hades_net.h:147-154 | swapping the two bytes of a port twice gives the port back, so testing the raw port against 13568 and 59668 is testing for ports 53 and 5353 |
| NetHooks.EnterUdpRecv | plugin/ebpfdriver/kern/include/hades_net.h:139-173 | the message pointer is cached under `pid_tgid` exactly for DNS/mDNS ports with a non-null segment of non-zero length; otherwise the cache is unchanged |
| Dns.HeaderRoundTrip | plugin/ebpfdriver/kern/include/hades_net.h:234-246 | the response bit, opcode and response code read from header bytes 2 and 3 are the values a header built from them carries (section 4.1.1 of RFC 1035) |
| Dns.WalkEnds | plugin/ebpfdriver/kern/include/hades_net.h:253-275 | the name walk only moves forward; when it ends, the byte after the final position is zero; when it does not, it used all its steps |
| Dns.WalkChanges | plugin/ebpfdriver/kern/include/hades_net.h:253-275 | the walk writes a dot only over non-zero length bytes, and every byte it changes is one of its recorded writes |
| Dns.WalkName | plugin/ebpfdriver/kern/include/hades_net.h:253-275 | the bounded loop that reads the first length byte and then does up to nine masked lookups computes the walk that the recursive definition describes |
| Dns.FirstLengthKept | plugin/ebpfdriver/kern/include/hades_net.h:253-275 | the walk never overwrites the first length byte at offset 12 (stated only when masked indices cannot wrap) |
| Dns.NameRoundTrip | plugin/ebpfdriver/kern/include/hades_net.h:253-275 | for a question name of one to nine labels encoded at offset 12, the walk ends; it leaves the dot-joined name starting at offset 13, and ends on the terminating zero; bytes outside the name are unchanged |
| Dns.RecordTypeAsWritten | plugin/ebpfdriver/kern/include/hades_net.h:278-286 | the code combines the two type bytes with OR and without a shift, so the result is below 256; it equals the network-order value only when the high byte is zero |
| Dns.RecordTypeAsWrittenMisreads | plugin/ebpfdriver/kern/include/hades_net.h:279-282 | bytes 01 01 (type 257) read as 1 |
| Dns.RecordType | plugin/ebpfdriver/kern/include/hades_net.h:278-286 | the corrected record type is the big-endian value of the two bytes: high byte times 256 plus low byte |
| Dns.CopyLenAsWritten | plugin/ebpfdriver/kern/include/hades_net.h:218-230 | after the clamp to 512, `iov_len & 512` is 512 for a full segment and 0 for every shorter one |
| Dns.CopyLenAsWrittenDropsShortSegments | plugin/ebpfdriver/kern/include/hades_net.h:218-230 | a 100-byte segment passes the 20-byte check yet copies nothing |
| Dns.CopyLen | plugin/ebpfdriver/kern/include/hades_net.h:218-230 | the corrected copy length is the segment length truncated to 512 |
| Dns.CopyLength | plugin/ebpfdriver/kern/include/hades_net.h:221-230 | the copy length of either build never exceeds 512, and both builds copy exactly 512 bytes of a segment of 512 bytes or more |
| Dns.Combine | plugin/ebpfdriver/kern/include/hades_net.h:278-286 | a record type from two bytes is below 65536; as written it is below 256; both builds agree with the big-endian value when the high byte is zero |
| Dns.CopyIn | plugin/ebpfdriver/kern/include/hades_net.h:230 | the first n scratch bytes become the user bytes (zeros when the user read fails); the rest are untouched |
| Dns.CString | plugin/ebpfdriver/kern/include/hades_net.h:291 | the saved name is the run of non-zero bytes from the start offset up to the first zero |
| Dns.DnsEvent | plugin/ebpfdriver/kern/include/hades_net.h:240-295 | for either build, the event carries the opcode and response code nibbles, zero record types when the walk did not end, the walked name and the executable; the name and the executable are both at index 1; as written, both record types are below 256 |
| Dns.ExitUdpRecv | plugin/ebpfdriver/kern/include/hades_net.h:185-299 | for either build: no cached message means no event and no change; an event exactly for a cached message of at least 20 bytes whose copied header has the response bit, when initialisation succeeded and the process is not filtered; the event is built from the bytes that build copies; the entry is removed on every path that reaches the end |
| Dns.ShortSegmentIgnored | plugin/ebpfdriver/kern/include/hades_net.h:218-230 | as written, the hook's result for a segment shorter than 512 bytes does not depend on the segment's bytes at all |
| Dns.ShortResponseDiverges | plugin/ebpfdriver/kern/include/hades_net.h:218-234 | a response segment of 20 to 511 bytes into a zeroed scratch buffer gives no event as written (the copied header is zeros) and an event once corrected; the entry is removed either way |
| Dns.HooksAgreeOnFullSegments | plugin/ebpfdriver/kern/include/hades_net.h:218-286 | for segments of 512 bytes or more whose record types have zero high bytes, the code as written and the corrected hook give the same result |
| Dns.DnsEventOfName | plugin/ebpfdriver/kern/include/hades_net.h:240-295 | for a well-formed question name the event is fully determined: opcode, response code, the two record types after the name (combined with OR as written, big-endian once corrected), the dot-joined name and the executable |
| Dns.ResponseRoundTrip | plugin/ebpfdriver/kern/include/hades_net.h:185-299 | for either build, a DNS response whose well-formed question name of up to nine labels and the eight bytes after it lie within what that build copies yields exactly that event and removes the cache entry; the corrected build copies any segment of 20 bytes or more, the build as written only one of 512 bytes or more |
| Dns.ResponseRoundTripAsWritten | plugin/ebpfdriver/kern/include/hades_net.h:185-299 | the code as written reports a response of 512 bytes or more with record types below 256 exactly: the header nibbles, the low type bytes and the dot-joined name |
| Rootkit.KsymKey | plugin/driver/eBPF/kernel/include/hades_rootkit.h:172-192 | the 64-byte symbol key holds the name (up to 63 bytes) followed by zero padding, and always ends in zero |
| Rootkit.KsymKeyInjective | plugin/driver/eBPF/kernel/include/hades_rootkit.h:182-192 | two names short enough to fit, and free of zero bytes, have equal keys only when they are equal |
| Rootkit.GetSymbolAddr | plugin/driver/eBPF/kernel/include/hades_rootkit.h:182-192 | a name without an entry resolves to 0; otherwise it resolves to the stored address |
| Rootkit.GetSymbolAddrAfterStore | plugin/driver/eBPF/kernel/include/hades_rootkit.h:178-192 | after user space stores an address for a name, that name resolves to it and every other name resolves as before |
| Rootkit.SyscallTableScan | plugin/driver/eBPF/kernel/include/hades_rootkit.h:204-244 | the scan produces no event exactly when some monitored slot reads as 0; otherwise one field holds all slot values in order, where unmonitored indices give 0 |
| Rootkit.ScanMissesAreZero | plugin/driver/eBPF/kernel/include/hades_rootkit.h:230-241 | an index without a monitored system-call number contributes 0 |
| Rootkit.CacheRoundTrip | plugin/driver/eBPF/kernel/include/hades_rootkit.h:249-259 | a value below 2^31 stored with `update_cache` is read back by `get_cache` |
| Rootkit.UpdateCache | plugin/driver/eBPF/kernel/include/hades_rootkit.h:256-259 | the key holds the value truncated to 32 bits; other keys keep their values |
| Rootkit.ChunkInTable | plugin/driver/eBPF/kernel/include/hades_rootkit.h:266-284 | every entry of every chunk for cursors 0 to 15 lies within the 256-entry table |
| Rootkit.IdtStep | plugin/driver/eBPF/kernel/include/hades_rootkit.h:267-290 | a chunk with an unreadable entry leaves the cursor where it was; a clean chunk advances it, with 15 wrapping to 0 |
| Rootkit.AnalyzeInterrupts | plugin/driver/eBPF/kernel/include/hades_rootkit.h:267-290 | the loop reads entries of the current chunk in order and stops at the first unreadable one, which is the last index it lists and reads as 0; the chunk is clean exactly when all 16 reads succeed; the cache update matches the step function |
| Rootkit.StepOnCleanTable | plugin/driver/eBPF/kernel/include/hades_rootkit.h:277-289 | on a fully readable table every call advances the cursor by one, modulo 16 |
| Rootkit.SweepIsChunkRun | plugin/driver/eBPF/kernel/include/hades_rootkit.h:267-290 | n calls on a readable table read the n chunks that follow the cursor, in order, and leave the cursor n chunks on |
| Rootkit.FullSweep | plugin/driver/eBPF/kernel/include/hades_rootkit.h:266-290 | 16 calls from cursor 0 read entries 0 to 255 exactly once, in order, and bring the cursor back to 0 |
| Rootkit.DoInitModule | plugin/driver/eBPF/kernel/include/hades_rootkit.h:43-67 | the module-load event (type 1026) is sent exactly when initialisation succeeded and the task has a filesystem context; it holds the module name read with a 56-byte bound, the executable, the process tree and the working directory; the directory reuses index 1 |
| Rootkit.KernelReadFile | plugin/driver/eBPF/kernel/include/hades_rootkit.h:81-97 | the event holds the file path and the read id as a 32-bit signed value |
| Rootkit.UsermodeHelper | plugin/driver/eBPF/kernel/include/hades_rootkit.h:101-124 | the event holds the program path, argv, envp, the wait flag as a 32-bit signed value, and the executable, at indices 0 to 4 |
| Text.DecimalRoundTrip | plugin/collector/event/user.go:74-77 | parsing the decimal text of any 32-bit value with base 10 and bit size 32 gives the value back |
| Text.ParseDigitsValue | plugin/collector/event/user.go:74-77 | an all-digit field parses to its value, saturated at 2^32-1 as the range error gives |
| Text.ParseDigitsSyntaxError | plugin/collector/event/user.go:74-77 | a field with a non-digit within range parses to 0, as the discarded syntax error gives |
| Text.FormatBaseRoundTrip | plugin/ebpfdriver/user/event/anti_rkt_idt.go:45 | the hexadecimal (and decimal) text of a number reads back as that number |
| Text.FormatDecimalInjective | plugin/collector/event/user.go:102 | distinct UIDs give distinct result keys |
| Text.SplitJoin | plugin/collector/event/user.go:66 | splitting a line on `:` and joining the parts with `:` gives the line back |
| Text.JoinSplit | plugin/collector/event/user.go:66 | parts without `:` joined with `:` split back into the same parts |
| Text.FieldsOfPair | plugin/collector/event/sshdconfig.go:55-58 | two separator-free words around one separator split into exactly those two fields |
| Text.TrimSpaceNoSpace | plugin/collector/event/sshdconfig.go:46 | trimming a string without white space changes nothing |
| SocketBind.DecodeAddress | plugin/ebpfdriver/user/event/socketbind.go:46-77 | IPv4 never fails, because its reads check an error variable they do not set; IPv6 fails exactly when the 16-byte address is short; other families read nothing and change nothing |
| SocketBind.DecodeSocketBind | plugin/ebpfdriver/user/event/socketbind.go:34-86 | a record shorter than three bytes fails without touching the record; otherwise the family is the signed 16-bit value at bytes 1-2; an unknown family keeps the previous port and address |
| SocketBind.TailRoundTrip | plugin/ebpfdriver/user/event/socketbind.go:78-85 | executable, index byte and protocol read back as written |
| SocketBind.BindV4RoundTrip | plugin/ebpfdriver/user/event/socketbind.go:34-86 | a record laid out as the bind hook captures an IPv4 `sockaddr_in` decodes to family 2, the decimal port, the printed address, the executable and the protocol, and consumes exactly the record |
| SocketBind.BindV6RoundTrip | plugin/ebpfdriver/user/event/socketbind.go:34-86 | a record with a 28-byte `sockaddr_in6` decodes to family 10, the decimal port, the printed 16-byte address, the executable and the protocol, and consumes exactly the record |
| Execveat.ScanEnvLast | plugin/ebpfdriver/user/event/execveat.go:95-101 | the environment scan keeps, for each prefix, the last variable that has it, with the variable name stripped; it keeps the previous value when no variable has the prefix |
| Execveat.ScanEnvAsWritten | plugin/ebpfdriver/user/event/execveat.go:95-101 | the code's scan takes the last variable starting with `SSH_`, whichever it is |
| Execveat.ScanEnvAsWrittenTakesSshTty | plugin/ebpfdriver/user/event/execveat.go:96-97 | with `SSH_CONNECTION=…` followed by `SSH_TTY=/dev/pts/0`, the connection field is `SSH_TTY=/dev/pts/0` |
| Execveat.ScanEnv | plugin/ebpfdriver/user/event/execveat.go:95-101 | the corrected scan's connection field is the value of the last `SSH_CONNECTION=` variable; the preload field is the last `LD_PRE…` variable with `LD_PRELOAD=` stripped |
| Execveat.ScanEnvTakesConnection | plugin/ebpfdriver/user/event/execveat.go:95-101 | a later variable that is not `SSH_CONNECTION` does not displace the connection value |
| Execveat.OrDash | plugin/ebpfdriver/user/event/execveat.go:102-107 | an empty field becomes `-1`, and a non-empty field is kept |
| Execveat.ReadStrings | plugin/ebpfdriver/user/event/execveat.go:57-68 | the four string reads change only the working directory, terminal and standard stream fields |
| Execveat.ReadOrigin | plugin/ebpfdriver/user/event/execveat.go:69-80 | the remote-address, pid and process-tree reads change only the peer, socket pid, tree and escalation fields; on success those fields hold the decoded peer family, port and address, the 32-bit pid after the padding byte, and the decoded tree and escalation flag, and the rest follows the tree |
| Execveat.ReadCommand | plugin/ebpfdriver/user/event/execveat.go:81-108 | for either build, the record is filtered exactly when the joined command line fails its window; on success both environment fields are non-empty and the socket argv comes from the cache for the socket pid |
| Execveat.DecodeExecveAt | plugin/ebpfdriver/user/event/execveat.go:46-110 | for either build, a failed executable read empties the executable; a window miss on it filters the record; a decoded record passed both windows, has non-empty environment fields and the cached socket argv; a failed or filtered call leaves the environment fields as they were |
| Execveat.OriginRoundTrip | plugin/ebpfdriver/user/event/execveat.go:69-80 | the encoded peer, dummy byte, pid and process tree read back as written |
| Execveat.ExecveRoundTrip | plugin/ebpfdriver/user/event/execveat.go:46-110 | for either build, a complete record whose executable and command line pass their windows decodes to every encoded field, with the environment values that build's scan gives (or `-1`), and consumes exactly the record |
| Execveat.SshdEnvScanAsWritten | plugin/ebpfdriver/user/event/execveat.go:95-101 | for the environment sshd sets up (`SSH_CONNECTION=…` then `SSH_TTY=…`), the scan as written keeps `SSH_TTY=/dev/pts/0`, whatever the previous values |
| Execveat.SshdEnvScanCorrected | plugin/ebpfdriver/user/event/execveat.go:95-101 | for the same environment, the corrected scan keeps the connection value `10.0.0.1 50000 10.0.0.2 22` |
| Execveat.ExecveSshTty | plugin/ebpfdriver/user/event/execveat.go:46-110 | a full record carrying that environment decodes, as written, with `SSH_TTY=/dev/pts/0` as its SSH connection, and once corrected with `10.0.0.1 50000 10.0.0.2 22` |
| IdtScan.DecodeIdtScan | plugin/ebpfdriver/user/event/anti_rkt_idt.go:24-47 | a record shorter than 18 bytes is an error; a record of 18 bytes or more never fails: it is ignored exactly when a known symbol covers its address, and otherwise the address is stored in hexadecimal; the index field is never assigned |
| IdtScan.IdtScanRoundTrip | plugin/ebpfdriver/user/event/anti_rkt_idt.go:24-47 | an encoded report decodes to its handler address, which reads back from the hexadecimal text, or is ignored when a symbol covers it |
| IdtScan.TriggerScan | plugin/ebpfdriver/user/event/anti_rkt_idt.go:53-62 | without an `idt_table` symbol the trigger fails with its fixed message; otherwise it passes the table address and vector 128 |
| SshdConfig.ParseLine | plugin/collector/event/sshdconfig.go:46-58 | after trimming, an empty line or a comment contributes no setting |
| SshdConfig.ParseSetting | plugin/collector/event/sshdconfig.go:46-58 | a keyword and a value around one space or `=` parse to exactly that pair |
| SshdConfig.FieldTrimIsIdentity | plugin/collector/event/sshdconfig.go:55-61 | both parsed fields are non-empty and free of separators, so trimming them again changes nothing |
| SshdConfig.KeyForEntry | plugin/collector/event/sshdconfig.go:59-68 | in a table without repeated keywords, each keyword maps to its own key, and only that keyword does |
| SshdConfig.LastSettingIsLast | plugin/collector/event/sshdconfig.go:45-70 | the reported value comes from a line that sets the keyword with no later line setting it; no value means no line sets it |
| SshdConfig.ApplyAllLast | plugin/collector/event/sshdconfig.go:45-70 | after the scan, a keyword's key holds `key=value` for its last setting, or its starting value when never set |
| SshdConfig.ApplyAllOther | plugin/collector/event/sshdconfig.go:45-70 | keys that no keyword maps to keep their starting values |
| SshdConfig.Collect | plugin/collector/event/sshdconfig.go:34-42 | an unreadable file gives an empty result and an error; a readable one keeps every default key |
| SshdConfig.MaxAuthTriesAsWritten | plugin/collector/event/sshdconfig.go:39-67 | as written, `max_authtries` is always `-1`, whatever the file says; the setting goes to a separate `max_auth_tries` key |
| SshdConfig.MaxAuthTriesLineIgnored | plugin/collector/event/sshdconfig.go:42-67 | a file holding `MaxAuthTries 3` still reports `max_authtries` as `-1` |
| SshdConfig.RunReportsLastSetting | plugin/collector/event/sshdconfig.go:30-72 | the corrected collector reports, for each of the four settings, `key=value` from the last line that sets it, or the default |
| SshdConfig.RunAsWrittenSharedSettings | plugin/collector/event/sshdconfig.go:59-65 | the three authentication settings are reported identically as written and as corrected |
| Users.ParsePasswdLine | plugin/collector/event/user.go:64-81 | a line with fewer than six `:` panics (no account); otherwise the UID and GID fit in 32 bits, the login fields are empty, and the name and shell are `:`-free |
| Users.PasswdRoundTrip | plugin/collector/event/user.go:66-81 | a seven-field passwd line built from an account parses back to that account, with the group looked up by its GID text |
| Users.UserMapLastWins | plugin/collector/event/user.go:64-82 | the scan panics exactly when some line is short; otherwise a name is present exactly when some line names it, and its account is the one from the last such line |
| Users.TrimNul | plugin/collector/event/user.go:91-92 | trailing NUL bytes are removed and nothing else |
| Users.Logins | plugin/collector/event/user.go:86-90 | the file yields one record per complete 384 bytes; a trailing partial record ends the read |
| Users.UtmpRoundTrip | plugin/collector/event/user.go:22-41 | a 384-byte record with the user at offset 44, the host at offset 76 and the seconds at offset 340 decodes to that user, host and time |
| Users.SecToU64 | plugin/collector/event/user.go:96 | the signed 32-bit seconds widen to a 64-bit value with the same low 32 bits; negative values sign-extend |
| Users.RecordAllAsWrittenLost | plugin/collector/event/user.go:93-97 | as written, recording logins changes nothing, because it updates a copy of the map entry |
| Users.LastLoginIsLast | plugin/collector/event/user.go:86-98 | a user's last login is a record for that user with no later record for them; none means no record names them |
| Users.RecordAllLast | plugin/collector/event/user.go:86-98 | with write-back, each account carries the IP and time of its last login, or none; the set of names is unchanged |
| Users.PublishEntries | plugin/collector/event/user.go:101-104 | every result entry is an account stored under its decimal UID, and every enumerated account has an entry |
| Users.PublishKeepsAll | plugin/collector/event/user.go:101-104 | when UIDs are distinct, each account is found under its own UID |
| Users.SharedUidCollapses | plugin/collector/event/user.go:101-102 | two accounts sharing a UID leave one entry, the one enumerated last |
| Users.Collect | plugin/collector/event/user.go:52-60 | an unreadable passwd file gives an empty result and an error; otherwise there is no error |
| Users.RunAsWrittenIgnoresWtmp | plugin/collector/event/user.go:84-99 | as written, the result does not depend on the login records |
| Users.RunAsWrittenNeverLogsIn | plugin/collector/event/user.go:93-97 | as written, every reported account has an empty last-login IP and time 0 |
| Users.RunReportsLastLogin | plugin/collector/event/user.go:52-106 | when the map walk visits every key once, the corrected collector reports each account under its UID with the data of its last login |

## Left out

- Least-recently-used eviction of the two 1024-entry network caches is not modelled. The capacity limits of the symbol, system-call and analysis maps (64, 512 and 20 entries) are not modelled either. All of these are unbounded maps.
- Per-CPU buffers, preemption and concurrent hooks are not modelled. Each hook is one pure step.
- Kernel helpers are symbolic payloads:
  - executable path;
  - process tree;
  - socket details;
  - `bpf_probe_read_*` of strings;
  - `d_path`.
- `decoder.go` is not part of this model. So:
  - fixed-width reads are assumed little-endian unless named big-endian;
  - a short read is assumed to consume nothing;
  - the string, string-array, remote-address and process-tree formats are parameters.
- These helpers are parameters, since their code is not part of this model:
  - `helper.PrintUint32IP` and `helper.Print16BytesSliceIP`;
  - `helper.Ksyms` lookups;
  - `window.WindowCheck`;
  - `cache.DefaultArgvCache`;
  - `net.ParseIP`;
  - `user.LookupGroupId`.
- Go map iteration order is a parameter (`Lookups.order`). `Users.RangeOrder` says what `range` guarantees: every key, each exactly once, in some order.
- `cache.Cache.Update` is not modelled. It is a side effect on another component's cache.
- File I/O is not modelled. Files are their lines or bytes. The 1 MiB `io.LimitReader` and the `bufio.Scanner` token limit are not modelled either.
- Cron scheduling, probe tables, `GetProbes`, `FillCache`, `Name` and `String` are registration plumbing with no logic.
- `get_module_from_addr` is not modelled, because the IDT scan never uses its result.
- The monitored system-call numbers are the `toCheck` parameter.
- `MAX_PERCPU_BUFSIZE` is not part of this model.
  - The scratch buffer's size is its length.
  - Masking is `Bits.Mask`, which is modulo. `Bits.MaskIsAnd` proves it equals the code's `& (size - 1)` for power-of-two sizes.
- A corrupt IDT cursor makes the C `int` expression `(start + 1) * 16` overflow. This is not modelled: `Rootkit.ChunkIndices` uses unbounded integers.
- The question-name loop reads the first length and then does nine lookups (hades_net.h:253-275), so only names of up to nine labels end the walk. The comment at hades_net.h:254 says up to 10 are supported; the model follows the loop (`Dns.NAME_LOOKUPS`).
- Rootkit.DoInitModule: assumes the module-name read leaves the rest of the stack frame intact. The code reads up to 56 bytes into the 8-byte pointer variable `modname` (hades_rootkit.h:52-54), so a name longer than 7 bytes is written past it into a frame whose layout the compiler chooses; the model records the read as the bounded string at the module's name field.
- The DNS event stores the executable at index 1, the same index as the name. The module-load event stores the working directory at index 1 again. Both are kept as written, because the decoders for these events are not part of this model.
- Dns.FirstLengthKept: stated only when the buffer is long enough that masked indices cannot wrap back onto offset 12.
- Dns.RecordTypes: its contract covers only the unfinished-walk case. `Dns.NameFields` gives the values for a well-formed name.
- SshdConfig.ParseLine: lines are sequences of decoded characters, as Go's `strings.TrimSpace` and `strings.FieldsFunc` decode UTF-8 before testing for white space (sshdconfig.go:46, 55-57); a line that is not valid UTF-8 cannot be given. Its contract covers only skipped lines. `SshdConfig.ParseSetting` and `SshdConfig.FieldTrimIsIdentity` state what a setting parses to. The model omits the code's second `TrimSpace` on each field, and `FieldTrimIsIdentity` proves that trim has no effect.
- Rootkit.GetCache: stated only for stored values below 2^31. Larger `u32` values turn negative through the C `int` return.
- Execveat.ReadStrings: states which fields the reads may change, but not their values. `Execveat.ExecveRoundTrip` gives the values.
- Users.Collect: states only the error flag. `Users.RunReportsLastLogin` gives the contents.
- Users.ByteString: maps each byte to one character, as Go's `string(bytes)` keeps the bytes unchanged. In `Users`, passwd lines and wtmp names are both byte strings, one character per byte, since the map lookup at user.go:93 compares bytes; a passwd line given as decoded characters would not match a non-ASCII wtmp name as it does in Go.
- Users.RunReportsLastLogin: requires distinct UIDs and a map walk that visits every key once. With shared UIDs the map order decides the entry, as `Users.SharedUidCollapses` shows.

## Findings

| source | as written | input that shows it | evidently intended | confidence | as-written member | corrected member |
|---|---|---|---|---|---|---|
| plugin/ebpfdriver/kern/include/hades_net.h:230 | copies `iov_len & 512` bytes after clamping `iov_len` to 512, which is 0 for every segment of 20 to 511 bytes | a 100-byte DNS response segment | copy `min(iov_len, 512)` bytes | not executed | Dns.ShortResponseDiverges | Dns.CopyLen |
| plugin/ebpfdriver/kern/include/hades_net.h:279-282 | the record type is `buf[hi] \| buf[lo]`, without shifting the high byte | type bytes 01 01 (CAA, 257) read as 1 | `buf[hi] << 8 \| buf[lo]` | not executed | Dns.RecordTypeAsWrittenMisreads | Dns.RecordType |
| plugin/ebpfdriver/user/event/execveat.go:96-97 | every `SSH_` variable overwrites the connection field, and `TrimPrefix` leaves other names intact | `SSH_CONNECTION=10.0.0.1 50000 10.0.0.2 22` followed by `SSH_TTY=/dev/pts/0` gives `SSH_TTY=/dev/pts/0` | test for the `SSH_CONNECTION=` prefix | not executed | Execveat.ExecveSshTty | Execveat.ScanEnvTakesConnection |
| plugin/collector/event/sshdconfig.go:42-67 | the default is stored under `max_authtries`, but a setting is stored under `max_auth_tries` | a file holding `MaxAuthTries 3` reports `max_authtries` as `-1` | one key for default and setting | not executed | SshdConfig.MaxAuthTriesLineIgnored | SshdConfig.RunReportsLastSetting |
| plugin/collector/event/user.go:93-97 | the login IP and time are set on a copy of the map entry, which is discarded | any wtmp record for an existing user | store the updated account back into the map | not executed | Users.RunAsWrittenNeverLogsIn | Users.RunReportsLastLogin |

=== FILE: bits.dfy ===
/**
 Unsigned integer bit operations written over `nat`, as the kernel side uses
 them: `&` for bounds masking and field extraction, `|` for combining bytes,
 and right shifts. Bytes are the naturals below 256.
 */
module Bits {

  type byte = x: nat | x < 256
  type u16 = x: nat | x < 0x1_0000
  type u32 = x: nat | x < 0x1_0000_0000

  const U16_LIMIT: nat := 0x1_0000
  const U32_LIMIT: nat := 0x1_0000_0000
  const U64_LIMIT: nat := 0x1_0000_0000_0000_0000

  function Pow2(k: nat): (r: nat)
    ensures r >= 1
  {
    if k == 0 then 1 else 2 * Pow2(k - 1)
  }

  /** The powers of two the bit-field extractions use. */
  lemma Pow2Values()
    ensures Pow2(3) == 8 && Pow2(4) == 16 && Pow2(7) == 128 && Pow2(9) == 512
  {
  }

  /** True iff `n` is a power of two (1, 2, 4, ...). */
  predicate IsPow2(n: nat)
    decreases n
  {
    n == 1 || (n >= 2 && n % 2 == 0 && IsPow2(n / 2))
  }

  /** Bitwise AND of two unsigned values. */
  function BitAnd(a: nat, b: nat): nat
    decreases a
  {
    if a == 0 || b == 0 then 0
    else 2 * BitAnd(a / 2, b / 2) + (if a % 2 == 1 && b % 2 == 1 then 1 else 0)
  }

  /** Bitwise OR of two unsigned values. */
  function BitOr(a: nat, b: nat): nat
    decreases a + b
  {
    if a == 0 then b
    else if b == 0 then a
    else 2 * BitOr(a / 2, b / 2) + (if a % 2 == 1 || b % 2 == 1 then 1 else 0)
  }

  /** Logical right shift, one bit at a time. */
  function Shr(a: nat, k: nat): nat
  {
    if k == 0 then a else Shr(a / 2, k - 1)
  }

  /** Division and remainder are determined by any decomposition `x == d*q + r`. */
  lemma DivModUnique(x: nat, d: nat, q: nat, r: nat)
    requires d > 0 && r < d && x == d * q + r
    ensures x / d == q && x % d == r
  {
    var q', r' := x / d, x % d;
    assert x == d * q' + r';
    if q' > q {
      MulMono(d, q + 1, q');
      assert false;
    } else if q' < q {
      MulMono(d, q' + 1, q);
      assert false;
    }
  }

  lemma MulMono(d: nat, a: nat, b: nat)
    requires a <= b
    ensures d * a <= d * b
  {
    var c: nat := b - a;
    assert d * b == d * a + d * c;
  }

  /** Shifts by the widths the header and copy-length fields use are divisions by constants. */
  lemma ShrValues(a: nat)
    ensures Shr(a, 3) == a / 8 && Shr(a, 7) == a / 128 && Shr(a, 9) == a / 512
  {
    ShrStep(a, 0); ShrStep(a, 1); ShrStep(a, 2);
    assert Shr(a, 3) == a / 8;
    ShrStep(a, 3); ShrStep(a, 4); ShrStep(a, 5); ShrStep(a, 6);
    assert Shr(a, 7) == a / 128;
    ShrStep(a, 7); ShrStep(a, 8);
  }

  /** One more bit of shift halves the result. */
  lemma {:induction false} ShrStep(a: nat, k: nat)
    ensures Shr(a, k + 1) == Shr(a, k) / 2
    decreases k
  {
    if k > 0 {
      ShrStep(a / 2, k - 1);
    }
  }

  /** Dividing a value of at least `d` by `d` gives a positive, strictly smaller quotient. */
  lemma DivShrinks(n: nat, d: nat)
    requires d >= 2 && n >= d
    ensures 1 <= n / d < n && n == d * (n / d) + n % d
  {
    var q := n / d;
    assert n == d * q + n % d;
    if q == 0 {
      assert false;
    }
    MulMono(q, 2, d);
    assert q * 2 <= q * d;
  }

  /** The remainder modulo 2^(k+1) is built from the low bit and the halved remainder. */
  lemma ModDouble(x: nat, k: nat)
    ensures x % Pow2(k + 1) == 2 * ((x / 2) % Pow2(k)) + x % 2
  {
    ModDoubleBy(x, Pow2(k));
  }

  lemma ModDoubleBy(x: nat, p: nat)
    requires p >= 1
    ensures x % (2 * p) == 2 * ((x / 2) % p) + x % 2
  {
    var h := x / 2;
    var q := h / p;
    var s := h % p;
    assert x == (2 * p) * q + (2 * s + x % 2);
    DivModUnique(x, 2 * p, q, 2 * s + x % 2);
  }

  /** AND never exceeds either operand: `x & m` is an index below `m + 1`. */
  lemma {:induction false} AndBound(a: nat, b: nat)
    ensures BitAnd(a, b) <= a && BitAnd(a, b) <= b
    decreases a
  {
    if a != 0 && b != 0 {
      AndBound(a / 2, b / 2);
    }
  }

  /** Masking with 2^k - 1 keeps exactly the k low bits: it is reduction modulo 2^k. */
  lemma {:induction false} AndLowMask(x: nat, k: nat)
    ensures BitAnd(x, Pow2(k) - 1) == x % Pow2(k)
    decreases k
  {
    if k == 0 {
    } else if x == 0 {
    } else {
      var m := Pow2(k) - 1;
      assert m % 2 == 1 && m / 2 == Pow2(k - 1) - 1;
      assert BitAnd(x, m) == 2 * BitAnd(x / 2, m / 2) + x % 2;
      AndLowMask(x / 2, k - 1);
      ModDouble(x, k - 1);
    }
  }

  /** AND with the single bit 2^k yields 2^k when bit k of `x` is set, else 0. */
  lemma {:induction false} AndSingleBit(x: nat, k: nat)
    ensures BitAnd(x, Pow2(k)) == (if Shr(x, k) % 2 == 1 then Pow2(k) else 0)
    decreases k
  {
    if k == 0 {
      assert BitAnd(x / 2, 0) == 0;
    } else {
      assert Pow2(k) % 2 == 0 && Pow2(k) / 2 == Pow2(k - 1);
      assert BitAnd(x, Pow2(k)) == 2 * BitAnd(x / 2, Pow2(k - 1));
      AndSingleBit(x / 2, k - 1);
    }
  }

  /** A power of two is 2^k for some k; this gives the exponent. */
  function Log2(n: nat): (k: nat)
    requires IsPow2(n)
    ensures Pow2(k) == n
    decreases n
  {
    if n == 1 then 0 else 1 + Log2(n / 2)
  }

  /**
   The masking idiom `x & (size - 1)` on a power-of-two `size`, written as the
   remainder it computes (`MaskIsAnd`); every index it yields is in bounds.
   */
  function Mask(x: nat, size: nat): (i: nat)
    requires size >= 1
    ensures i < size
  {
    x % size
  }

  /** For a power-of-two size, masking with `size - 1` is exactly `Mask`. */
  lemma MaskIsAnd(x: nat, size: nat)
    requires IsPow2(size)
    ensures BitAnd(x, size - 1) == Mask(x, size)
  {
    AndLowMask(x, Log2(size));
  }

  /** An index already in bounds passes the mask unchanged. */
  lemma MaskInBounds(x: nat, size: nat)
    requires 1 <= size && x < size
    ensures Mask(x, size) == x
  {
    DivModUnique(x, size, 0, x);
  }

  /** OR of two bytes is a byte, and OR with zero is the identity. */
  lemma {:induction false} OrBound(a: nat, b: nat, k: nat)
    requires a < Pow2(k) && b < Pow2(k)
    ensures BitOr(a, b) < Pow2(k)
    ensures a == 0 ==> BitOr(a, b) == b
    ensures b == 0 ==> BitOr(a, b) == a
    decreases k
  {
    if a != 0 && b != 0 {
      assert k > 0;
      OrBound(a / 2, b / 2, k - 1);
    }
  }
}

=== FILE: decoder.dfy ===
/**
 The user-space reading of an event record: a cursor over the record's
 bytes from which fixed-width integers, byte slices and variable-length
 items are taken in order. Fixed-width reads are little-endian unless their
 name says big-endian; a read that does not find enough bytes fails,
 consumes nothing and leaves its target as it was. The variable-length
 readers (strings, string arrays, the remote address and the process tree)
 have formats that are not part of this model and are passed in as
 functions.
 */
module Decoder {
  import opened Bits
  import opened Events

  /** A value taken from the front of a byte stream and the bytes after it. */
  datatype Decoded<T> = Decoded(value: T, rest: seq<byte>)

  /** How decoding one record ends: `nil`, a read error, `ErrIgnore` or `ErrFilter`. */
  datatype Status = Ok | DecodeError | Ignored | Filtered

  /** The decoded record (the receiver after the call), how the call ended, and the unread bytes. */
  datatype Outcome<T> = Outcome(value: T, status: Status, rest: seq<byte>)

  function Pow256(n: nat): (r: nat)
    ensures r >= 1
  {
    if n == 0 then 1 else 256 * Pow256(n - 1)
  }

  /** The value of bytes stored least significant first. */
  function LEValue(s: seq<byte>): (v: nat)
    ensures v < Pow256(|s|)
  {
    if |s| == 0 then 0 else s[0] + 256 * LEValue(s[1..])
  }

  /** The value of bytes stored most significant first. */
  function BEValue(s: seq<byte>): (v: nat)
    ensures v < Pow256(|s|)
  {
    if |s| == 0 then 0 else BEValue(s[..|s| - 1]) * 256 + s[|s| - 1]
  }

  /** The `n` low bytes of `v`, least significant first. */
  function LEBytes(v: nat, n: nat): (s: seq<byte>)
    ensures |s| == n
  {
    if n == 0 then [] else [v % 256] + LEBytes(v / 256, n - 1)
  }

  /** The `n` low bytes of `v`, most significant first. */
  function BEBytes(v: nat, n: nat): (s: seq<byte>)
    ensures |s| == n
  {
    if n == 0 then [] else BEBytes(v / 256, n - 1) + [v % 256]
  }

  /** A value below 256^n divided by 256 is below 256^(n-1). */
  lemma QuotientBound(v: nat, n: nat)
    requires n >= 1 && v < Pow256(n)
    ensures v / 256 < Pow256(n - 1)
    ensures v == 256 * (v / 256) + v % 256
  {
  }

  lemma {:induction false} LERoundTrip(v: nat, n: nat)
    requires v < Pow256(n)
    ensures LEValue(LEBytes(v, n)) == v
    decreases n
  {
    if n > 0 {
      QuotientBound(v, n);
      LERoundTrip(v / 256, n - 1);
      assert LEBytes(v, n)[1..] == LEBytes(v / 256, n - 1);
    }
  }

  lemma {:induction false} LEBytesOfValue(s: seq<byte>)
    ensures LEBytes(LEValue(s), |s|) == s
    decreases |s|
  {
    if |s| > 0 {
      var v := LEValue(s);
      DivModUnique(v, 256, LEValue(s[1..]), s[0]);
      LEBytesOfValue(s[1..]);
      assert s == [s[0]] + s[1..];
    }
  }

  lemma {:induction false} BERoundTrip(v: nat, n: nat)
    requires v < Pow256(n)
    ensures BEValue(BEBytes(v, n)) == v
    decreases n
  {
    if n > 0 {
      QuotientBound(v, n);
      BERoundTrip(v / 256, n - 1);
      var s := BEBytes(v, n);
      assert s[..|s| - 1] == BEBytes(v / 256, n - 1);
    }
  }

  lemma {:induction false} BEBytesOfValue(s: seq<byte>)
    ensures BEBytes(BEValue(s), |s|) == s
    decreases |s|
  {
    if |s| > 0 {
      var v := BEValue(s);
      var init := s[..|s| - 1];
      DivModUnique(v, 256, BEValue(init), s[|s| - 1]);
      BEBytesOfValue(init);
      assert s == init + [s[|s| - 1]];
    }
  }

  /** The first `n` bytes of the stream; fails, consuming nothing, when fewer remain. */
  function ReadBytes(s: seq<byte>, n: nat): (r: Option<Decoded<seq<byte>>>)
    ensures r.None? <==> |s| < n
    ensures r.Some? ==> |r.value.value| == n && r.value.value + r.value.rest == s
  {
    if |s| < n then None else Some(Decoded(s[..n], s[n..]))
  }

  /** An `n`-byte unsigned integer in the given byte order. */
  function ReadUint(s: seq<byte>, n: nat, bigEndian: bool): (r: Option<Decoded<nat>>)
    ensures r.None? <==> |s| < n
    ensures r.Some? ==> r.value.value < Pow256(n) && r.value.rest == s[n..]
  {
    match ReadBytes(s, n)
    case None => None
    case Some(d) => Some(Decoded(if bigEndian then BEValue(d.value) else LEValue(d.value), d.rest))
  }

  /** The bytes of an `n`-byte unsigned integer in the given byte order. */
  function UintBytes(v: nat, n: nat, bigEndian: bool): (s: seq<byte>)
    ensures |s| == n
  {
    if bigEndian then BEBytes(v, n) else LEBytes(v, n)
  }

  /** Reading back an encoded integer gives the value and leaves what follows it. */
  lemma ReadUintRoundTrip(v: nat, n: nat, bigEndian: bool, rest: seq<byte>)
    requires v < Pow256(n)
    ensures ReadUint(UintBytes(v, n, bigEndian) + rest, n, bigEndian) == Some(Decoded(v, rest))
  {
    var s := UintBytes(v, n, bigEndian) + rest;
    assert s[..n] == UintBytes(v, n, bigEndian);
    assert s[n..] == rest;
    if bigEndian { BERoundTrip(v, n); } else { LERoundTrip(v, n); }
  }

  /** Every `n`-byte stream prefix is the encoding of the integer read from it. */
  lemma ReadUintCovers(s: seq<byte>, n: nat, bigEndian: bool)
    requires |s| >= n
    ensures s == UintBytes(ReadUint(s, n, bigEndian).value.value, n, bigEndian) + s[n..]
  {
    if bigEndian { BEBytesOfValue(s[..n]); } else { LEBytesOfValue(s[..n]); }
    assert s == s[..n] + s[n..];
  }

  function DecodeUint8(s: seq<byte>): Option<Decoded<nat>> { ReadUint(s, 1, false) }
  function DecodeUint16(s: seq<byte>): Option<Decoded<nat>> { ReadUint(s, 2, false) }
  function DecodeUint16BigEndian(s: seq<byte>): Option<Decoded<nat>> { ReadUint(s, 2, true) }
  function DecodeUint32(s: seq<byte>): Option<Decoded<nat>> { ReadUint(s, 4, false) }
  function DecodeUint32BigEndian(s: seq<byte>): Option<Decoded<nat>> { ReadUint(s, 4, true) }
  function DecodeUint64(s: seq<byte>): Option<Decoded<nat>> { ReadUint(s, 8, false) }

  /** Two's-complement reading of a 16-bit value. */
  function ToInt16(v: nat): (r: int)
    requires v < U16_LIMIT
    ensures -0x8000 <= r < 0x8000
    ensures r % U16_LIMIT == v
  {
    if v < 0x8000 then v else v - U16_LIMIT
  }

  /** A signed 16-bit little-endian integer. */
  function DecodeInt16(s: seq<byte>): (r: Option<Decoded<int>>)
    ensures r.None? <==> |s| < 2
    ensures r.Some? ==> -0x8000 <= r.value.value < 0x8000 && r.value.rest == s[2..]
  {
    match ReadUint(s, 2, false)
    case None => None
    case Some(d) => assert Pow256(2) == U16_LIMIT; Some(Decoded(ToInt16(d.value), d.rest))
  }

  /** The two bytes of a signed 16-bit integer, least significant first. */
  function Int16Bytes(x: int): (s: seq<byte>)
    requires -0x8000 <= x < 0x8000
    ensures |s| == 2
  {
    LEBytes(x % U16_LIMIT, 2)
  }

  lemma Int16RoundTrip(x: int, rest: seq<byte>)
    requires -0x8000 <= x < 0x8000
    ensures DecodeInt16(Int16Bytes(x) + rest) == Some(Decoded(x, rest))
  {
    assert Pow256(2) == U16_LIMIT;
    ReadUintRoundTrip(x % U16_LIMIT, 2, false, rest);
  }

  /** A remote peer as `DecodeRemoteAddr` yields it: family, port and printed address. */
  datatype RemoteAddr = RemoteAddr(family: nat, port: nat, ip: string)

  /** A process tree as `DecodePidTree` yields it, with the privilege-escalation flag it reports. */
  datatype PidTree = PidTree(tree: string, privEscalation: nat)

  /** The variable-length readers, whose formats are not part of this model. */
  datatype Formats = Formats(
    str: seq<byte> -> Option<Decoded<string>>,
    strArray: seq<byte> -> Option<Decoded<seq<string>>>,
    remoteAddr: seq<byte> -> Option<Decoded<RemoteAddr>>,
    pidTree: seq<byte> -> Option<Decoded<PidTree>>)
}

=== FILE: dns.dfy ===
/**
 The UDP receive-exit hook: recover the cached message header, copy the
 first I/O segment into the per-CPU scratch buffer, and, for DNS responses,
 extract opcode, response code, the question name and two record types by
 offset arithmetic (section 4.1 of RFC 1035 for the layout). Every index
 computed from message contents is masked with `size - 1`, where `size` is
 the scratch buffer's length.
 */
module Dns {
  import opened Bits
  import opened Events

  const DOT: byte := 46
  /** Length-byte lookups after the first label (loop iterations 1 to 9). */
  const NAME_LOOKUPS: nat := 9
  /** The shortest first segment the hook parses. */
  const MIN_SEGMENT: nat := 20
  /** The copy is truncated to this many bytes. */
  const MAX_COPY: nat := 512
  /** Offset of the first label-length byte: the question follows the 12-byte header. */
  const NAME_OFFSET: nat := 12

  // ---------------------------------------------------------------------------
  // Header fields
  // ---------------------------------------------------------------------------

  /** QR: the message is a response iff the top bit of byte 2 is set. */
  function IsResponse(flags: byte): (r: bool)
    ensures r <==> flags >= 128
  {
    Pow2Values();
    ShrValues(flags);
    AndSingleBit(flags, 7);
    BitAnd(flags, 0x80) != 0
  }

  /** OPCODE: `(flags >> 3) & 0x0f`, the four bits below QR. */
  function Opcode(flags: byte): (r: nat)
    ensures r < 16 && r == (flags / 8) % 16
  {
    Pow2Values();
    ShrValues(flags);
    AndLowMask(Shr(flags, 3), 4);
    BitAnd(Shr(flags, 3), 0x0f)
  }

  /** RCODE: `flags2 & 0x0f`, the low nibble of byte 3. */
  function Rcode(flags2: byte): (r: nat)
    ensures r < 16 && r == flags2 % 16
  {
    Pow2Values();
    AndLowMask(flags2, 4);
    BitAnd(flags2, 0x0f)
  }

  /** Byte 2 of a header: QR, OPCODE, AA, TC, RD from the most significant bit down. */
  function HeaderFlags(qr: bool, opcode: nat, aa: bool, tc: bool, rd: bool): byte
    requires opcode < 16
  {
    (if qr then 128 else 0) + opcode * 8 + (if aa then 4 else 0) + (if tc then 2 else 0) + (if rd then 1 else 0)
  }

  /** Byte 3 of a header: RA, Z (three bits), RCODE. */
  function HeaderFlags2(ra: bool, z: nat, rcode: nat): byte
    requires z < 8 && rcode < 16
  {
    (if ra then 128 else 0) + z * 16 + rcode
  }

  /** The extracted header fields are exactly the ones encoded into bytes 2 and 3. */
  lemma HeaderRoundTrip(qr: bool, opcode: nat, aa: bool, tc: bool, rd: bool, ra: bool, z: nat, rcode: nat)
    requires opcode < 16 && z < 8 && rcode < 16
    ensures IsResponse(HeaderFlags(qr, opcode, aa, tc, rd)) == qr
    ensures Opcode(HeaderFlags(qr, opcode, aa, tc, rd)) == opcode
    ensures Rcode(HeaderFlags2(ra, z, rcode)) == rcode
  {
    var f := HeaderFlags(qr, opcode, aa, tc, rd);
    var low := (if aa then 4 else 0) + (if tc then 2 else 0) + (if rd then 1 else 0);
    DivModUnique(f, 8, (if qr then 16 else 0) + opcode, low);
    DivModUnique(f / 8, 16, if qr then 1 else 0, opcode);
    var g := HeaderFlags2(ra, z, rcode);
    DivModUnique(g, 16, (if ra then 8 else 0) + z, rcode);
  }

  // ---------------------------------------------------------------------------
  // The in-place question-name walk
  // ---------------------------------------------------------------------------

  /**
   State of the name walk: the scratch buffer, `len` (offset of the last
   byte of the current label), whether the terminating zero length was met,
   and the buffer positions rewritten to '.', in order.
   */
  datatype Walk = Walk(buf: seq<byte>, len: nat, endFlag: bool, writes: seq<nat>)

  /**
   Up to `steps` lookups: read the length byte after the current label; a
   zero ends the name; otherwise it is replaced by '.' and the walk moves to
   the end of the next label.
   */
  function WalkFrom(buf: seq<byte>, len: nat, steps: nat): (r: Walk)
    requires |buf| >= 1
    ensures |r.buf| == |buf|
    ensures |r.writes| <= steps
    decreases steps
  {
    if steps == 0 then Walk(buf, len, false, [])
    else
      var p := Mask(len + 1, |buf|);
      var t := buf[p];
      if t == 0 then Walk(buf, len, true, [])
      else
        var r := WalkFrom(buf[p := DOT], len + t + 1, steps - 1);
        Walk(r.buf, r.len, r.endFlag, [p] + r.writes)
  }

  /**
   A walk that ends stopped at a zero length byte just after its last label;
   one that does not end used every lookup, each one rewriting a byte.
   */
  lemma {:induction false} WalkEnds(buf: seq<byte>, len: nat, steps: nat)
    requires |buf| >= 1
    ensures var r := WalkFrom(buf, len, steps);
            && r.len >= len
            && (r.endFlag ==> r.buf[Mask(r.len + 1, |buf|)] == 0)
            && (!r.endFlag ==> |r.writes| == steps)
    decreases steps
  {
    if steps > 0 {
      var p := Mask(len + 1, |buf|);
      var t := buf[p];
      if t != 0 {
        WalkEnds(buf[p := DOT], len + t + 1, steps - 1);
      }
    }
  }

  /** Only listed positions change; each of them was non-zero and now holds '.'. */
  lemma {:induction false} WalkChanges(buf: seq<byte>, len: nat, steps: nat)
    requires |buf| >= 1
    ensures var r := WalkFrom(buf, len, steps);
            && (forall j :: j in r.writes ==> j < |buf| && r.buf[j] == DOT && buf[j] != 0)
            && (forall j :: 0 <= j < |buf| && r.buf[j] != buf[j] ==> j in r.writes)
    decreases steps
  {
    if steps > 0 {
      var p := Mask(len + 1, |buf|);
      var t := buf[p];
      if t != 0 {
        var buf' := buf[p := DOT];
        WalkChanges(buf', len + t + 1, steps - 1);
        var r := WalkFrom(buf', len + t + 1, steps - 1);
        assert WalkFrom(buf, len, steps) == Walk(r.buf, r.len, r.endFlag, [p] + r.writes);
        forall j | j in [p] + r.writes
          ensures j < |buf| && r.buf[j] == DOT && buf[j] != 0
        {
          if j != p {
            assert j in r.writes;
          } else if p !in r.writes {
            assert r.buf[p] == buf'[p];
          }
        }
        forall j | 0 <= j < |buf| && r.buf[j] != buf[j]
          ensures j in [p] + r.writes
        {
          if j != p {
            assert buf'[j] == buf[j];
          }
        }
      }
    }
  }

  /** The walk as the hook runs it: the first label length at offset 12, then nine lookups. */
  function NameWalk(buf: seq<byte>): Walk
    requires |buf| > NAME_OFFSET
  {
    WalkFrom(buf, NAME_OFFSET + buf[NAME_OFFSET], NAME_LOOKUPS)
  }

  /**
   The loop of the hook over a local copy of the scratch buffer: iteration 0
   reads the first label length, each later one performs a lookup and leaves
   the loop on a zero length byte. The hook runs `NAME_LOOKUPS + 1`
   iterations, which computes `NameWalk`; `WalkChanges` and `WalkEnds`
   state what any such walk does to the buffer.
   */
  method WalkName(buf: seq<byte>, iterations: nat) returns (out: seq<byte>, len: nat, endFlag: bool, writes: seq<nat>)
    requires |buf| > NAME_OFFSET && iterations >= 1
    ensures Walk(out, len, endFlag, writes) == WalkFrom(buf, NAME_OFFSET + buf[NAME_OFFSET], iterations - 1)
    ensures |out| == |buf| && |writes| <= iterations - 1
  {
    out := buf;
    len := 0;
    endFlag := false;
    writes := [];
    ghost var whole := WalkFrom(buf, NAME_OFFSET + buf[NAME_OFFSET], iterations - 1);
    var i := 0;
    while i < iterations
      invariant 0 <= i <= iterations
      invariant |out| == |buf|
      invariant !endFlag
      invariant i == 0 ==> out == buf && writes == []
      invariant i >= 1 ==> WalkFrom(out, len, iterations - i).buf == whole.buf
      invariant i >= 1 ==> WalkFrom(out, len, iterations - i).len == whole.len
      invariant i >= 1 ==> WalkFrom(out, len, iterations - i).endFlag == whole.endFlag
      invariant i >= 1 ==> writes + WalkFrom(out, len, iterations - i).writes == whole.writes
    {
      if i == 0 {
        len := out[NAME_OFFSET];
        len := NAME_OFFSET + len;
      } else {
        var p := Mask(len + 1, |out|);
        var templen := out[p];
        if templen == 0 {
          endFlag := true;
          break;
        }
        out := out[p := DOT];
        len := len + templen + 1;
        writes := writes + [p];
      }
      i := i + 1;
    }
  }

  /** Without wrap-around every rewritten position lies after the current label. */
  lemma {:induction false} WalkWritesAfter(buf: seq<byte>, len: nat, steps: nat)
    requires len + 256 * steps < |buf|
    ensures forall j :: j in WalkFrom(buf, len, steps).writes ==> len < j
    decreases steps
  {
    if steps > 0 {
      var p := Mask(len + 1, |buf|);
      MaskInBounds(len + 1, |buf|);
      var t := buf[p];
      if t != 0 {
        assert 256 * steps == 256 + 256 * (steps - 1);
        WalkWritesAfter(buf[p := DOT], len + t + 1, steps - 1);
        var r := WalkFrom(buf[p := DOT], len + t + 1, steps - 1);
        assert WalkFrom(buf, len, steps).writes == [p] + r.writes;
      }
    }
  }

  /**
   When the lookups cannot wrap around the scratch buffer, the first length
   byte is never rewritten; for the hook's nine lookups any buffer of 4096
   bytes or more qualifies.
   */
  lemma FirstLengthKept(buf: seq<byte>, steps: nat)
    requires NAME_OFFSET + 255 + 256 * steps < |buf|
    ensures WalkFrom(buf, NAME_OFFSET + buf[NAME_OFFSET], steps).buf[NAME_OFFSET] == buf[NAME_OFFSET]
  {
    WalkWritesAfter(buf, NAME_OFFSET + buf[NAME_OFFSET], steps);
    WalkChanges(buf, NAME_OFFSET + buf[NAME_OFFSET], steps);
  }

  // ---------------------------------------------------------------------------
  // Record types and the name string
  // ---------------------------------------------------------------------------

  /** A 16-bit record type from its two bytes in network order. */
  function RecordType(hi: byte, lo: byte): (r: nat)
    ensures r < U16_LIMIT && r / 256 == hi && r % 256 == lo
  {
    hi * 256 + lo
  }

  /** The record type as the hook computes it: the two bytes OR-ed together. */
  function RecordTypeAsWritten(hi: byte, lo: byte): (r: nat)
    ensures r < 256
    ensures hi == 0 ==> r == RecordType(hi, lo)
  {
    OrBound(lo, hi, 8);
    BitOr(lo, hi)
  }

  /**
   QTYPE is CAA (257, bytes 0x01 0x01), the OR-combination reports 1, the
   value of an A record: types of 256 and above are misreported.
   */
  lemma RecordTypeAsWrittenMisreads()
    ensures RecordType(1, 1) == 257
    ensures RecordTypeAsWritten(1, 1) == 1
  {
  }

  /**
   A record type from its two bytes, combined as the variant of the exit
   hook combines them: OR-ed as written, in network order when corrected.
   */
  function Combine(v: Variant, hi: byte, lo: byte): (r: nat)
    ensures r < U16_LIMIT
    ensures v.AsWritten? ==> r < 256
    ensures hi == 0 ==> r == RecordType(hi, lo)
  {
    if v.AsWritten? then RecordTypeAsWritten(hi, lo) else RecordType(hi, lo)
  }

  /**
   QTYPE sits two and three bytes after the end of the last label (right
   after the zero length byte), the first answer's TYPE eight and nine
   bytes after it (past QCLASS and a two-byte compressed answer name).
   When the name did not end within the lookups both are 0.
   */
  function RecordTypes(w: Walk, v: Variant): (r: (nat, nat))
    requires |w.buf| >= 1
    ensures !w.endFlag ==> r == (0, 0)
    ensures v.AsWritten? ==> r.0 < 256 && r.1 < 256
  {
    if w.endFlag then
      var b := w.buf;
      var size := |b|;
      (Combine(v, b[Mask(w.len + 2, size)], b[Mask(w.len + 3, size)]),
       Combine(v, b[Mask(w.len + 8, size)], b[Mask(w.len + 9, size)]))
    else (0, 0)
  }

  /** The high bytes of both record types the walk points at are zero (types below 256). */
  predicate HighTypeBytesZero(w: Walk)
    requires |w.buf| >= 1
  {
    w.endFlag ==> w.buf[Mask(w.len + 2, |w.buf|)] == 0 && w.buf[Mask(w.len + 8, |w.buf|)] == 0
  }

  /** The NUL-terminated string starting at `start` (the rest of the buffer if no NUL follows). */
  function CString(buf: seq<byte>, start: nat): (r: seq<byte>)
    requires start <= |buf|
    ensures start + |r| <= |buf| && r == buf[start..start + |r|]
    ensures forall i :: 0 <= i < |r| ==> r[i] != 0
    ensures start + |r| < |buf| ==> buf[start + |r|] == 0
    decreases |buf| - start
  {
    if start == |buf| || buf[start] == 0 then []
    else [buf[start]] + CString(buf, start + 1)
  }

  lemma {:induction false} CStringOf(buf: seq<byte>, start: nat, s: seq<byte>)
    requires start + |s| < |buf| && buf[start + |s|] == 0
    requires forall k :: 0 <= k < |s| ==> buf[start + k] == s[k]
    requires forall i :: 0 <= i < |s| ==> s[i] != 0
    ensures CString(buf, start) == s
    decreases |s|
  {
    if |s| > 0 {
      assert buf[start + 0] == s[0];
      forall k | 0 <= k < |s| - 1
        ensures buf[start + 1 + k] == s[1..][k]
      {
        assert buf[start + (1 + k)] == s[1 + k];
      }
      CStringOf(buf, start + 1, s[1..]);
      assert s == [s[0]] + s[1..];
    }
  }

  // ---------------------------------------------------------------------------
  // Copying the segment into the scratch buffer
  // ---------------------------------------------------------------------------

  function Min(a: nat, b: nat): nat
  {
    if a < b then a else b
  }

  /**
   The copy length as the hook computes it, `min(iov_len, 512) & 512`:
   512 for segments of at least 512 bytes and 0 for every shorter one.
   */
  function CopyLenAsWritten(iovLen: nat): (n: nat)
    ensures n == (if iovLen >= MAX_COPY then MAX_COPY else 0)
  {
    var m := Min(iovLen, MAX_COPY);
    AndCopyBit(m);
    BitAnd(m, 512)
  }

  /** For a length of at most 512, `& 512` keeps 512 and clears every smaller length. */
  lemma AndCopyBit(m: nat)
    requires m <= MAX_COPY
    ensures BitAnd(m, 512) == (if m == MAX_COPY then MAX_COPY else 0)
  {
    Pow2Values();
    ShrValues(m);
    AndSingleBit(m, 9);
    if m == MAX_COPY {
      DivModUnique(m, 512, 1, 0);
    } else {
      DivModUnique(m, 512, 0, m);
    }
  }

  /** A 100-byte response passes the length check and yet no byte of it is copied. */
  lemma CopyLenAsWrittenDropsShortSegments()
    ensures 100 >= MIN_SEGMENT && CopyLenAsWritten(100) == 0
  {
  }

  /** The intended copy length: the whole segment, truncated to 512 bytes. */
  function CopyLen(iovLen: nat): (n: nat)
    ensures n <= MAX_COPY
    ensures iovLen <= MAX_COPY ==> n == iovLen
    ensures iovLen > MAX_COPY ==> n == MAX_COPY
  {
    Min(iovLen, MAX_COPY)
  }

  /** The number of bytes the variant copies from a segment of `iovLen` bytes; both copy 512 from a full segment. */
  function CopyLength(iovLen: nat, v: Variant): (n: nat)
    ensures n <= MAX_COPY
    ensures iovLen >= MAX_COPY ==> n == MAX_COPY
  {
    if v.AsWritten? then CopyLenAsWritten(iovLen) else CopyLen(iovLen)
  }

  /**
   `bpf_probe_read_user` of `n` bytes to the buffer start: the readable user
   bytes, or zeros when fewer than `n` are readable; the rest keeps its
   earlier (stale) contents.
   */
  function CopyIn(dst: seq<byte>, user: seq<byte>, n: nat): (r: seq<byte>)
    requires n <= |dst|
    ensures |r| == |dst| && r[n..] == dst[n..]
    ensures n <= |user| ==> r[..n] == user[..n]
    ensures n > |user| ==> forall i :: 0 <= i < n ==> r[i] == 0
  {
    if n <= |user| then user[..n] + dst[n..]
    else seq(n, _ => 0) + dst[n..]
  }

  // ---------------------------------------------------------------------------
  // The hook
  // ---------------------------------------------------------------------------

  datatype Iovec = Iovec(base: nat, len: nat)

  /**
   What the exit hook reads besides the cache: the first iovec through the
   cached header (None when the read fails), the scratch buffer (None when
   unavailable), the readable bytes at the segment base, event
   initialisation, the context filter and the return value.
   */
  datatype RecvEnv = RecvEnv(iov: Option<Iovec>, scratch: Option<seq<byte>>, user: seq<byte>,
                             initOk: bool, filtered: bool, retval: int)

  datatype RecvExit = RecvExit(cache: map<nat, nat>, event: Option<Event>)

  /** The scratch buffer, when present, has a power-of-two size of at least 512 bytes. */
  predicate ScratchOk(env: RecvEnv)
  {
    env.scratch.Some? ==> IsPow2(|env.scratch.value|) && |env.scratch.value| >= MAX_COPY
  }

  /** The buffer after the copy, once the iovec and the scratch buffer are known. */
  function Received(env: RecvEnv, v: Variant): (buf: seq<byte>)
    requires ScratchOk(env) && env.iov.Some? && env.scratch.Some?
    ensures |buf| == |env.scratch.value|
  {
    CopyIn(env.scratch.value, env.user, CopyLength(env.iov.value.len, v))
  }

  /** The segment is long enough, the copy happened and the message is a response. */
  predicate IsDnsResponse(env: RecvEnv, v: Variant)
    requires ScratchOk(env)
  {
    && env.iov.Some? && env.iov.value.len >= MIN_SEGMENT && env.scratch.Some?
    && IsResponse(Received(env, v)[2])
  }

  /**
   The event for a response in the scratch buffer: opcode, response code and
   the two record types at index 0, the dotted name from offset 13 at index 1,
   and the executable, also at index 1.
   */
  function DnsEvent(buf: seq<byte>, retval: int, v: Variant): (e: Event)
    requires |buf| >= MAX_COPY
    ensures e.kind == UdpRecvmsg && e.retval == retval && Indices(e) == [0, 1, 1]
    ensures e.fields[0].payload.DnsData?
    ensures e.fields[0].payload.opcode == (buf[2] / 8) % 16
    ensures e.fields[0].payload.rcode == buf[3] % 16
    ensures !NameWalk(buf).endFlag ==> e.fields[0].payload.qtype == 0 && e.fields[0].payload.atype == 0
    ensures v.AsWritten? ==> e.fields[0].payload.qtype < 256 && e.fields[0].payload.atype < 256
    ensures e.fields[1].payload == BufStr(CString(NameWalk(buf).buf, NAME_OFFSET + 1))
    ensures e.fields[2].payload == TaskExe
  {
    var w := NameWalk(buf);
    var types := RecordTypes(w, v);
    Event(UdpRecvmsg, retval, [
      Field(0, DnsData(Opcode(buf[2]), Rcode(buf[3]), types.0, types.1)),
      Field(1, BufStr(CString(w.buf, NAME_OFFSET + 1))),
      Field(1, TaskExe)])
  }

  /**
   UDP receive exit. No cached header: nothing happens. The entry is deleted
   when the iovec cannot be read, when the segment is shorter than 20 bytes,
   when no scratch buffer is available, for a non-response, and after the
   event is submitted; it is kept only by the early returns after event
   initialisation fails or the context filter rejects.
   */
  function ExitUdpRecv(cache: map<nat, nat>, pidTgid: nat, env: RecvEnv, v: Variant): (r: RecvExit)
    requires ScratchOk(env)
    ensures pidTgid !in cache ==> r == RecvExit(cache, None)
    ensures r.cache == cache || r.cache == cache - {pidTgid}
    ensures pidTgid in cache ==>
              (pidTgid in r.cache <==> IsDnsResponse(env, v) && (!env.initOk || env.filtered))
    ensures r.event.Some? <==> pidTgid in cache && IsDnsResponse(env, v) && env.initOk && !env.filtered
    ensures r.event.Some? ==> r.event.value == DnsEvent(Received(env, v), env.retval, v)
  {
    if pidTgid !in cache then RecvExit(cache, None)
    else if env.iov.None? then RecvExit(cache - {pidTgid}, None)
    else if env.iov.value.len < MIN_SEGMENT then RecvExit(cache - {pidTgid}, None)
    else if env.scratch.None? then RecvExit(cache - {pidTgid}, None)
    else
      var buf := Received(env, v);
      if !IsResponse(buf[2]) then RecvExit(cache - {pidTgid}, None)
      else if !env.initOk || env.filtered then RecvExit(cache, None)
      else RecvExit(cache - {pidTgid}, Some(DnsEvent(buf, env.retval, v)))
  }

  /**
   As written, a segment of fewer than 512 bytes copies nothing, so the
   outcome is decided by whatever the scratch buffer held before: the
   received message plays no part.
   */
  lemma ShortSegmentIgnored(cache: map<nat, nat>, pidTgid: nat, env: RecvEnv, user: seq<byte>)
    requires ScratchOk(env) && env.iov.Some? && env.iov.value.len < MAX_COPY
    ensures ExitUdpRecv(cache, pidTgid, env, AsWritten) == ExitUdpRecv(cache, pidTgid, env.(user := user), AsWritten)
  {
    if env.scratch.Some? {
      assert Received(env, AsWritten) == Received(env.(user := user), AsWritten) == env.scratch.value;
    }
  }

  /**
   A response of 20 to 511 bytes, arriving over a zeroed scratch buffer:
   the corrected hook reports it, while the hook as written sees byte 2 of
   the stale buffer, takes it for a query, and drops the entry without an
   event.
   */
  lemma ShortResponseDiverges(cache: map<nat, nat>, pidTgid: nat, env: RecvEnv)
    requires pidTgid in cache && env.initOk && !env.filtered
    requires env.scratch == Some(seq(MAX_COPY, _ => 0))
    requires env.iov.Some? && env.iov.value.len == |env.user|
    requires MIN_SEGMENT <= |env.user| < MAX_COPY && env.user[2] >= 128
    ensures ScratchOk(env)
    ensures ExitUdpRecv(cache, pidTgid, env, AsWritten) == RecvExit(cache - {pidTgid}, None)
    ensures ExitUdpRecv(cache, pidTgid, env, Corrected).event.Some?
  {
    assert IsPow2(1) && IsPow2(2) && IsPow2(4) && IsPow2(8) && IsPow2(16);
    assert IsPow2(32) && IsPow2(64) && IsPow2(128) && IsPow2(256) && IsPow2(512);
    assert Received(env, AsWritten)[2] == 0;
    assert Received(env, Corrected)[2] == env.user[2];
  }

  /**
   On segments of at least 512 bytes, whose record types are below 256,
   the hook as written and the corrected hook behave identically.
   */
  lemma HooksAgreeOnFullSegments(cache: map<nat, nat>, pidTgid: nat, env: RecvEnv)
    requires ScratchOk(env) && env.iov.Some? && env.iov.value.len >= MAX_COPY
    requires env.scratch.Some? ==> HighTypeBytesZero(NameWalk(Received(env, Corrected)))
    ensures ExitUdpRecv(cache, pidTgid, env, AsWritten) == ExitUdpRecv(cache, pidTgid, env, Corrected)
  {
    if env.scratch.Some? {
      var buf := Received(env, Corrected);
      assert Received(env, AsWritten) == buf;
      assert RecordTypes(NameWalk(buf), AsWritten) == RecordTypes(NameWalk(buf), Corrected);
    }
  }

  // ---------------------------------------------------------------------------
  // Well-formed names: the walk reconstructs the dotted name
  // ---------------------------------------------------------------------------

  /** Labels the walk can carry: non-empty and at most 255 bytes (the wire format caps them at 63). */
  predicate ValidLabels(labels: seq<seq<byte>>)
  {
    forall i :: 0 <= i < |labels| ==> 0 < |labels[i]| < 256
  }

  /** The labels in wire format, each preceded by its length, without the terminating zero. */
  function EncodeLabels(labels: seq<seq<byte>>): (r: seq<byte>)
    requires ValidLabels(labels)
    decreases |labels|
  {
    if |labels| == 0 then []
    else [|labels[0]| as byte] + labels[0] + EncodeLabels(labels[1..])
  }

  /** A name in wire format: the labels and the zero length that ends the name. */
  function EncodeName(labels: seq<seq<byte>>): seq<byte>
    requires ValidLabels(labels)
  {
    EncodeLabels(labels) + [0]
  }

  /** Each label preceded by a '.'. */
  function DotTail(labels: seq<seq<byte>>): (r: seq<byte>)
    requires ValidLabels(labels)
    decreases |labels|
  {
    if |labels| == 0 then [] else [DOT] + labels[0] + DotTail(labels[1..])
  }

  /** Replacing each length byte by '.' keeps the length of the encoding. */
  lemma {:induction false} DotTailLength(labels: seq<seq<byte>>)
    requires ValidLabels(labels)
    ensures |DotTail(labels)| == |EncodeLabels(labels)|
    decreases |labels|
  {
    if |labels| > 0 {
      DotTailLength(labels[1..]);
    }
  }

  /** The labels joined with '.'. */
  function DotJoin(labels: seq<seq<byte>>): (r: seq<byte>)
    requires ValidLabels(labels) && |labels| >= 1
    ensures |r| + 1 == |EncodeLabels(labels)|
  {
    DotTailLength(labels[1..]);
    labels[0] + DotTail(labels[1..])
  }

  /** `buf` holds the encoded `labels` right after offset `len`. */
  predicate EncodedAt(buf: seq<byte>, len: nat, labels: seq<seq<byte>>)
    requires ValidLabels(labels)
  {
    && len + |EncodeName(labels)| < |buf|
    && forall k :: 0 <= k < |EncodeName(labels)| ==> buf[len + 1 + k] == EncodeName(labels)[k]
  }

  /**
   Encoded labels start with the first label's length, followed by its bytes
   and the encoding of the remaining labels.
   */
  lemma EncodedAtFirst(buf: seq<byte>, len: nat, labels: seq<seq<byte>>)
    requires ValidLabels(labels) && EncodedAt(buf, len, labels)
    ensures |labels| == 0 ==> buf[len + 1] == 0
    ensures |labels| > 0 ==>
              && buf[len + 1] == |labels[0]|
              && (forall k :: 0 <= k < |labels[0]| ==> buf[len + 2 + k] == labels[0][k])
              && EncodedAt(buf, len + |labels[0]| + 1, labels[1..])
              && |EncodeName(labels)| == 1 + |labels[0]| + |EncodeName(labels[1..])|
  {
    var E := EncodeName(labels);
    assert buf[len + 1 + 0] == E[0];
    if |labels| > 0 {
      var l := labels[0];
      var E' := EncodeName(labels[1..]);
      assert E == [|l| as byte] + l + E';
      forall k | 0 <= k < |l|
        ensures buf[len + 2 + k] == l[k]
      {
        assert buf[len + 1 + (1 + k)] == E[1 + k];
      }
      forall k | 0 <= k < |E'|
        ensures buf[len + |l| + 1 + 1 + k] == E'[k]
      {
        assert buf[len + 1 + (1 + |l| + k)] == E[1 + |l| + k];
      }
    }
  }

  /** Writing below the encoded labels keeps them in place. */
  lemma EncodedAtUpdate(buf: seq<byte>, len: nat, labels: seq<seq<byte>>, p: nat, v: byte)
    requires ValidLabels(labels) && EncodedAt(buf, len, labels) && p <= len
    ensures EncodedAt(buf[p := v], len, labels)
  {
    var E := EncodeName(labels);
    forall k | 0 <= k < |E|
      ensures buf[p := v][len + 1 + k] == E[k]
    {
      assert buf[len + 1 + k] == E[k];
    }
  }

  /** One lookup on a non-zero length byte that needs no wrap-around. */
  lemma WalkLookup(buf: seq<byte>, len: nat, steps: nat)
    requires len + 1 < |buf| && steps >= 1 && buf[len + 1] != 0
    ensures var r := WalkFrom(buf[len + 1 := DOT], len + buf[len + 1] + 1, steps - 1);
            WalkFrom(buf, len, steps) == Walk(r.buf, r.len, r.endFlag, [len + 1] + r.writes)
  {
    MaskInBounds(len + 1, |buf|);
  }

  /** On encoded labels the walk ends at the terminating zero. */
  lemma {:induction false} WalkEncodedEnds(buf: seq<byte>, len: nat, rest: seq<seq<byte>>, steps: nat)
    requires ValidLabels(rest) && |rest| < steps && EncodedAt(buf, len, rest)
    ensures WalkFrom(buf, len, steps).endFlag
    ensures WalkFrom(buf, len, steps).len + 1 == len + |EncodeName(rest)|
    decreases |rest|
  {
    EncodedAtFirst(buf, len, rest);
    MaskInBounds(len + 1, |buf|);
    if |rest| > 0 {
      var t := |rest[0]|;
      WalkLookup(buf, len, steps);
      EncodedAtUpdate(buf, len + t + 1, rest[1..], len + 1, DOT);
      WalkEncodedEnds(buf[len + 1 := DOT], len + t + 1, rest[1..], steps - 1);
    }
  }

  /** On encoded labels the walk changes nothing outside them. */
  lemma {:induction false} WalkEncodedKeeps(buf: seq<byte>, len: nat, rest: seq<seq<byte>>, steps: nat)
    requires ValidLabels(rest) && |rest| < steps && EncodedAt(buf, len, rest)
    ensures forall k :: 0 <= k < |buf| && !(len < k < len + |EncodeName(rest)|) ==>
              WalkFrom(buf, len, steps).buf[k] == buf[k]
    decreases |rest|
  {
    EncodedAtFirst(buf, len, rest);
    MaskInBounds(len + 1, |buf|);
    if |rest| > 0 {
      var t := |rest[0]|;
      WalkLookup(buf, len, steps);
      var buf' := buf[len + 1 := DOT];
      EncodedAtUpdate(buf, len + t + 1, rest[1..], len + 1, DOT);
      WalkEncodedKeeps(buf', len + t + 1, rest[1..], steps - 1);
    }
  }

  /** Byte `k` of the dotted tail: a '.', then the first label, then the dotted rest. */
  lemma DotTailIndex(rest: seq<seq<byte>>, k: nat)
    requires ValidLabels(rest) && |rest| > 0 && k < |DotTail(rest)|
    ensures k == 0 ==> DotTail(rest)[k] == DOT
    ensures 0 < k <= |rest[0]| ==> DotTail(rest)[k] == rest[0][k - 1]
    ensures |rest[0]| < k ==> k - 1 - |rest[0]| < |DotTail(rest[1..])|
    ensures |rest[0]| < k ==> DotTail(rest)[k] == DotTail(rest[1..])[k - 1 - |rest[0]|]
  {
    assert DotTail(rest) == [DOT] + rest[0] + DotTail(rest[1..]);
  }

  /** A '.', the first label and the dotted rest, laid out one after another, form the dotted tail. */
  lemma DotTailAt(r: seq<byte>, len: nat, rest: seq<seq<byte>>, next: nat)
    requires ValidLabels(rest) && |rest| > 0 && len + |DotTail(rest)| < |r|
    requires next == len + |rest[0]| + 1
    requires r[len + 1] == DOT
    requires forall k :: 0 <= k < |rest[0]| ==> r[len + 2 + k] == rest[0][k]
    requires forall k :: 0 <= k < |DotTail(rest[1..])| ==> r[next + 1 + k] == DotTail(rest[1..])[k]
    ensures forall k :: 0 <= k < |DotTail(rest)| ==> r[len + 1 + k] == DotTail(rest)[k]
  {
    forall k | 0 <= k < |DotTail(rest)|
      ensures r[len + 1 + k] == DotTail(rest)[k]
    {
      DotTailIndex(rest, k);
      if k == 0 {
        assert DotTail(rest)[k] == DOT;
      } else if k <= |rest[0]| {
        var j := k - 1;
        assert len + 2 + j == len + 1 + k;
        assert r[len + 2 + j] == rest[0][j];
        assert DotTail(rest)[k] == rest[0][j];
      } else {
        var j := k - 1 - |rest[0]|;
        assert next + 1 + j == len + 1 + k;
        assert r[next + 1 + j] == DotTail(rest[1..])[j];
        assert DotTail(rest)[k] == DotTail(rest[1..])[j];
      }
    }
  }

  /** After the first lookup, the rest of the walk leaves the '.' and the first label in place. */
  lemma WalkKeepsFirstLabel(buf: seq<byte>, len: nat, rest: seq<seq<byte>>, steps: nat, buf': seq<byte>, next: nat)
    requires ValidLabels(rest) && 0 < |rest| < steps && EncodedAt(buf, len, rest)
    requires len + 1 < |buf| && buf' == buf[len + 1 := DOT] && next == len + |rest[0]| + 1
    ensures WalkFrom(buf', next, steps - 1).buf[len + 1] == DOT
    ensures forall k :: 0 <= k < |rest[0]| ==> WalkFrom(buf', next, steps - 1).buf[len + 2 + k] == rest[0][k]
  {
    EncodedAtFirst(buf, len, rest);
    EncodedAtUpdate(buf, next, rest[1..], len + 1, DOT);
    WalkEncodedKeeps(buf', next, rest[1..], steps - 1);
    var r := WalkFrom(buf', next, steps - 1).buf;
    assert r[len + 1] == buf'[len + 1];
    forall k | 0 <= k < |rest[0]|
      ensures r[len + 2 + k] == rest[0][k]
    {
      assert r[len + 2 + k] == buf'[len + 2 + k];
    }
  }

  /** On encoded labels the walk leaves the labels, each preceded by '.'. */
  lemma {:induction false} WalkEncodedDots(buf: seq<byte>, len: nat, rest: seq<seq<byte>>, steps: nat)
    requires ValidLabels(rest) && |rest| < steps && EncodedAt(buf, len, rest)
    ensures |DotTail(rest)| + 1 == |EncodeName(rest)|
    ensures forall k :: 0 <= k < |DotTail(rest)| ==> WalkFrom(buf, len, steps).buf[len + 1 + k] == DotTail(rest)[k]
    decreases |rest|
  {
    DotTailLength(rest);
    if |rest| > 0 {
      EncodedAtFirst(buf, len, rest);
      var len' := len + |rest[0]| + 1;
      WalkLookup(buf, len, steps);
      var buf' := buf[len + 1 := DOT];
      EncodedAtUpdate(buf, len', rest[1..], len + 1, DOT);
      WalkEncodedDots(buf', len', rest[1..], steps - 1);
      WalkKeepsFirstLabel(buf, len, rest, steps, buf', len');
      DotTailAt(WalkFrom(buf', len', steps - 1).buf, len, rest, len');
    }
  }

  /**
   For a question name of at least one label and at most as many labels as
   there are lookups, the walk ends at the name's terminator, leaves the
   labels joined by '.' from offset 13, and changes nothing outside the
   encoded labels.
   */
  lemma NameRoundTrip(buf: seq<byte>, labels: seq<seq<byte>>, steps: nat)
    requires ValidLabels(labels) && 1 <= |labels| <= steps
    requires EncodedAt(buf, NAME_OFFSET - 1, labels)
    ensures var w := WalkFrom(buf, NAME_OFFSET + buf[NAME_OFFSET], steps);
            && w.endFlag
            && w.len + 2 == NAME_OFFSET + |EncodeName(labels)|
            && (forall k :: 0 <= k < |DotJoin(labels)| ==> w.buf[NAME_OFFSET + 1 + k] == DotJoin(labels)[k])
            && (forall k :: 0 <= k < |buf| && !(NAME_OFFSET < k < NAME_OFFSET + |EncodeName(labels)| - 1) ==>
                  w.buf[k] == buf[k])
  {
    EncodedAtFirst(buf, NAME_OFFSET - 1, labels);
    var l := labels[0];
    var rest := labels[1..];
    var len0 := NAME_OFFSET + |l|;
    WalkEncodedEnds(buf, len0, rest, steps);
    WalkEncodedKeeps(buf, len0, rest, steps);
    WalkEncodedDots(buf, len0, rest, steps);
    var w := WalkFrom(buf, len0, steps);
    var J := DotJoin(labels);
    forall k | 0 <= k < |J|
      ensures w.buf[NAME_OFFSET + 1 + k] == J[k]
    {
      if k < |l| {
        assert buf[NAME_OFFSET - 1 + 2 + k] == l[k];
      } else {
        assert J[k] == DotTail(rest)[k - |l|];
        assert NAME_OFFSET + 1 + k == len0 + 1 + (k - |l|);
      }
    }
  }

  /** The labels of `labels` contain no zero byte. */
  predicate NoZeroBytes(labels: seq<seq<byte>>)
  {
    forall i, j :: 0 <= i < |labels| && 0 <= j < |labels[i]| ==> labels[i][j] != 0
  }

  lemma {:induction false} DotTailNoZero(labels: seq<seq<byte>>)
    requires ValidLabels(labels) && NoZeroBytes(labels)
    ensures forall i :: 0 <= i < |DotTail(labels)| ==> DotTail(labels)[i] != 0
    decreases |labels|
  {
    if |labels| > 0 {
      DotTailNoZero(labels[1..]);
      var d := DotTail(labels);
      assert d == [DOT] + labels[0] + DotTail(labels[1..]);
      forall i | 0 <= i < |d| ensures d[i] != 0 {
        if 1 <= i < 1 + |labels[0]| {
          assert d[i] == labels[0][i - 1];
        } else if i > |labels[0]| {
          assert d[i] == DotTail(labels[1..])[i - 1 - |labels[0]|];
        }
      }
    }
  }

  lemma DotJoinNoZero(labels: seq<seq<byte>>)
    requires ValidLabels(labels) && NoZeroBytes(labels) && |labels| >= 1
    ensures forall i :: 0 <= i < |DotJoin(labels)| ==> DotJoin(labels)[i] != 0
  {
    DotTailNoZero(labels[1..]);
    var J := DotJoin(labels);
    forall i | 0 <= i < |J| ensures J[i] != 0 {
      if i < |labels[0]| {
        assert J[i] == labels[0][i];
      } else {
        assert J[i] == DotTail(labels[1..])[i - |labels[0]|];
      }
    }
  }

  /**
   For a scratch buffer holding a question name of one to nine labels free of
   zero bytes, the event carries the dotted name, QTYPE from the two bytes
   after the terminator and the answer TYPE from the bytes seven and eight
   past it, each combined as the variant combines them.
   */
  lemma DnsEventOfName(buf: seq<byte>, labels: seq<seq<byte>>, retval: int, v: Variant)
    requires |buf| >= MAX_COPY
    requires ValidLabels(labels) && NoZeroBytes(labels) && 1 <= |labels| <= NAME_LOOKUPS
    requires EncodedAt(buf, NAME_OFFSET - 1, labels)
    requires NAME_OFFSET + |EncodeName(labels)| + 8 <= |buf|
    ensures var end := NAME_OFFSET + |EncodeName(labels)| - 1;
            DnsEvent(buf, retval, v) == Event(UdpRecvmsg, retval, [
              Field(0, DnsData(Opcode(buf[2]), Rcode(buf[3]),
                               Combine(v, buf[end + 1], buf[end + 2]), Combine(v, buf[end + 7], buf[end + 8]))),
              Field(1, BufStr(DotJoin(labels))),
              Field(1, TaskExe)])
  {
    NameFields(buf, labels, NAME_LOOKUPS, v);
  }

  /** What the walk leaves for a question name of at most `steps` labels: the dotted name and both record types. */
  lemma NameFields(buf: seq<byte>, labels: seq<seq<byte>>, steps: nat, v: Variant)
    requires |buf| >= 1
    requires ValidLabels(labels) && NoZeroBytes(labels) && 1 <= |labels| <= steps
    requires EncodedAt(buf, NAME_OFFSET - 1, labels)
    requires NAME_OFFSET + |EncodeName(labels)| + 8 <= |buf|
    ensures var w := WalkFrom(buf, NAME_OFFSET + buf[NAME_OFFSET], steps);
            var end := NAME_OFFSET + |EncodeName(labels)| - 1;
            && w.endFlag
            && CString(w.buf, NAME_OFFSET + 1) == DotJoin(labels)
            && RecordTypes(w, v) == (Combine(v, buf[end + 1], buf[end + 2]), Combine(v, buf[end + 7], buf[end + 8]))
  {
    NameRoundTrip(buf, labels, steps);
    var w := WalkFrom(buf, NAME_OFFSET + buf[NAME_OFFSET], steps);
    NameCString(buf, labels, w);
    NameRecordTypes(buf, labels, w, v);
  }

  /** The C string at offset 13 after a walk that dotted the name and kept its terminator. */
  lemma NameCString(buf: seq<byte>, labels: seq<seq<byte>>, w: Walk)
    requires ValidLabels(labels) && NoZeroBytes(labels) && 1 <= |labels|
    requires EncodedAt(buf, NAME_OFFSET - 1, labels) && |w.buf| == |buf|
    requires forall k :: 0 <= k < |DotJoin(labels)| ==> w.buf[NAME_OFFSET + 1 + k] == DotJoin(labels)[k]
    requires w.buf[NAME_OFFSET + |EncodeName(labels)| - 1] == buf[NAME_OFFSET + |EncodeName(labels)| - 1]
    ensures CString(w.buf, NAME_OFFSET + 1) == DotJoin(labels)
  {
    var E := EncodeName(labels);
    var J := DotJoin(labels);
    assert |J| + 2 == |E|;
    assert buf[NAME_OFFSET - 1 + 1 + (|E| - 1)] == E[|E| - 1] == 0;
    DotJoinNoZero(labels);
    CStringOf(w.buf, NAME_OFFSET + 1, J);
  }

  /** QTYPE and the answer TYPE sit two and eight bytes past the terminator when no index wraps. */
  lemma NameRecordTypes(buf: seq<byte>, labels: seq<seq<byte>>, w: Walk, v: Variant)
    requires ValidLabels(labels) && |w.buf| == |buf| && w.endFlag
    requires NAME_OFFSET + |EncodeName(labels)| + 8 <= |buf|
    requires w.len + 2 == NAME_OFFSET + |EncodeName(labels)|
    requires forall k :: NAME_OFFSET + |EncodeName(labels)| - 1 <= k < |buf| ==> w.buf[k] == buf[k]
    ensures var end := NAME_OFFSET + |EncodeName(labels)| - 1;
            RecordTypes(w, v) == (Combine(v, buf[end + 1], buf[end + 2]), Combine(v, buf[end + 7], buf[end + 8]))
  {
    var end := NAME_OFFSET + |EncodeName(labels)| - 1;
    MaskInBounds(end + 1, |buf|);
    MaskInBounds(end + 2, |buf|);
    MaskInBounds(end + 7, |buf|);
    MaskInBounds(end + 8, |buf|);
    assert w.buf[end + 1] == buf[end + 1] && w.buf[end + 2] == buf[end + 2];
    assert w.buf[end + 7] == buf[end + 7] && w.buf[end + 8] == buf[end + 8];
  }

  /**
   A response whose question name has one to nine labels free of zero bytes,
   and whose name and record types lie within the bytes the variant copies,
   yields one event that carries the header nibbles, the dotted name, and
   QTYPE and the first answer TYPE as the variant combines them; the cache
   entry is deleted. The corrected hook copies a whole segment of up to 512
   bytes; the hook as written copies only from segments of 512 bytes or more.
   */
  lemma ResponseRoundTrip(cache: map<nat, nat>, pidTgid: nat, env: RecvEnv, labels: seq<seq<byte>>, v: Variant)
    requires ScratchOk(env) && env.scratch.Some? && pidTgid in cache
    requires env.initOk && !env.filtered
    requires ValidLabels(labels) && NoZeroBytes(labels) && 1 <= |labels| <= NAME_LOOKUPS
    requires env.iov.Some? && CopyLength(env.iov.value.len, v) <= |env.user|
    requires NAME_OFFSET + |EncodeName(labels)| + 8 <= CopyLength(env.iov.value.len, v)
    requires env.user[2] >= 128
    requires EncodedAt(env.user, NAME_OFFSET - 1, labels)
    ensures var m := env.user;
            var end := NAME_OFFSET + |EncodeName(labels)| - 1;
            ExitUdpRecv(cache, pidTgid, env, v) == RecvExit(cache - {pidTgid}, Some(Event(UdpRecvmsg, env.retval, [
              Field(0, DnsData((m[2] / 8) % 16, m[3] % 16,
                               Combine(v, m[end + 1], m[end + 2]), Combine(v, m[end + 7], m[end + 8]))),
              Field(1, BufStr(DotJoin(labels))),
              Field(1, TaskExe)])))
  {
    var m := env.user;
    var n := CopyLength(env.iov.value.len, v);
    var buf := Received(env, v);
    assert n > 0 && env.iov.value.len >= MIN_SEGMENT;
    assert buf[..n] == m[..n];
    assert forall k :: 0 <= k < n ==> buf[k] == m[k] by {
      forall k | 0 <= k < n ensures buf[k] == m[k] {
        assert buf[..n][k] == buf[k] && m[..n][k] == m[k];
      }
    }
    assert EncodedAt(buf, NAME_OFFSET - 1, labels);
    DnsEventOfName(buf, labels, env.retval, v);
  }

  /**
   The hook as written reports a response correctly when the segment holds
   at least 512 bytes and both record types are below 256: the name, the
   header nibbles and the low type bytes arrive unchanged.
   */
  lemma ResponseRoundTripAsWritten(cache: map<nat, nat>, pidTgid: nat, env: RecvEnv, labels: seq<seq<byte>>)
    requires ScratchOk(env) && env.scratch.Some? && pidTgid in cache
    requires env.initOk && !env.filtered
    requires ValidLabels(labels) && NoZeroBytes(labels) && 1 <= |labels| <= NAME_LOOKUPS
    requires env.iov.Some? && env.iov.value.len >= MAX_COPY && |env.user| >= MAX_COPY
    requires NAME_OFFSET + |EncodeName(labels)| + 8 <= MAX_COPY
    requires env.user[2] >= 128
    requires EncodedAt(env.user, NAME_OFFSET - 1, labels)
    requires var end := NAME_OFFSET + |EncodeName(labels)| - 1;
             env.user[end + 1] == 0 && env.user[end + 7] == 0
    ensures var m := env.user;
            var end := NAME_OFFSET + |EncodeName(labels)| - 1;
            ExitUdpRecv(cache, pidTgid, env, AsWritten) == RecvExit(cache - {pidTgid}, Some(Event(UdpRecvmsg, env.retval, [
              Field(0, DnsData((m[2] / 8) % 16, m[3] % 16, m[end + 2], m[end + 8])),
              Field(1, BufStr(DotJoin(labels))),
              Field(1, TaskExe)])))
  {
    ResponseRoundTrip(cache, pidTgid, env, labels, AsWritten);
  }
}

=== FILE: events.dfy ===
/**
 The event an instrumentation point hands to user space: a header (event
 type and return value) and an ordered list of positional fields. Values
 produced by kernel introspection helpers (the task's executable path, its
 ancestry, socket details, strings read through pointers) are kept symbolic:
 a field records which value was captured, not its bytes.
 */
module Events {
  import opened Bits

  datatype Option<T> = None | Some(value: T)

  /**
   Which build of an operation whose code has a defect: the code as it
   stands, or with the defect corrected.
   */
  datatype Variant = AsWritten | Corrected

  /** Address families, as in the Linux socket ABI. */
  const AF_INET: nat := 2
  const AF_INET6: nat := 10

  /** `sizeof(struct sockaddr_in)` and `sizeof(struct sockaddr_in6)` on Linux. */
  const SIZEOF_SOCKADDR_IN: nat := 16
  const SIZEOF_SOCKADDR_IN6: nat := 28

  /**
   Event type tags. Only the module-load tag is written as a literal in the
   hooks; the others are named constants whose values are not part of this model.
   */
  datatype EventType =
    | Numeric(id: nat)
    | SysConnect
    | SecuritySocketBind
    | UdpRecvmsg
    | SecurityKernelReadFile
    | CallUsermodehelper

  datatype Payload =
    | Scalar(value: int, width: nat)        // fixed-width integer of `width` bytes
    | UserBytes(ptr: nat, size: nat)        // `size` raw bytes copied from address `ptr`
    | StrAt(ptr: nat)                       // NUL-terminated string read from address `ptr`
    | BoundedStrAt(ptr: nat, limit: nat)    // string read from `ptr` with a `limit`-byte bound on the write
    | StrArrayAt(ptr: nat)                  // NULL-terminated string array at `ptr`
    | BufStr(bytes: seq<byte>)              // NUL-terminated string from the scratch buffer
    | PathOf(pathPtr: nat)                  // rendered path of the `struct path` at `pathPtr`
    | TaskExe                               // executable path of the current task
    | TaskPidTree(depth: nat)               // ancestry of the current task, `depth` levels
    | ConnV4(sock: nat)                     // IPv4 connection tuple of socket `sock`
    | ConnV6(sock: nat)                     // IPv6 connection tuple of socket `sock`
    | DnsData(opcode: nat, rcode: nat, qtype: nat, atype: nat)
    | U64Array(values: seq<nat>)

  datatype Field = Field(index: nat, payload: Payload)

  datatype Event = Event(kind: EventType, retval: int, fields: seq<Field>)

  /** The positional indices of an event's fields, in submission order. */
  function Indices(e: Event): (r: seq<nat>)
    ensures |r| == |e.fields|
    ensures forall i :: 0 <= i < |r| ==> r[i] == e.fields[i].index
  {
    seq(|e.fields|, i requires 0 <= i < |e.fields| => e.fields[i].index)
  }

  /** Two's-complement reading of the low 32 bits of `v` (a C cast to `int`). */
  function ToInt32(v: nat): (r: int)
    ensures -0x8000_0000 <= r < 0x8000_0000
    ensures r % U32_LIMIT == v % U32_LIMIT
  {
    var low := v % U32_LIMIT;
    if low < 0x8000_0000 then low else low - U32_LIMIT
  }

  /** A C cast to `u32`: the value modulo 2^32. */
  function ToU32(v: int): (r: nat)
    ensures r < U32_LIMIT
    ensures 0 <= v < U32_LIMIT ==> r == v
  {
    v % U32_LIMIT
  }

  /** Reading an address whose memory cannot be read yields 0, as `READ_KERN` does. */
  function ReadKern(mem: map<nat, nat>, addr: nat): nat
  {
    if addr in mem then mem[addr] else 0
  }
}

=== FILE: execveat.dfy ===
/**
 User-space decoding of an `execveat` record (event id 698): executable,
 working directory, terminal and standard stream names, the remote peer of
 the process's socket, the socket owner's pid, the process tree, the
 command line and the environment. Two dynamic windows may filter the
 record out (by executable, then by command line); the window state and the
 per-pid command-line cache are passed in as functions. Decoding writes
 into a reused record: fields a call does not reach keep their previous
 values.
 */
module Execveat {
  import opened Bits
  import opened Events
  import opened Text
  import opened Decoder

  const EXECVEAT_ID: nat := 698

  datatype ExecveRecord = ExecveRecord(
    exe: string, cwd: string, ttyName: string, stdin: string, stdout: string,
    dport: nat, dip: string, family: nat, socketPid: nat, socketArgv: string,
    pidTree: string, argv: string, privEscalation: nat,
    sshConnection: string, ldPreload: string)

  /** The filters and the cache the decoder consults. */
  datatype Checks = Checks(exeWindow: string -> bool, argvWindow: string -> bool, argvCache: nat -> string)

  // ---------------------------------------------------------------------------
  // Environment scan
  // ---------------------------------------------------------------------------

  /** The index of the last entry starting with `p`, if any. */
  function LastWith(envs: seq<string>, p: string): (r: Option<nat>)
    ensures r.Some? ==> r.value < |envs| && HasPrefix(envs[r.value], p)
    ensures r.Some? ==> forall j :: r.value < j < |envs| ==> !HasPrefix(envs[j], p)
    ensures r.None? ==> forall j :: 0 <= j < |envs| ==> !HasPrefix(envs[j], p)
  {
    if |envs| == 0 then None
    else if HasPrefix(envs[|envs| - 1], p) then Some(|envs| - 1)
    else LastWith(envs[..|envs| - 1], p)
  }

  const SSH_CONNECTION: string := "SSH_CONNECTION="
  const LD_PRELOAD: string := "LD_PRELOAD="

  /**
   One step of the scan over the environment: an entry starting with
   `sshPrefix` sets the SSH connection (with `SSH_CONNECTION=` trimmed);
   otherwise an entry starting with `LD_PRE` sets the preload list (with
   `LD_PRELOAD=` trimmed).
   */
  function EnvStep(env: string, acc: (string, string), sshPrefix: string): (string, string)
  {
    if HasPrefix(env, sshPrefix) then (TrimPrefix(env, SSH_CONNECTION), acc.1)
    else if HasPrefix(env, "LD_PRE") then (acc.0, TrimPrefix(env, LD_PRELOAD))
    else acc
  }

  /** The scan over all entries in order, starting from the record's previous values. */
  function ScanEnvWith(envs: seq<string>, ssh: string, ld: string, sshPrefix: string): (string, string)
  {
    if |envs| == 0 then (ssh, ld)
    else EnvStep(envs[|envs| - 1], ScanEnvWith(envs[..|envs| - 1], ssh, ld, sshPrefix), sshPrefix)
  }

  /** An SSH prefix that no `LD_PRE` entry can start with. */
  predicate SshLike(sshPrefix: string)
  {
    |sshPrefix| > 0 && sshPrefix[0] == 'S'
  }

  /**
   The scan keeps, for each variable, the last matching entry: the SSH
   value comes from the last entry starting with `sshPrefix` and the preload
   value from the last entry starting with `LD_PRE`; without one, the
   previous value stays.
   */
  lemma {:induction false} ScanEnvLast(envs: seq<string>, ssh: string, ld: string, sshPrefix: string)
    requires SshLike(sshPrefix)
    ensures var r := ScanEnvWith(envs, ssh, ld, sshPrefix);
            && r.0 == (match LastWith(envs, sshPrefix) case None => ssh case Some(i) => TrimPrefix(envs[i], SSH_CONNECTION))
            && r.1 == (match LastWith(envs, "LD_PRE") case None => ld case Some(i) => TrimPrefix(envs[i], LD_PRELOAD))
    decreases |envs|
  {
    if |envs| > 0 {
      var init := envs[..|envs| - 1];
      var e := envs[|envs| - 1];
      ScanEnvLast(init, ssh, ld, sshPrefix);
      if HasPrefix(e, sshPrefix) {
        assert e[0] == 'S';
        assert !HasPrefix(e, "LD_PRE");
      }
      assert forall j :: 0 <= j < |init| ==> init[j] == envs[j];
    }
  }

  /** The scan as the decoder performs it: every entry starting with `SSH_` counts as the SSH connection. */
  function ScanEnvAsWritten(envs: seq<string>, ssh: string, ld: string): (r: (string, string))
    ensures r.0 == (match LastWith(envs, "SSH_") case None => ssh case Some(i) => TrimPrefix(envs[i], SSH_CONNECTION))
  {
    ScanEnvLast(envs, ssh, ld, "SSH_");
    ScanEnvWith(envs, ssh, ld, "SSH_")
  }

  /**
   An sshd login environment lists `SSH_TTY` after `SSH_CONNECTION`; the scan
   as written then reports the terminal variable, untrimmed, as the SSH
   connection.
   */
  lemma ScanEnvAsWrittenTakesSshTty(ssh: string, ld: string)
    ensures ScanEnvAsWritten(["SSH_CONNECTION=10.0.0.1 50000 10.0.0.2 22", "SSH_TTY=/dev/pts/0"], ssh, ld).0
            == "SSH_TTY=/dev/pts/0"
  {
    var envs := ["SSH_CONNECTION=10.0.0.1 50000 10.0.0.2 22", "SSH_TTY=/dev/pts/0"];
    assert HasPrefix(envs[1], "SSH_");
    assert !HasPrefix(envs[1], SSH_CONNECTION) by {
      assert envs[1][4] != SSH_CONNECTION[4];
    }
  }

  /** The corrected scan: the SSH test is on the full `SSH_CONNECTION=` prefix. */
  function ScanEnv(envs: seq<string>, ssh: string, ld: string): (r: (string, string))
    ensures match LastWith(envs, SSH_CONNECTION)
            case None => r.0 == ssh
            case Some(i) => SSH_CONNECTION + r.0 == envs[i]
    ensures match LastWith(envs, "LD_PRE")
            case None => r.1 == ld
            case Some(i) => r.1 == TrimPrefix(envs[i], LD_PRELOAD)
  {
    ScanEnvLast(envs, ssh, ld, SSH_CONNECTION);
    ScanEnvWith(envs, ssh, ld, SSH_CONNECTION)
  }

  /**
   With the connection entry followed by any entry that does not start with
   `SSH_CONNECTION=` (such as `SSH_TTY`), the corrected scan reports the
   connection value.
   */
  lemma ScanEnvTakesConnection(v: string, later: string, ssh: string, ld: string)
    requires !HasPrefix(later, SSH_CONNECTION)
    ensures ScanEnv([SSH_CONNECTION + v, later], ssh, ld).0 == v
  {
    var envs := [SSH_CONNECTION + v, later];
    assert (SSH_CONNECTION + v)[..|SSH_CONNECTION|] == SSH_CONNECTION;
    assert LastWith(envs, SSH_CONNECTION) == Some(0);
    var r := ScanEnv(envs, ssh, ld).0;
    assert SSH_CONNECTION + r == SSH_CONNECTION + v;
    assert r == (SSH_CONNECTION + r)[|SSH_CONNECTION|..];
  }

  /** The scan the variant of the decoder performs. */
  function Scan(envs: seq<string>, ssh: string, ld: string, v: Variant): (string, string)
  {
    if v.AsWritten? then ScanEnvAsWritten(envs, ssh, ld) else ScanEnv(envs, ssh, ld)
  }

  /** An empty value is reported as `-1`. */
  function OrDash(s: string): (r: string)
    ensures |s| == 0 ==> r == "-1"
    ensures |s| > 0 ==> r == s
  {
    if |s| == 0 then "-1" else s
  }

  // ---------------------------------------------------------------------------
  // Decoding
  // ---------------------------------------------------------------------------

  /** The leading string fields after the executable, in record order. */
  datatype StringField = Cwd | TtyName | Stdin | Stdout

  function SetString(e: ExecveRecord, k: StringField, v: string): ExecveRecord
  {
    match k
    case Cwd => e.(cwd := v)
    case TtyName => e.(ttyName := v)
    case Stdin => e.(stdin := v)
    case Stdout => e.(stdout := v)
  }

  /** Read the given string fields in order; a failed read sets its field empty and stops. */
  function ReadStrings(e: ExecveRecord, s: seq<byte>, f: Formats, ks: seq<StringField>): (r: Outcome<ExecveRecord>)
    ensures r.status == Ok || r.status == DecodeError
    ensures r.value == e.(cwd := r.value.cwd, ttyName := r.value.ttyName, stdin := r.value.stdin, stdout := r.value.stdout)
    decreases |ks|
  {
    if |ks| == 0 then Outcome(e, Ok, s)
    else
      match f.str(s)
      case None => Outcome(SetString(e, ks[0], ""), DecodeError, s)
      case Some(d) => ReadStrings(SetString(e, ks[0], d.value), d.rest, f, ks[1..])
  }

  /** Remote peer, a padding byte, the socket owner's pid and the process tree. */
  function ReadOrigin(e: ExecveRecord, s: seq<byte>, f: Formats): (r: Outcome<ExecveRecord>)
    ensures r.status == Ok || r.status == DecodeError
    ensures r.value == e.(family := r.value.family, dport := r.value.dport, dip := r.value.dip,
                          socketPid := r.value.socketPid, pidTree := r.value.pidTree,
                          privEscalation := r.value.privEscalation)
    ensures r.status == Ok ==>
              && f.remoteAddr(s).Some?
              && var peer := f.remoteAddr(s).value;
                 && |peer.rest| >= 5 && DecodeUint32(peer.rest[1..]).Some? && f.pidTree(peer.rest[5..]).Some?
                 && var tree := f.pidTree(peer.rest[5..]).value;
                    && r.value.family == peer.value.family && r.value.dport == peer.value.port
                    && r.value.dip == peer.value.ip
                    && r.value.socketPid == DecodeUint32(peer.rest[1..]).value.value
                    && r.value.pidTree == tree.value.tree && r.value.privEscalation == tree.value.privEscalation
                    && r.rest == tree.rest
  {
    match f.remoteAddr(s)
    case None => Outcome(e.(family := 0, dport := 0, dip := ""), DecodeError, s)
    case Some(peer) =>
      var e1 := e.(family := peer.value.family, dport := peer.value.port, dip := peer.value.ip);
      match DecodeUint8(peer.rest)
      case None => Outcome(e1, DecodeError, peer.rest)
      case Some(pad) =>
        match DecodeUint32(pad.rest)
        case None => Outcome(e1, DecodeError, pad.rest)
        case Some(pid) =>
          var e2 := e1.(socketPid := pid.value);
          match f.pidTree(pid.rest)
          case None => Outcome(e2.(pidTree := ""), DecodeError, pid.rest)
          case Some(tree) =>
            Outcome(e2.(pidTree := tree.value.tree, privEscalation := tree.value.privEscalation), Ok, tree.rest)
  }

  /**
   Command line (joined with single spaces, then filtered by the argument
   window), environment scan with `-1` for an empty result, and the cached
   command line of the socket owner. The variant picks the environment scan.
   */
  function ReadCommand(e: ExecveRecord, s: seq<byte>, f: Formats, c: Checks, v: Variant): (r: Outcome<ExecveRecord>)
    ensures r.status == Ok || r.status == DecodeError || r.status == Filtered
    ensures r.status == Filtered <==> (f.strArray(s).Some? && !c.argvWindow(Join(f.strArray(s).value.value, " ")))
    ensures r.status != Ok ==> r.value.sshConnection == e.sshConnection && r.value.ldPreload == e.ldPreload
    ensures r.status == Ok ==> |r.value.sshConnection| > 0 && |r.value.ldPreload| > 0
    ensures r.status == Ok ==> r.value.socketArgv == c.argvCache(e.socketPid)
  {
    match f.strArray(s)
    case None => Outcome(e, DecodeError, s)
    case Some(args) =>
      var e1 := e.(argv := Join(args.value, " "));
      if !c.argvWindow(e1.argv) then Outcome(e1, Filtered, args.rest)
      else
        match f.strArray(args.rest)
        case None => Outcome(e1, DecodeError, args.rest)
        case Some(envs) =>
          var scanned := Scan(envs.value, e1.sshConnection, e1.ldPreload, v);
          Outcome(e1.(sshConnection := OrDash(scanned.0), ldPreload := OrDash(scanned.1),
                      socketArgv := c.argvCache(e1.socketPid)), Ok, envs.rest)
  }

  /**
   `ExecveAt.DecodeEvent`: the executable (filtered by the executable
   window), the four string fields, the origin, then the command part. The
   first failing read ends decoding with an error. `AsWritten` is the
   decoder as it stands; `Corrected` differs only in the environment scan.
   */
  function DecodeExecveAt(e: ExecveRecord, s: seq<byte>, f: Formats, c: Checks, v: Variant): (r: Outcome<ExecveRecord>)
    ensures r.status != Ignored
    ensures f.str(s).None? ==> r == Outcome(e.(exe := ""), DecodeError, s)
    ensures f.str(s).Some? && !c.exeWindow(f.str(s).value.value) ==>
              r == Outcome(e.(exe := f.str(s).value.value), Filtered, f.str(s).value.rest)
    ensures r.status == Ok ==> c.exeWindow(r.value.exe) && c.argvWindow(r.value.argv)
    ensures r.status == Ok ==> |r.value.sshConnection| > 0 && |r.value.ldPreload| > 0
    ensures r.status == Ok ==> r.value.socketArgv == c.argvCache(r.value.socketPid)
    ensures r.status != Ok ==> r.value.sshConnection == e.sshConnection && r.value.ldPreload == e.ldPreload
  {
    match f.str(s)
    case None => Outcome(e.(exe := ""), DecodeError, s)
    case Some(exe) =>
      var e1 := e.(exe := exe.value);
      if !c.exeWindow(exe.value) then Outcome(e1, Filtered, exe.rest)
      else
        var a := ReadStrings(e1, exe.rest, f, [Cwd, TtyName, Stdin, Stdout]);
        if a.status != Ok then a
        else
          var b := ReadOrigin(a.value, a.rest, f);
          if b.status != Ok then b
          else ReadCommand(b.value, b.rest, f, c, v)
  }

  /** The values one well-formed record carries, in record order. */
  datatype ExecveFields = ExecveFields(
    exe: string, cwd: string, ttyName: string, stdin: string, stdout: string,
    peer: RemoteAddr, socketPid: nat, tree: PidTree, args: seq<string>, envs: seq<string>)

  /** The stream reads as the given fields through the stream positions `p`, ending at `rest`. */
  predicate ReadsAs(f: Formats, p: seq<seq<byte>>, x: ExecveFields, rest: seq<byte>)
  {
    && |p| == 9
    && f.str(p[0]) == Some(Decoded(x.exe, p[1]))
    && f.str(p[1]) == Some(Decoded(x.cwd, p[2]))
    && f.str(p[2]) == Some(Decoded(x.ttyName, p[3]))
    && f.str(p[3]) == Some(Decoded(x.stdin, p[4]))
    && f.str(p[4]) == Some(Decoded(x.stdout, p[5]))
    && f.remoteAddr(p[5]) == Some(Decoded(x.peer, p[6]))
    && x.socketPid < U32_LIMIT
    && (exists pad: byte :: p[6] == [pad] + LEBytes(x.socketPid, 4) + p[7])
    && f.pidTree(p[7]) == Some(Decoded(x.tree, p[8]))
    && f.strArray(p[8]).Some? && f.strArray(p[8]).value.value == x.args
    && f.strArray(f.strArray(p[8]).value.rest) == Some(Decoded(x.envs, rest))
  }

  lemma OriginRoundTrip(e: ExecveRecord, f: Formats, p: seq<seq<byte>>, x: ExecveFields, rest: seq<byte>)
    requires ReadsAs(f, p, x, rest)
    ensures ReadOrigin(e, p[5], f) ==
            Outcome(e.(family := x.peer.family, dport := x.peer.port, dip := x.peer.ip, socketPid := x.socketPid,
                       pidTree := x.tree.tree, privEscalation := x.tree.privEscalation), Ok, p[8])
  {
    var pad: byte :| p[6] == [pad] + LEBytes(x.socketPid, 4) + p[7];
    assert LEBytes(pad, 1) == [pad];
    assert p[6] == UintBytes(pad, 1, false) + (LEBytes(x.socketPid, 4) + p[7]);
    ReadUintRoundTrip(pad, 1, false, LEBytes(x.socketPid, 4) + p[7]);
    assert Pow256(4) == U32_LIMIT;
    ReadUintRoundTrip(x.socketPid, 4, false, p[7]);
  }

  /**
   A record that reads as `x` and passes both windows decodes to exactly
   `x`'s values, with the command line joined by spaces, the SSH connection
   and preload list taken from the last matching environment entries (`-1`
   when empty), and the socket owner's cached command line. As written, the
   SSH connection comes from the last entry starting with `SSH_`.
   */
  lemma ExecveRoundTrip(e: ExecveRecord, f: Formats, c: Checks, p: seq<seq<byte>>, x: ExecveFields, rest: seq<byte>,
                        v: Variant)
    requires ReadsAs(f, p, x, rest)
    requires c.exeWindow(x.exe) && c.argvWindow(Join(x.args, " "))
    ensures var r := DecodeExecveAt(e, p[0], f, c, v);
            var scanned := Scan(x.envs, e.sshConnection, e.ldPreload, v);
            && r.status == Ok && r.rest == rest
            && r.value == ExecveRecord(x.exe, x.cwd, x.ttyName, x.stdin, x.stdout,
                 x.peer.port, x.peer.ip, x.peer.family, x.socketPid, c.argvCache(x.socketPid),
                 x.tree.tree, Join(x.args, " "), x.tree.privEscalation,
                 OrDash(scanned.0), OrDash(scanned.1))
  {
    var e1 := e.(exe := x.exe);
    var a := ReadStrings(e1, p[1], f, [Cwd, TtyName, Stdin, Stdout]);
    assert a == Outcome(e1.(cwd := x.cwd, ttyName := x.ttyName, stdin := x.stdin, stdout := x.stdout), Ok, p[5]) by {
      assert [Cwd, TtyName, Stdin, Stdout][1..] == [TtyName, Stdin, Stdout];
      assert [TtyName, Stdin, Stdout][1..] == [Stdin, Stdout];
      assert [Stdin, Stdout][1..] == [Stdout];
    }
    OriginRoundTrip(a.value, f, p, x, rest);
  }

  /** An sshd login environment: the connection, then the terminal. */
  const SSHD_ENV: seq<string> := ["SSH_CONNECTION=10.0.0.1 50000 10.0.0.2 22", "SSH_TTY=/dev/pts/0"]

  /** The scan as written keeps the terminal variable of an sshd login environment, whatever the previous values. */
  lemma SshdEnvScanAsWritten(ssh: string, ld: string)
    ensures Scan(SSHD_ENV, ssh, ld, AsWritten).0 == "SSH_TTY=/dev/pts/0"
  {
    ScanEnvAsWrittenTakesSshTty(ssh, ld);
  }

  /** The corrected scan keeps the connection value of an sshd login environment, whatever the previous values. */
  lemma SshdEnvScanCorrected(ssh: string, ld: string)
    ensures Scan(SSHD_ENV, ssh, ld, Corrected).0 == "10.0.0.1 50000 10.0.0.2 22"
  {
    var tty := "SSH_TTY=/dev/pts/0";
    var conn := "10.0.0.1 50000 10.0.0.2 22";
    assert SSH_CONNECTION + conn == "SSH_CONNECTION=10.0.0.1 50000 10.0.0.2 22";
    assert SSHD_ENV == [SSH_CONNECTION + conn, tty];
    assert tty[4] != SSH_CONNECTION[4];
    ScanEnvTakesConnection(conn, tty, ssh, ld);
  }

  /**
   A decoded sshd login environment (`SSH_CONNECTION`, then `SSH_TTY`): the
   decoder as written reports the terminal variable as the SSH connection,
   the corrected decoder reports the connection's addresses and ports.
   */
  lemma ExecveSshTty(e: ExecveRecord, f: Formats, c: Checks, p: seq<seq<byte>>, x: ExecveFields, rest: seq<byte>)
    requires ReadsAs(f, p, x, rest) && x.envs == SSHD_ENV
    requires c.exeWindow(x.exe) && c.argvWindow(Join(x.args, " "))
    ensures DecodeExecveAt(e, p[0], f, c, AsWritten).value.sshConnection == "SSH_TTY=/dev/pts/0"
    ensures DecodeExecveAt(e, p[0], f, c, Corrected).value.sshConnection == "10.0.0.1 50000 10.0.0.2 22"
  {
    SshdEnvScanAsWritten(e.sshConnection, e.ldPreload);
    SshdEnvScanCorrected(e.sshConnection, e.ldPreload);
    ExecveRoundTrip(e, f, c, p, x, rest, AsWritten);
    ExecveRoundTrip(e, f, c, p, x, rest, Corrected);
  }
}

=== FILE: idt_scan.dfy ===
/**
 User-space side of the IDT scan (event id 1201): decoding the record the
 kernel emits for an interrupt handler address, dropping addresses that
 resolve to a known kernel symbol, and the periodic trigger that asks the
 kernel to check vector 0x80. The kernel-symbol table is passed in.
 */
module IdtScan {
  import opened Bits
  import opened Events
  import opened Text
  import opened Decoder

  const IDT_SCAN_ID: nat := 1201
  /** The cron schedule the trigger is registered with (six fields, seconds first). */
  const IDT_SCAN_CRON: string := "* */10 * * * *"
  /** The only vector the trigger asks about. */
  const TRIGGER_VECTOR: nat := 128

  /** The decoded report. `index` is part of the record type but never assigned by decoding. */
  datatype IdtReport = IdtReport(index: nat, address: string)

  /**
   `IDTScan.DecodeEvent`: index byte, 64-bit call index, index byte, 64-bit
   handler address. A short read is an error; an address that resolves to a
   known kernel symbol is ignored; otherwise the address is stored in
   lower-case hexadecimal without a prefix.
   */
  function DecodeIdtScan(rep: IdtReport, s: seq<byte>, isKernelSymbol: nat -> bool): (r: Outcome<IdtReport>)
    ensures r.value.index == rep.index
    ensures r.status != Ok ==> r.value == rep
    ensures r.status != Filtered
    ensures |s| < 18 ==> r.status == DecodeError
    ensures |s| >= 18 ==> r.status == (if isKernelSymbol(LEValue(s[10..18])) then Ignored else Ok)
    ensures r.status == Ok ==>
              |s| >= 18 && r.rest == s[18..] &&
              var addr := LEValue(s[10..18]);
              !isKernelSymbol(addr) && r.value.address == FormatHex(addr)
  {
    match DecodeUint8(s)
    case None => Outcome(rep, DecodeError, s)
    case Some(i1) =>
      match DecodeUint64(i1.rest)
      case None => Outcome(rep, DecodeError, i1.rest)
      case Some(call) =>
        match DecodeUint8(call.rest)
        case None => Outcome(rep, DecodeError, call.rest)
        case Some(i2) =>
          match DecodeUint64(i2.rest)
          case None => Outcome(rep, DecodeError, i2.rest)
          case Some(addr) =>
            assert i2.rest[..8] == s[10..18] && addr.rest == s[18..];
            if isKernelSymbol(addr.value) then Outcome(rep, Ignored, addr.rest)
            else Outcome(rep.(address := FormatHex(addr.value)), Ok, addr.rest)
  }

  /** The 18 bytes of a report: index, call index, index, handler address. */
  function ReportBytes(idx1: byte, callIndex: nat, idx2: byte, addr: nat): (b: seq<byte>)
    ensures |b| == 18
  {
    [idx1] + LEBytes(callIndex, 8) + [idx2] + LEBytes(addr, 8)
  }

  /**
   A report for a handler outside every known symbol decodes to its address
   in hexadecimal, which reads back as the same address; a handler inside a
   known symbol is ignored and leaves the report as it was.
   */
  lemma IdtScanRoundTrip(rep: IdtReport, idx1: byte, callIndex: nat, idx2: byte, addr: nat,
                         rest: seq<byte>, isKernelSymbol: nat -> bool)
    requires callIndex < U64_LIMIT && addr < U64_LIMIT
    ensures var r := DecodeIdtScan(rep, ReportBytes(idx1, callIndex, idx2, addr) + rest, isKernelSymbol);
            && (isKernelSymbol(addr) ==> r == Outcome(rep, Ignored, rest))
            && (!isKernelSymbol(addr) ==> r == Outcome(rep.(address := FormatHex(addr)), Ok, rest))
            && (r.status == Ok ==> Value(0, r.value.address, 16) == addr)
  {
    var s := ReportBytes(idx1, callIndex, idx2, addr) + rest;
    assert Pow256(8) == U64_LIMIT;
    assert LEBytes(idx1, 1) == [idx1] && LEBytes(idx2, 1) == [idx2];
    assert s == UintBytes(idx1, 1, false) + (LEBytes(callIndex, 8) + (UintBytes(idx2, 1, false) + (LEBytes(addr, 8) + rest)));
    ReadUintRoundTrip(idx1, 1, false, LEBytes(callIndex, 8) + (UintBytes(idx2, 1, false) + (LEBytes(addr, 8) + rest)));
    ReadUintRoundTrip(callIndex, 8, false, UintBytes(idx2, 1, false) + (LEBytes(addr, 8) + rest));
    ReadUintRoundTrip(idx2, 1, false, LEBytes(addr, 8) + rest);
    ReadUintRoundTrip(addr, 8, false, rest);
    FormatBaseRoundTrip(addr, 16);
  }

  /** The outcome of a trigger: an error message, or the table address and vector handed to the kernel. */
  datatype Trigger = TriggerFailed(message: string) | Triggered(idtAddr: nat, vector: nat)

  /**
   `IDTScan.Trigger`: without an `idt_table` symbol it fails with a fixed
   message; otherwise it hands the table address and vector 0x80 to the
   kernel probe.
   */
  function TriggerScan(idtTable: Option<nat>): (r: Trigger)
    ensures idtTable.None? <==> r.TriggerFailed?
    ensures r.TriggerFailed? ==> r.message == "idt_table is not found"
    ensures r.Triggered? ==> r.idtAddr == idtTable.value && r.vector == TRIGGER_VECTOR
  {
    match idtTable
    case None => TriggerFailed("idt_table is not found")
    case Some(a) => Triggered(a, TRIGGER_VECTOR)
  }
}

=== FILE: net_hooks.dfy ===
/**
 The connect, bind and UDP-receive-entry instrumentation points. The two
 correlation caches are plain maps keyed by the packed process/thread id
 (`pid_tgid`); least-recently-used eviction is not modelled.
 */
module NetHooks {
  import opened Bits
  import opened Events

  /** The connect context saved at syscall entry. */
  datatype NetCtx = NetCtx(fd: int, family: u16, addrLen: int)

  /** What the connect-exit hook leaves behind: the cache and the submitted event, if any. */
  datatype ConnectExit = ConnectExit(cache: map<nat, NetCtx>, event: Option<Event>)

  /**
   Connect entry: with a null user sockaddr pointer nothing is stored;
   otherwise the entry for the thread is (over)written with fd, family and
   address length, and no other entry is touched.
   */
  function EnterConnect(cache: map<nat, NetCtx>, pidTgid: nat, uservaddr: nat,
                        fd: int, addrLen: int, family: u16): (r: map<nat, NetCtx>)
    ensures uservaddr == 0 ==> r == cache
    ensures uservaddr != 0 ==> pidTgid in r && r[pidTgid] == NetCtx(fd, family, addrLen)
    ensures uservaddr != 0 ==> r.Keys == cache.Keys + {pidTgid}
    ensures forall k :: k in cache && k != pidTgid ==> k in r && r[k] == cache[k]
  {
    if uservaddr == 0 then cache
    else cache[pidTgid := NetCtx(fd, family, addrLen)]
  }

  /** The socket behind a file descriptor, 0 when the lookup finds none. */
  function SockOf(socks: map<int, nat>, fd: int): nat
  {
    if fd in socks then socks[fd] else 0
  }

  /**
   Connect exit. A missing entry is a silent no-op. The early returns after
   event initialisation, after the context filter and when no socket is
   found all leave the entry in place. An unsupported family deletes the
   entry without an event. Otherwise the entry is deleted and one event is
   submitted: family at index 0, connection tuple at 1, executable at 2.
   */
  function ExitConnect(cache: map<nat, NetCtx>, pidTgid: nat, initOk: bool, filtered: bool,
                       retval: int, socks: map<int, nat>): (r: ConnectExit)
    ensures pidTgid !in cache ==> r == ConnectExit(cache, None)
    ensures r.cache == cache || r.cache == cache - {pidTgid}
    ensures pidTgid in cache ==>
              (pidTgid in r.cache <==> !initOk || filtered || SockOf(socks, cache[pidTgid].fd) == 0)
    ensures r.event.Some? <==>
              && pidTgid in cache && initOk && !filtered
              && SockOf(socks, cache[pidTgid].fd) != 0
              && (cache[pidTgid].family == AF_INET || cache[pidTgid].family == AF_INET6)
    ensures r.event.Some? ==>
              var ctx := cache[pidTgid];
              var sk := SockOf(socks, ctx.fd);
              && r.event.value.kind == SysConnect
              && r.event.value.retval == retval
              && r.event.value.fields == [
                   Field(0, Scalar(ctx.family, 2)),
                   Field(1, if ctx.family == AF_INET then ConnV4(sk) else ConnV6(sk)),
                   Field(2, TaskExe)]
  {
    if pidTgid !in cache then ConnectExit(cache, None)
    else if !initOk || filtered then ConnectExit(cache, None)
    else
      var ctx := cache[pidTgid];
      var familyField := Field(0, Scalar(ctx.family, 2));
      var sk := SockOf(socks, ctx.fd);
      if sk == 0 then ConnectExit(cache, None)
      else if ctx.family == AF_INET then
        ConnectExit(cache - {pidTgid},
          Some(Event(SysConnect, retval, [familyField, Field(1, ConnV4(sk)), Field(2, TaskExe)])))
      else if ctx.family == AF_INET6 then
        ConnectExit(cache - {pidTgid},
          Some(Event(SysConnect, retval, [familyField, Field(1, ConnV6(sk)), Field(2, TaskExe)])))
      else ConnectExit(cache - {pidTgid}, None)
  }

  /**
   An entry cached for an IPv4 connect and a completion on the same thread
   that finds the socket yield one event carrying AF_INET and the IPv4
   tuple, and the thread's entry is gone afterwards.
   */
  lemma ConnectEndToEnd(cache: map<nat, NetCtx>, k: nat, sa: nat, fd: int, addrLen: int,
                        retval: int, socks: map<int, nat>)
    requires sa != 0 && fd in socks && socks[fd] != 0
    ensures var r := ExitConnect(EnterConnect(cache, k, sa, fd, addrLen, AF_INET), k, true, false, retval, socks);
            && r.event == Some(Event(SysConnect, retval,
                 [Field(0, Scalar(AF_INET, 2)), Field(1, ConnV4(socks[fd])), Field(2, TaskExe)]))
            && k !in r.cache
            && r.cache == cache - {k}
  {
  }

  /** The size of the raw address captured for a family the bind hook accepts. */
  function SockaddrSize(family: u16): nat
  {
    if family == AF_INET then SIZEOF_SOCKADDR_IN else SIZEOF_SOCKADDR_IN6
  }

  /**
   Bind: an event only for AF_INET and AF_INET6 (and only when event
   initialisation succeeds and the context filter passes), with the raw
   address of the family's sockaddr size at 0, executable at 1 and the
   socket protocol at 2.
   */
  function Bind(initOk: bool, filtered: bool, addrPtr: nat, family: u16, protocol: u16): (r: Option<Event>)
    ensures r.Some? <==> initOk && !filtered && (family == AF_INET || family == AF_INET6)
    ensures r.Some? ==> r.value.kind == SecuritySocketBind && Indices(r.value) == [0, 1, 2]
    ensures r.Some? && family == AF_INET ==> r.value.fields[0].payload == UserBytes(addrPtr, 16)
    ensures r.Some? && family == AF_INET6 ==> r.value.fields[0].payload == UserBytes(addrPtr, 28)
    ensures r.Some? ==> (r.value.fields[1].payload == TaskExe && r.value.fields[2].payload == Scalar(protocol, 2))
  {
    if !initOk || filtered then None
    else if family != AF_INET && family != AF_INET6 then None
    else
      Some(Event(SecuritySocketBind, 0, [
        Field(0, UserBytes(addrPtr, SockaddrSize(family))),
        Field(1, TaskExe),
        Field(2, Scalar(protocol, 2))]))
  }

  /** Network-to-host byte order for a 16-bit value: the two bytes swapped. */
  function Ntohs(v: u16): (r: u16)
    ensures r % 256 == v / 256 && r / 256 == v % 256
  {
    (v % 256) * 256 + v / 256
  }

  /** Swapping the bytes twice restores the value. */
  lemma NtohsInvolution(v: u16)
    ensures Ntohs(Ntohs(v)) == v
  {
  }

  /** The UDP ports worth a DNS parse: 53 (DNS) and 5353 (multicast DNS). */
  predicate IsDnsPort(port: u16)
  {
    port == 53 || port == 5353
  }

  /**
   UDP receive entry: the message header is cached for the thread only when
   the destination port, read in network byte order, is 53 or 5353 and the
   first I/O vector is non-null with a non-zero length.
   */
  function EnterUdpRecv(cache: map<nat, nat>, pidTgid: nat, dport: u16, msg: nat,
                        iov: nat, iovLen: nat): (r: map<nat, nat>)
    ensures IsDnsPort(Ntohs(dport)) && iov != 0 && iovLen != 0 ==>
              pidTgid in r && r[pidTgid] == msg && r.Keys == cache.Keys + {pidTgid}
    ensures !(IsDnsPort(Ntohs(dport)) && iov != 0 && iovLen != 0) ==> r == cache
    ensures forall k :: k in cache && k != pidTgid ==> k in r && r[k] == cache[k]
  {
    if dport == 13568 || dport == 59668 then
      if iov == 0 then cache
      else if iovLen == 0 then cache
      else cache[pidTgid := msg]
    else cache
  }
}

=== FILE: rootkit.dfy ===
/**
 The anti-rootkit kernel side: kernel-symbol lookup in a map filled from
 user space, the all-or-nothing scan of monitored system-call table slots,
 the interrupt descriptor table (IDT) scan that covers the 256 entries in
 chunks of 16 across invocations with a cursor kept in a small cache, and
 the field layout of the module-load, kernel-read-file and usermode-helper
 events. Kernel memory is a map from address to the 8-byte word stored
 there; an address absent from it cannot be read.
 */
module Rootkit {
  import opened Bits
  import opened Events

  // ---------------------------------------------------------------------------
  // Kernel symbols
  // ---------------------------------------------------------------------------

  /** Size of the fixed-length key of the symbol map. */
  const MAX_KSYM_NAME_SIZE: nat := 64

  /** The bytes of an ASCII string. */
  function Ascii(s: string): (r: seq<byte>)
    requires forall i :: 0 <= i < |s| ==> s[i] as int < 256
    ensures |r| == |s|
    ensures forall i :: 0 <= i < |s| ==> r[i] == s[i] as int
  {
    seq(|s|, i requires 0 <= i < |s| => s[i] as int as byte)
  }

  /**
   The map key for a symbol name: a zeroed 64-byte buffer into which a
   string read copies at most 63 bytes of the name and a terminating zero.
   `name` holds the bytes before the name's terminator.
   */
  function KsymKey(name: seq<byte>): (r: seq<byte>)
    ensures |r| == MAX_KSYM_NAME_SIZE
    ensures forall i :: 0 <= i < |name| && i < MAX_KSYM_NAME_SIZE - 1 ==> r[i] == name[i]
    ensures forall i :: |name| <= i < MAX_KSYM_NAME_SIZE ==> r[i] == 0
    ensures r[MAX_KSYM_NAME_SIZE - 1] == 0
  {
    var n := if |name| < MAX_KSYM_NAME_SIZE - 1 then |name| else MAX_KSYM_NAME_SIZE - 1;
    name[..n] + seq(MAX_KSYM_NAME_SIZE - n, _ => 0)
  }

  /** A name the key holds in full: no zero byte and at most 63 bytes. */
  predicate KeyableName(name: seq<byte>)
  {
    |name| < MAX_KSYM_NAME_SIZE && forall i :: 0 <= i < |name| ==> name[i] != 0
  }

  /** In the key of a keyable name, exactly the bytes past the name are zero. */
  lemma KsymKeyZeros(name: seq<byte>)
    requires KeyableName(name)
    ensures forall i :: 0 <= i < MAX_KSYM_NAME_SIZE ==> (KsymKey(name)[i] == 0 <==> i >= |name|)
  {
    var k := KsymKey(name);
    forall i | 0 <= i < MAX_KSYM_NAME_SIZE
      ensures k[i] == 0 <==> i >= |name|
    {
      if i < |name| {
        assert k[i] == name[i];
      }
    }
  }

  /** Distinct keyable names get distinct keys. */
  lemma KsymKeyInjective(a: seq<byte>, b: seq<byte>)
    requires KeyableName(a) && KeyableName(b) && KsymKey(a) == KsymKey(b)
    ensures a == b
  {
    var k := KsymKey(a);
    KsymKeyZeros(a);
    KsymKeyZeros(b);
    assert k[|a|] == 0 && k[|b|] == 0;
    assert |a| == |b|;
    forall i | 0 <= i < |a| ensures a[i] == b[i] {
      assert k[i] == a[i] && KsymKey(b)[i] == b[i];
    }
  }

  /** The symbol map: 64-byte keys to addresses. */
  type Ksyms = map<seq<byte>, nat>

  /** `get_symbol_addr`: the stored address of the symbol, 0 when it is not in the map. */
  function GetSymbolAddr(ksyms: Ksyms, name: seq<byte>): (addr: nat)
    ensures KsymKey(name) !in ksyms ==> addr == 0
    ensures KsymKey(name) in ksyms ==> addr == ksyms[KsymKey(name)]
  {
    var key := KsymKey(name);
    if key in ksyms then ksyms[key] else 0
  }

  /**
   Storing an address for one keyable name makes the lookup of that name
   return it and leaves the lookup of every other keyable name as it was.
   */
  lemma GetSymbolAddrAfterStore(ksyms: Ksyms, name: seq<byte>, addr: nat, other: seq<byte>)
    requires KeyableName(name) && KeyableName(other)
    ensures GetSymbolAddr(ksyms[KsymKey(name) := addr], name) == addr
    ensures other != name ==> GetSymbolAddr(ksyms[KsymKey(name) := addr], other) == GetSymbolAddr(ksyms, other)
  {
    if other != name && KsymKey(other) == KsymKey(name) {
      KsymKeyInjective(other, name);
    }
  }

  // ---------------------------------------------------------------------------
  // System-call table scan
  // ---------------------------------------------------------------------------

  /** Address of element `i` of an array of 8-byte words at `base`, with 64-bit pointer arithmetic. */
  function WordAt(base: nat, i: int): (addr: nat)
    ensures addr < U64_LIMIT
  {
    (base + 8 * i) % U64_LIMIT
  }

  /** What the scan finds in slot `i`: 0 for a slot with no monitored system call, else the table entry. */
  function SlotValue(tableAddr: nat, toCheck: map<nat, nat>, mem: map<nat, nat>, i: nat): nat
  {
    if i in toCheck then ReadKern(mem, WordAt(tableAddr, toCheck[i])) else 0
  }

  /** A monitored system call whose table entry reads as 0 within the first `amount` slots. */
  predicate SomeSlotUnreadable(tableAddr: nat, toCheck: map<nat, nat>, mem: map<nat, nat>, amount: nat)
  {
    exists i :: 0 <= i < amount && i in toCheck && ReadKern(mem, WordAt(tableAddr, toCheck[i])) == 0
  }

  /**
   `sys_call_table_scan`: look the table up by name and, for each of the
   `amount` slots, read the entry of the system call the slot monitors.
   A slot without a monitored call stays 0; the first entry that reads as 0
   abandons the scan with no event; otherwise one event carries the array
   of `amount` addresses at index 0. `kind` and `retval` are the header the
   caller prepared.
   */
  method SyscallTableScan(ksyms: Ksyms, toCheck: map<nat, nat>, mem: map<nat, nat>, amount: nat,
                          kind: EventType, retval: int) returns (event: Option<Event>)
    ensures var table := GetSymbolAddr(ksyms, Ascii("sys_call_table"));
            event.None? <==> SomeSlotUnreadable(table, toCheck, mem, amount)
    ensures event.Some? ==>
              && event.value.kind == kind && event.value.retval == retval
              && |event.value.fields| == 1 && event.value.fields[0].index == 0
              && event.value.fields[0].payload.U64Array?
    ensures event.Some? ==>
              var table := GetSymbolAddr(ksyms, Ascii("sys_call_table"));
              var values := event.value.fields[0].payload.values;
              && |values| == amount
              && forall i :: 0 <= i < amount ==> values[i] == SlotValue(table, toCheck, mem, i)
  {
    var table := GetSymbolAddr(ksyms, Ascii("sys_call_table"));
    var addresses := seq(amount, _ => 0);
    var i := 0;
    while i < amount
      invariant 0 <= i <= amount && |addresses| == amount
      invariant forall j :: 0 <= j < i ==> addresses[j] == SlotValue(table, toCheck, mem, j)
      invariant forall j :: i <= j < amount ==> addresses[j] == 0
      invariant forall j :: 0 <= j < i && j in toCheck ==> ReadKern(mem, WordAt(table, toCheck[j])) != 0
    {
      if i in toCheck {
        var addr := ReadKern(mem, WordAt(table, toCheck[i]));
        if addr == 0 {
          return None;
        }
        addresses := addresses[i := addr];
      }
      i := i + 1;
    }
    event := Some(Event(kind, retval, [Field(0, U64Array(addresses))]));
  }

  /** A scan that emits reports 0 for every slot without a monitored system call. */
  lemma ScanMissesAreZero(table: nat, toCheck: map<nat, nat>, mem: map<nat, nat>, i: nat)
    requires i !in toCheck
    ensures SlotValue(table, toCheck, mem, i) == 0
  {
  }

  // ---------------------------------------------------------------------------
  // The scan-state cache
  // ---------------------------------------------------------------------------

  /** Key of the IDT cursor in the scan-state cache. */
  const IDT_CACHE: int := 0

  /** `get_cache`: the stored 32-bit value as a C `int`, 0 for a missing key. */
  function GetCache(cache: map<int, nat>, key: int): (r: int)
    ensures key !in cache ==> r == 0
    ensures key in cache && cache[key] < 0x8000_0000 ==> r == cache[key]
  {
    if key in cache then ToInt32(cache[key]) else 0
  }

  /** `update_cache`: the value, cast to `u32`, overwrites the entry for the key. */
  function UpdateCache(cache: map<int, nat>, key: int, value: int): (r: map<int, nat>)
    ensures key in r && r[key] == ToU32(value)
    ensures forall k :: k in cache && k != key ==> k in r && r[k] == cache[k]
    ensures r.Keys == cache.Keys + {key}
  {
    cache[key := ToU32(value)]
  }

  /** Reading back a stored non-negative `int` gives the value. */
  lemma CacheRoundTrip(cache: map<int, nat>, key: int, value: int)
    requires 0 <= value < 0x8000_0000
    ensures GetCache(UpdateCache(cache, key, value), key) == value
  {
  }

  // ---------------------------------------------------------------------------
  // IDT scan
  // ---------------------------------------------------------------------------

  const IDT_ENTRIES: nat := 256
  /** Entries read per invocation. */
  const IDT_CHUNK: nat := 16

  /** The IDT indices an invocation with cursor `start` reads, in order. */
  function ChunkIndices(start: int): (r: seq<int>)
    ensures |r| == IDT_CHUNK
    ensures forall j :: 0 <= j < IDT_CHUNK ==> r[j] == start * IDT_CHUNK + j
  {
    seq(IDT_CHUNK, j => start * IDT_CHUNK + j)
  }

  /** For a cursor in 0..15 every index read lies in the 256-entry table. */
  lemma ChunkInTable(start: int)
    requires 0 <= start < IDT_CHUNK
    ensures forall j :: 0 <= j < IDT_CHUNK ==> 0 <= ChunkIndices(start)[j] < IDT_ENTRIES
  {
  }

  /** Every entry of the chunk reads as non-zero. */
  predicate ChunkClean(mem: map<nat, nat>, idt: nat, start: int)
  {
    forall i :: start * IDT_CHUNK <= i < start * IDT_CHUNK + IDT_CHUNK ==> ReadKern(mem, WordAt(idt, i)) != 0
  }

  /** The cursor after a clean chunk: 0 after chunk 15, the next chunk otherwise. */
  function NextCursor(start: int): (r: int)
    ensures 0 <= start < IDT_CHUNK ==> r == (start + 1) % IDT_CHUNK
  {
    if start == 15 then 0 else start + 1
  }

  function IdtAddr(ksyms: Ksyms): nat
  {
    GetSymbolAddr(ksyms, Ascii("idt_table"))
  }

  /** The effect of one invocation on the cache: the cursor advances only after a clean chunk. */
  function IdtStep(ksyms: Ksyms, cache: map<int, nat>, mem: map<nat, nat>): (r: map<int, nat>)
    ensures !ChunkClean(mem, IdtAddr(ksyms), GetCache(cache, IDT_CACHE)) ==> r == cache
    ensures ChunkClean(mem, IdtAddr(ksyms), GetCache(cache, IDT_CACHE)) ==>
              r == UpdateCache(cache, IDT_CACHE, NextCursor(GetCache(cache, IDT_CACHE)))
  {
    var start := GetCache(cache, IDT_CACHE);
    if ChunkClean(mem, IdtAddr(ksyms), start) then UpdateCache(cache, IDT_CACHE, NextCursor(start))
    else cache
  }

  /**
   `analyze_interrupts`: read the 16 entries of the chunk at the cursor in
   order, giving up at the first entry that reads as 0 (the cursor is then
   left alone, so the same chunk is retried next time); after a clean chunk
   store the next cursor. `read` lists the indices read.
   */
  method AnalyzeInterrupts(ksyms: Ksyms, cache: map<int, nat>, mem: map<nat, nat>)
    returns (cache': map<int, nat>, read: seq<int>)
    ensures cache' == IdtStep(ksyms, cache, mem)
    ensures 1 <= |read| <= IDT_CHUNK && read == ChunkIndices(GetCache(cache, IDT_CACHE))[..|read|]
    ensures ChunkClean(mem, IdtAddr(ksyms), GetCache(cache, IDT_CACHE)) <==>
              (|read| == IDT_CHUNK && ReadKern(mem, WordAt(IdtAddr(ksyms), read[IDT_CHUNK - 1])) != 0)
    ensures forall j :: 0 <= j < |read| - 1 ==> ReadKern(mem, WordAt(IdtAddr(ksyms), read[j])) != 0
    ensures |read| < IDT_CHUNK ==> ReadKern(mem, WordAt(IdtAddr(ksyms), read[|read| - 1])) == 0
  {
    var idt := IdtAddr(ksyms);
    var start := GetCache(cache, IDT_CACHE);
    var loopEnd := (start + 1) * IDT_CHUNK;
    var i := start * IDT_CHUNK;
    read := [];
    while i < loopEnd
      invariant start * IDT_CHUNK <= i <= loopEnd
      invariant |read| == i - start * IDT_CHUNK
      invariant forall j :: 0 <= j < |read| ==> read[j] == start * IDT_CHUNK + j
      invariant forall k :: start * IDT_CHUNK <= k < i ==> ReadKern(mem, WordAt(idt, k)) != 0
    {
      read := read + [i];
      var addr := ReadKern(mem, WordAt(idt, i));
      if addr == 0 {
        cache' := cache;
        assert !ChunkClean(mem, idt, start) by {
          assert start * IDT_CHUNK <= i < start * IDT_CHUNK + IDT_CHUNK;
        }
        assert read == ChunkIndices(start)[..|read|];
        return;
      }
      i := i + 1;
    }
    assert ChunkClean(mem, idt, start);
    assert read == ChunkIndices(start);
    cache' := UpdateCache(cache, IDT_CACHE, NextCursor(start));
  }

  /** Every entry of the 256-entry table reads as non-zero. */
  predicate TableClean(mem: map<nat, nat>, idt: nat)
  {
    forall i :: 0 <= i < IDT_ENTRIES ==> ReadKern(mem, WordAt(idt, i)) != 0
  }

  /** The cursor a cache holds, as the scan reads it. */
  function Cursor(cache: map<int, nat>): int
  {
    GetCache(cache, IDT_CACHE)
  }

  /** `n` invocations in a row: the final cache and the indices of the chunks scanned cleanly, in order. */
  function Sweep(ksyms: Ksyms, cache: map<int, nat>, mem: map<nat, nat>, n: nat): (map<int, nat>, seq<int>)
    decreases n
  {
    if n == 0 then (cache, [])
    else
      var covered := if ChunkClean(mem, IdtAddr(ksyms), Cursor(cache)) then ChunkIndices(Cursor(cache)) else [];
      var rest := Sweep(ksyms, IdtStep(ksyms, cache, mem), mem, n - 1);
      (rest.0, covered + rest.1)
  }

  /** On a clean table a cursor in 0..15 advances by one, wrapping after 15. */
  lemma StepOnCleanTable(ksyms: Ksyms, cache: map<int, nat>, mem: map<nat, nat>)
    requires TableClean(mem, IdtAddr(ksyms)) && 0 <= Cursor(cache) < IDT_CHUNK
    ensures ChunkClean(mem, IdtAddr(ksyms), Cursor(cache))
    ensures Cursor(IdtStep(ksyms, cache, mem)) == (Cursor(cache) + 1) % IDT_CHUNK
  {
    var c := Cursor(cache);
    forall i | c * IDT_CHUNK <= i < c * IDT_CHUNK + IDT_CHUNK
      ensures ReadKern(mem, WordAt(IdtAddr(ksyms), i)) != 0
    {
      assert 0 <= i < IDT_ENTRIES;
    }
  }

  /** One clean invocation scans the chunk at the cursor and then the sweep continues from the next cursor. */
  lemma SweepUnfold(ksyms: Ksyms, cache: map<int, nat>, mem: map<nat, nat>, n: nat)
    requires n > 0 && TableClean(mem, IdtAddr(ksyms)) && 0 <= Cursor(cache) < IDT_CHUNK
    ensures Cursor(IdtStep(ksyms, cache, mem)) == if Cursor(cache) == 15 then 0 else Cursor(cache) + 1
    ensures Sweep(ksyms, cache, mem, n).1 == ChunkIndices(Cursor(cache)) + Sweep(ksyms, IdtStep(ksyms, cache, mem), mem, n - 1).1
    ensures Sweep(ksyms, cache, mem, n).0 == Sweep(ksyms, IdtStep(ksyms, cache, mem), mem, n - 1).0
  {
    StepOnCleanTable(ksyms, cache, mem);
  }

  /** The indices of `n` clean chunks scanned from cursor `c`. */
  function ChunkRun(c: int, n: nat): seq<int>
    decreases n
  {
    if n == 0 then [] else ChunkIndices(c) + ChunkRun(NextCursor(c), n - 1)
  }

  /** The cursor after `n` clean chunks from cursor `c`. */
  function CursorAfter(c: int, n: nat): int
    decreases n
  {
    if n == 0 then c else CursorAfter(NextCursor(c), n - 1)
  }

  /** On a clean table, a sweep is a run of clean chunks. */
  lemma {:induction false} SweepIsChunkRun(ksyms: Ksyms, cache: map<int, nat>, mem: map<nat, nat>, n: nat)
    requires TableClean(mem, IdtAddr(ksyms)) && 0 <= Cursor(cache) < IDT_CHUNK
    ensures Sweep(ksyms, cache, mem, n).1 == ChunkRun(Cursor(cache), n)
    ensures Cursor(Sweep(ksyms, cache, mem, n).0) == CursorAfter(Cursor(cache), n)
    decreases n
  {
    if n > 0 {
      SweepUnfold(ksyms, cache, mem, n);
      SweepIsChunkRun(ksyms, IdtStep(ksyms, cache, mem), mem, n - 1);
    }
  }

  /**
   From cursor `c`, `n` clean chunks with `c + n <= 16` cover the indices
   `16c .. 16(c+n) - 1`, each once and in order.
   */
  lemma {:induction false} ChunkRunCovers(c: int, n: nat)
    requires 0 <= c && c + n <= IDT_CHUNK
    ensures |ChunkRun(c, n)| == IDT_CHUNK * n
    ensures forall j :: 0 <= j < |ChunkRun(c, n)| ==> ChunkRun(c, n)[j] == IDT_CHUNK * c + j
    ensures n > 0 ==> CursorAfter(c, n) == if c + n == IDT_CHUNK then 0 else c + n
    decreases n
  {
    if n > 0 {
      ChunkRunCovers(NextCursor(c), n - 1);
      var s := ChunkRun(c, n);
      var tail := ChunkRun(NextCursor(c), n - 1);
      forall j | 0 <= j < |s|
        ensures s[j] == IDT_CHUNK * c + j
      {
        if j >= IDT_CHUNK {
          assert s[j] == tail[j - IDT_CHUNK];
        }
      }
    }
  }

  /**
   Starting from cursor 0, sixteen invocations on a clean table scan each of
   the 256 entries exactly once, in order, and leave the cursor at 0.
   */
  lemma FullSweep(ksyms: Ksyms, cache: map<int, nat>, mem: map<nat, nat>, n: nat)
    requires n == IDT_CHUNK
    requires TableClean(mem, IdtAddr(ksyms)) && Cursor(cache) == 0
    ensures Sweep(ksyms, cache, mem, n).1 == seq(IDT_ENTRIES, i => i)
    ensures Cursor(Sweep(ksyms, cache, mem, n).0) == 0
  {
    SweepIsChunkRun(ksyms, cache, mem, n);
    ChunkRunCovers(0, n);
    IdentityRun(ChunkRun(0, n));
  }

  /** A run of 256 consecutive indices from 0 is the identity sequence. */
  lemma IdentityRun(s: seq<int>)
    requires |s| == IDT_ENTRIES && forall j :: 0 <= j < |s| ==> s[j] == IDT_CHUNK * 0 + j
    ensures s == seq(IDT_ENTRIES, i => i)
  {
    assert forall i :: 0 <= i < IDT_ENTRIES ==> s[i] == seq(IDT_ENTRIES, i => i)[i];
  }

  // ---------------------------------------------------------------------------
  // Field layout of the rootkit kprobes
  // ---------------------------------------------------------------------------

  /** Event type of a module load. */
  const MODULE_LOAD: nat := 1026
  /**
   The module-name read is bounded by 64 minus the size of a pointer. The
   code's destination is the 8-byte pointer variable `modname` itself, so a
   longer name is written past it into the stack frame; the model records
   only the bound and the source address.
   */
  const MODNAME_LIMIT: nat := 64 - 8
  /** Depth of the process ancestry saved with a module load. */
  const MODULE_PID_TREE_DEPTH: nat := 6

  /**
   `do_init_module`: module name (a bounded string read from the module's
   name field) at 0, executable at 1, ancestry of six levels at 2, and the
   working directory, again at index 1. Nothing is submitted when event
   initialisation fails or the task has no filesystem information.
   */
  function DoInitModule(initOk: bool, modNameAddr: nat, fs: Option<nat>): (r: Option<Event>)
    ensures r.Some? <==> initOk && fs.Some?
    ensures r.Some? ==> r.value.kind == Numeric(MODULE_LOAD) && Indices(r.value) == [0, 1, 2, 1]
    ensures r.Some? ==> r.value.fields[0].payload == BoundedStrAt(modNameAddr, MODNAME_LIMIT)
    ensures r.Some? ==> r.value.fields[1].payload == TaskExe
    ensures r.Some? ==> r.value.fields[2].payload == TaskPidTree(MODULE_PID_TREE_DEPTH)
    ensures r.Some? ==> r.value.fields[3].payload == PathOf(fs.value)
  {
    if !initOk then None
    else
      var head := [Field(0, BoundedStrAt(modNameAddr, MODNAME_LIMIT)), Field(1, TaskExe),
                   Field(2, TaskPidTree(MODULE_PID_TREE_DEPTH))];
      match fs
      case None => None
      case Some(pwd) => Some(Event(Numeric(MODULE_LOAD), 0, head + [Field(1, PathOf(pwd))]))
  }

  /** `security_kernel_read_file`: the file's path at 0 and the read identifier as a 4-byte `int` at 1. */
  function KernelReadFile(initOk: bool, filePath: nat, id: nat): (r: Option<Event>)
    ensures r.Some? <==> initOk
    ensures r.Some? ==> r.value.kind == SecurityKernelReadFile && Indices(r.value) == [0, 1]
    ensures r.Some? ==> r.value.fields[0].payload == PathOf(filePath)
    ensures r.Some? ==> r.value.fields[1].payload == Scalar(ToInt32(id), 4)
    ensures r.Some? && id < 0x8000_0000 ==> r.value.fields[1].payload == Scalar(id, 4)
  {
    if !initOk then None
    else Some(Event(SecurityKernelReadFile, 0, [Field(0, PathOf(filePath)), Field(1, Scalar(ToInt32(id), 4))]))
  }

  /**
   `call_usermodehelper`: program path, argument array, environment array,
   the wait mode as a 4-byte `int`, and the executable, at indices 0 to 4.
   */
  function UsermodeHelper(initOk: bool, path: nat, argv: nat, envp: nat, wait: nat): (r: Option<Event>)
    ensures r.Some? <==> initOk
    ensures r.Some? ==> r.value.kind == CallUsermodehelper && Indices(r.value) == [0, 1, 2, 3, 4]
    ensures r.Some? ==> r.value.fields[0].payload == StrAt(path)
    ensures r.Some? ==> r.value.fields[1].payload == StrArrayAt(argv) && r.value.fields[2].payload == StrArrayAt(envp)
    ensures r.Some? ==> r.value.fields[3].payload == Scalar(ToInt32(wait), 4) && r.value.fields[4].payload == TaskExe
  {
    if !initOk then None
    else
      Some(Event(CallUsermodehelper, 0, [
        Field(0, StrAt(path)), Field(1, StrArrayAt(argv)), Field(2, StrArrayAt(envp)),
        Field(3, Scalar(ToInt32(wait), 4)), Field(4, TaskExe)]))
  }
}

=== FILE: socket_bind.dfy ===
/**
 User-space decoding of a bind record (event id 1024). The record carries
 the index byte and raw `sockaddr` the bind hook captured, then the
 executable string, then the index byte and the socket protocol. Decoding
 writes into a reused record, so fields a call does not reach keep their
 previous values. The address printers live in a helper package that is
 not part of this model and are passed in.
 */
module SocketBind {
  import opened Bits
  import opened Events
  import opened Text
  import opened Decoder
  import NetHooks

  const SOCKET_BIND_ID: nat := 1024

  datatype BindRecord = BindRecord(family: int, localPort: string, localAddr: string, protocol: nat, exe: string)

  /** Printers for a 32-bit IPv4 address and a 16-byte IPv6 address. */
  datatype IpPrinters = IpPrinters(v4: nat -> string, v6: seq<byte> -> string)

  /** The value of a read whose error is discarded: 0 when it fails. */
  function ValueOrZero(d: Option<Decoded<nat>>): nat
  {
    if d.Some? then d.value.value else 0
  }

  /** The stream after a read whose error is discarded. */
  function After<T>(d: Option<Decoded<T>>, s: seq<byte>): seq<byte>
  {
    if d.Some? then d.value.rest else s
  }

  /**
   The family-specific part. For AF_INET the port, address and the 8
   padding bytes are read with their errors discarded (the code checks an
   error variable these reads do not set), so this part never fails. For
   AF_INET6 the port and flow information are read likewise, but a short
   16-byte address read fails the record, after the port has been stored;
   the trailing scope id is read and dropped. Other families read nothing.
   */
  function DecodeAddress(rec: BindRecord, s: seq<byte>, ip: IpPrinters): (r: Outcome<BindRecord>)
    ensures rec.family != 2 && rec.family != 10 ==> r == Outcome(rec, Ok, s)
    ensures rec.family == 2 ==> r.status == Ok
    ensures rec.family == 10 ==> (r.status == Ok <==> |s| >= 22)
    ensures r.value.family == rec.family && r.value.exe == rec.exe && r.value.protocol == rec.protocol
    ensures r.status != Ok ==> r.status == DecodeError
  {
    if rec.family == 2 then
      var port := DecodeUint16BigEndian(s);
      var s1 := After(port, s);
      var addr := DecodeUint32BigEndian(s1);
      var s2 := After(addr, s1);
      var rec' := rec.(localPort := FormatDecimal(ValueOrZero(port)), localAddr := ip.v4(ValueOrZero(addr)));
      Outcome(rec', Ok, After(ReadBytes(s2, 8), s2))
    else if rec.family == 10 then
      var port := DecodeUint16BigEndian(s);
      var s1 := After(port, s);
      var rec1 := rec.(localPort := FormatDecimal(ValueOrZero(port)));
      var s2 := After(DecodeUint32BigEndian(s1), s1);
      match ReadBytes(s2, 16)
      case None => Outcome(rec1, DecodeError, s2)
      case Some(addr) =>
        Outcome(rec1.(localAddr := ip.v6(addr.value)), Ok, After(DecodeUint32BigEndian(addr.rest), addr.rest))
    else Outcome(rec, Ok, s)
  }

  /** Executable string, index byte, protocol. A failed string read leaves the executable empty. */
  function DecodeTail(rec: BindRecord, s: seq<byte>, f: Formats): (r: Outcome<BindRecord>)
    ensures r.status == Ok || r.status == DecodeError
    ensures r.value.family == rec.family && r.value.localPort == rec.localPort && r.value.localAddr == rec.localAddr
  {
    match f.str(s)
    case None => Outcome(rec.(exe := ""), DecodeError, s)
    case Some(exe) =>
      var rec1 := rec.(exe := exe.value);
      match DecodeUint8(exe.rest)
      case None => Outcome(rec1, DecodeError, exe.rest)
      case Some(idx) =>
        match DecodeUint16(idx.rest)
        case None => Outcome(rec1, DecodeError, idx.rest)
        case Some(proto) => Outcome(rec1.(protocol := proto.value), Ok, proto.rest)
  }

  /**
   `SocketBind.DecodeEvent`: index byte and signed 16-bit family (a failure
   of either leaves the record untouched), then the family-specific address
   part and the tail.
   */
  function DecodeSocketBind(rec: BindRecord, s: seq<byte>, f: Formats, ip: IpPrinters): (r: Outcome<BindRecord>)
    ensures |s| < 3 ==> r == Outcome(rec, DecodeError, if |s| == 0 then s else s[1..])
    ensures r.status == Ok || r.status == DecodeError
    ensures |s| >= 3 ==> r.value.family == ToInt16(LEValue(s[1..3]))
    ensures |s| >= 3 && r.value.family != 2 && r.value.family != 10 ==>
              r.value.localPort == rec.localPort && r.value.localAddr == rec.localAddr
  {
    match DecodeUint8(s)
    case None => Outcome(rec, DecodeError, s)
    case Some(idx) =>
      assert |s| >= 3 ==> idx.rest[..2] == s[1..3];
      match DecodeInt16(idx.rest)
      case None => Outcome(rec, DecodeError, idx.rest)
      case Some(family) =>
        var a := DecodeAddress(rec.(family := family.value), family.rest, ip);
        if a.status != Ok then a else DecodeTail(a.value, a.rest, f)
  }

  /** The 16 raw bytes of a `sockaddr_in`: family in host (little-endian) order, port and address in network order, zero padding. */
  function SockaddrIn(port: nat, addr: nat): (b: seq<byte>)
    ensures |b| == NetHooks.SockaddrSize(AF_INET)
  {
    Int16Bytes(AF_INET) + BEBytes(port, 2) + BEBytes(addr, 4) + seq(8, _ => 0)
  }

  /** The 28 raw bytes of a `sockaddr_in6`: family, port, flow information, the 16-byte address and the scope id. */
  function SockaddrIn6(port: nat, flowinfo: nat, addr: seq<byte>, scope: nat): (b: seq<byte>)
    requires |addr| == 16
    ensures |b| == NetHooks.SockaddrSize(AF_INET6)
  {
    Int16Bytes(AF_INET6) + BEBytes(port, 2) + BEBytes(flowinfo, 4) + addr + BEBytes(scope, 4)
  }

  /** The bytes after the captured address: index byte and 16-bit protocol, after the executable's encoding. */
  predicate TailReads(f: Formats, s: seq<byte>, exe: string, protocol: nat, rest: seq<byte>)
  {
    exists idx: byte :: f.str(s) == Some(Decoded(exe, [idx] + LEBytes(protocol, 2) + rest))
  }

  lemma TailRoundTrip(rec: BindRecord, s: seq<byte>, f: Formats, exe: string, protocol: nat, rest: seq<byte>)
    requires protocol < U16_LIMIT && TailReads(f, s, exe, protocol, rest)
    ensures DecodeTail(rec, s, f) == Outcome(rec.(exe := exe, protocol := protocol), Ok, rest)
  {
    var idx: byte :| f.str(s) == Some(Decoded(exe, [idx] + LEBytes(protocol, 2) + rest));
    ReadUintRoundTrip(idx, 1, false, LEBytes(protocol, 2) + rest);
    assert LEBytes(idx, 1) == [idx];
    assert [idx] + LEBytes(protocol, 2) + rest == UintBytes(idx, 1, false) + (LEBytes(protocol, 2) + rest);
    ReadUintRoundTrip(protocol, 2, false, rest);
  }

  /**
   A bind record for an IPv4 socket, as the kernel hook lays it out, decodes
   to family 2, the decimal port, the printed address, the executable and
   the protocol, leaving exactly the bytes after the record.
   */
  lemma BindV4RoundTrip(rec: BindRecord, idx: byte, port: nat, addr: nat, s: seq<byte>,
                        f: Formats, ip: IpPrinters, exe: string, protocol: nat, rest: seq<byte>)
    requires port < U16_LIMIT && addr < U32_LIMIT && protocol < U16_LIMIT
    requires TailReads(f, s, exe, protocol, rest)
    ensures DecodeSocketBind(rec, [idx] + SockaddrIn(port, addr) + s, f, ip) ==
            Outcome(BindRecord(AF_INET, FormatDecimal(port), ip.v4(addr), protocol, exe), Ok, rest)
  {
    var p2 := BEBytes(port, 2);
    var a4 := BEBytes(addr, 4);
    var pad: seq<byte> := seq(8, _ => 0);
    var input := [idx] + SockaddrIn(port, addr) + s;
    assert input == UintBytes(idx, 1, false) + (Int16Bytes(AF_INET) + (p2 + (a4 + (pad + s))));
    ReadUintRoundTrip(idx, 1, false, Int16Bytes(AF_INET) + (p2 + (a4 + (pad + s))));
    Int16RoundTrip(AF_INET, p2 + (a4 + (pad + s)));
    assert Pow256(2) == U16_LIMIT && Pow256(4) == U32_LIMIT;
    ReadUintRoundTrip(port, 2, true, a4 + (pad + s));
    ReadUintRoundTrip(addr, 4, true, pad + s);
    assert (pad + s)[..8] == pad && (pad + s)[8..] == s;
    TailRoundTrip(BindRecord(AF_INET, FormatDecimal(port), ip.v4(addr), rec.protocol, rec.exe), s, f, exe, protocol, rest);
  }

  /**
   A bind record for an IPv6 socket decodes to family 10, the decimal port,
   the printed 16-byte address, the executable and the protocol, leaving
   exactly the bytes after the record.
   */
  lemma BindV6RoundTrip(rec: BindRecord, idx: byte, port: nat, flowinfo: nat, addr: seq<byte>, scope: nat,
                        s: seq<byte>, f: Formats, ip: IpPrinters, exe: string, protocol: nat, rest: seq<byte>)
    requires port < U16_LIMIT && flowinfo < U32_LIMIT && |addr| == 16 && scope < U32_LIMIT && protocol < U16_LIMIT
    requires TailReads(f, s, exe, protocol, rest)
    ensures DecodeSocketBind(rec, [idx] + SockaddrIn6(port, flowinfo, addr, scope) + s, f, ip) ==
            Outcome(BindRecord(AF_INET6, FormatDecimal(port), ip.v6(addr), protocol, exe), Ok, rest)
  {
    var p2 := BEBytes(port, 2);
    var f4 := BEBytes(flowinfo, 4);
    var s4 := BEBytes(scope, 4);
    var input := [idx] + SockaddrIn6(port, flowinfo, addr, scope) + s;
    assert input == UintBytes(idx, 1, false) + (Int16Bytes(AF_INET6) + (p2 + (f4 + (addr + (s4 + s)))));
    ReadUintRoundTrip(idx, 1, false, Int16Bytes(AF_INET6) + (p2 + (f4 + (addr + (s4 + s)))));
    Int16RoundTrip(AF_INET6, p2 + (f4 + (addr + (s4 + s))));
    assert Pow256(2) == U16_LIMIT && Pow256(4) == U32_LIMIT;
    ReadUintRoundTrip(port, 2, true, f4 + (addr + (s4 + s)));
    ReadUintRoundTrip(flowinfo, 4, true, addr + (s4 + s));
    assert (addr + (s4 + s))[..16] == addr && (addr + (s4 + s))[16..] == s4 + s;
    ReadUintRoundTrip(scope, 4, true, s);
    TailRoundTrip(BindRecord(AF_INET6, FormatDecimal(port), ip.v6(addr), rec.protocol, rec.exe), s, f, exe, protocol, rest);
  }
}

=== FILE: sshd_config.dfy ===
/**
 The sshd configuration collector (data type 3002): the authentication
 settings of `/etc/ssh/sshd_config`, starting from fixed defaults, with the
 last setting of each keyword winning. The file is given as its lines;
 reading it (and the 1 MiB read limit) is not modelled.
 */
module SshdConfig {
  import opened Events
  import opened Text

  const SSHD_DATATYPE: nat := 3002

  /** Characters that separate a keyword from its value: white space and `=`. */
  predicate IsFieldSep(c: char)
  {
    IsSpace(c) || c == '='
  }

  predicate NoFieldSep(s: string)
  {
    forall j :: 0 <= j < |s| ==> !IsFieldSep(s[j])
  }

  /**
   One line: blank lines and lines whose first non-blank character is `#`
   are skipped; otherwise the line must split into exactly two fields on
   white space and `=`, a keyword and a value. (The code also trims each
   field; a field holds no white space, so that changes nothing, as
   `FieldTrimIsIdentity` shows.)
   */
  function ParseLine(line: string): (r: Option<(string, string)>)
    ensures |TrimSpace(line)| == 0 || TrimSpace(line)[0] == '#' ==> r.None?
  {
    var t := TrimSpace(line);
    if |t| == 0 || t[0] == '#' then None
    else
      var fs := FieldsFunc(t, IsFieldSep);
      if |fs| != 2 then None else Some((fs[0], fs[1]))
  }

  /** The keyword and value of a parsed line are non-empty, free of separators, and unchanged by trimming. */
  lemma FieldTrimIsIdentity(line: string)
    requires ParseLine(line).Some?
    ensures var (k, v) := ParseLine(line).value;
            && |k| > 0 && |v| > 0 && NoFieldSep(k) && NoFieldSep(v)
            && TrimSpace(k) == k && TrimSpace(v) == v
  {
    var fs := FieldsFunc(TrimSpace(line), IsFieldSep);
    assert |fs| == 2 && ParseLine(line).value == (fs[0], fs[1]);
    assert NoFieldSep(fs[0]) && NoFieldSep(fs[1]);
    TrimSpaceNoSpace(fs[0]);
    TrimSpaceNoSpace(fs[1]);
  }

  /** A keyword, one separator and a value, with no other separators, parse to that pair. */
  lemma ParseSetting(keyword: string, sep: char, value: string)
    requires |keyword| > 0 && |value| > 0 && keyword[0] != '#' && IsFieldSep(sep)
    requires NoFieldSep(keyword) && NoFieldSep(value)
    ensures ParseLine(keyword + [sep] + value) == Some((keyword, value))
  {
    var line := keyword + [sep] + value;
    assert line[0] == keyword[0] && line[|line| - 1] == value[|value| - 1];
    assert TrimLeft(line) == line;
    assert TrimRight(line) == line;
    FieldsOfPair(keyword, sep, value, IsFieldSep);
  }

  /** Which keywords are collected, and under which result key. */
  type KeyTable = seq<(string, string)>

  /** The keys the collector writes: `MaxAuthTries` goes to a key the defaults do not use. */
  const KEYS_AS_WRITTEN: KeyTable := [
    ("PasswordAuthentication", "passwd_authentication"),
    ("PubkeyAuthentication", "pubkey_authentication"),
    ("PermitEmptyPasswords", "permit_emptypassword"),
    ("MaxAuthTries", "max_auth_tries")]

  /** The same table with `MaxAuthTries` written to the key its default uses. */
  const KEYS: KeyTable := [
    ("PasswordAuthentication", "passwd_authentication"),
    ("PubkeyAuthentication", "pubkey_authentication"),
    ("PermitEmptyPasswords", "permit_emptypassword"),
    ("MaxAuthTries", "max_authtries")]

  const DEFAULTS: map<string, string> := map[
    "pubkey_authentication" := "yes",
    "passwd_authentication" := "no",
    "permit_emptypassword" := "no",
    "max_authtries" := "-1"]

  /** The result key for a keyword: the first table entry naming it. */
  function KeyFor(table: KeyTable, keyword: string): (r: Option<string>)
    ensures r.None? <==> forall j :: 0 <= j < |table| ==> table[j].0 != keyword
    ensures r.Some? ==> exists j :: 0 <= j < |table| && table[j] == (keyword, r.value)
    decreases |table|
  {
    if |table| == 0 then None
    else if table[0].0 == keyword then Some(table[0].1)
    else
      var r := KeyFor(table[1..], keyword);
      assert forall j :: 0 <= j < |table| - 1 ==> table[1..][j] == table[j + 1];
      r
  }

  /** No two entries share a keyword or a result key. */
  predicate Distinct(table: KeyTable)
  {
    forall i, j :: 0 <= i < j < |table| ==> table[i].0 != table[j].0 && table[i].1 != table[j].1
  }

  /** In a table without repeats, exactly one keyword leads to each entry's key. */
  lemma KeyForEntry(table: KeyTable, i: nat)
    requires Distinct(table) && i < |table|
    ensures KeyFor(table, table[i].0) == Some(table[i].1)
    ensures forall kw :: KeyFor(table, kw) == Some(table[i].1) ==> kw == table[i].0
  {
    var r := KeyFor(table, table[i].0);
    assert r.Some?;
    var j :| 0 <= j < |table| && table[j] == (table[i].0, r.value);
    assert j == i;
    forall kw | KeyFor(table, kw) == Some(table[i].1)
      ensures kw == table[i].0
    {
      var j' :| 0 <= j' < |table| && table[j'] == (kw, table[i].1);
      assert j' == i;
    }
  }

  lemma TablesDistinct()
    ensures Distinct(KEYS) && Distinct(KEYS_AS_WRITTEN)
  {
    assert KEYS[1].0[1] != KEYS[2].0[1];
    assert KEYS[0].1[1] != KEYS[1].1[1];
  }

  /** A map lookup that may miss. */
  function Get(m: map<string, string>, k: string): Option<string>
  {
    if k in m then Some(m[k]) else None
  }

  /** A line after parsing: a keyword and its value, or nothing. */
  type Setting = Option<(string, string)>

  function Parsed(lines: seq<string>): seq<Setting>
  {
    seq(|lines|, i requires 0 <= i < |lines| => ParseLine(lines[i]))
  }

  /** One parsed line applied to the result: a collected keyword stores `key=value` under its key. */
  function Apply(m: map<string, string>, p: Setting, table: KeyTable): map<string, string>
  {
    match p
    case None => m
    case Some(setting) =>
      match KeyFor(table, setting.0)
      case None => m
      case Some(k) => m[k := k + "=" + setting.1]
  }

  /** The parsed lines applied in file order. */
  function ApplyAll(ps: seq<Setting>, m: map<string, string>, table: KeyTable): map<string, string>
  {
    if |ps| == 0 then m
    else Apply(ApplyAll(ps[..|ps| - 1], m, table), ps[|ps| - 1], table)
  }

  /** The setting sets `keyword`. */
  predicate SetsKeyword(p: Setting, keyword: string)
  {
    p.Some? && p.value.0 == keyword
  }

  /** The value of the last setting of `keyword`, if any. */
  function LastSetting(ps: seq<Setting>, keyword: string): Option<string>
  {
    if |ps| == 0 then None
    else if SetsKeyword(ps[|ps| - 1], keyword) then Some(ps[|ps| - 1].value.1)
    else LastSetting(ps[..|ps| - 1], keyword)
  }

  /**
   `LastSetting` finds nothing exactly when no line sets the keyword, and
   otherwise the value of a line that sets it with no later line doing so.
   */
  lemma {:induction false} LastSettingIsLast(ps: seq<Setting>, keyword: string)
    ensures LastSetting(ps, keyword).None? <==> forall i :: 0 <= i < |ps| ==> !SetsKeyword(ps[i], keyword)
    ensures LastSetting(ps, keyword).Some? ==>
              exists i :: 0 <= i < |ps| && ps[i] == Some((keyword, LastSetting(ps, keyword).value))
                          && forall j :: i < j < |ps| ==> !SetsKeyword(ps[j], keyword)
    decreases |ps|
  {
    if |ps| > 0 {
      var n := |ps| - 1;
      var init := ps[..n];
      if !SetsKeyword(ps[n], keyword) {
        LastSettingIsLast(init, keyword);
        assert forall i :: 0 <= i < n ==> init[i] == ps[i];
      }
    }
  }

  /**
   The key of a collected keyword ends up holding `key=value` for the last
   line that sets it, or its initial value when no line does.
   */
  lemma {:induction false} ApplyAllLast(ps: seq<Setting>, m: map<string, string>, table: KeyTable, keyword: string, k: string)
    requires KeyFor(table, keyword) == Some(k)
    requires forall kw :: KeyFor(table, kw) == Some(k) ==> kw == keyword
    ensures Get(ApplyAll(ps, m, table), k) ==
            match LastSetting(ps, keyword) case Some(v) => Some(k + "=" + v) case None => Get(m, k)
    decreases |ps|
  {
    if |ps| > 0 {
      ApplyAllLast(ps[..|ps| - 1], m, table, keyword, k);
    }
  }

  /** A key no keyword leads to keeps its initial value. */
  lemma {:induction false} ApplyAllOther(ps: seq<Setting>, m: map<string, string>, table: KeyTable, k: string)
    requires forall kw :: KeyFor(table, kw) != Some(k)
    ensures Get(ApplyAll(ps, m, table), k) == Get(m, k)
    decreases |ps|
  {
    if |ps| > 0 {
      ApplyAllOther(ps[..|ps| - 1], m, table, k);
    }
  }

  /** Applying settings never removes a key. */
  lemma {:induction false} ApplyAllKeys(ps: seq<Setting>, m: map<string, string>, table: KeyTable, k: string)
    requires k in m
    ensures k in ApplyAll(ps, m, table)
    decreases |ps|
  {
    if |ps| > 0 {
      ApplyAllKeys(ps[..|ps| - 1], m, table, k);
    }
  }

  /** The collector's outcome: the result and whether the configuration file failed to open. */
  datatype Collected = Collected(result: map<string, string>, failed: bool)

  /** The collector with a given key table: no result and an error when the file cannot be opened. */
  function Collect(file: Option<seq<string>>, table: KeyTable): (r: Collected)
    ensures file.None? ==> r == Collected(map[], true)
    ensures file.Some? ==> !r.failed && DEFAULTS.Keys <= r.result.Keys
  {
    match file
    case None => Collected(map[], true)
    case Some(lines) =>
      var m := ApplyAll(Parsed(lines), DEFAULTS, table);
      assert forall k :: k in DEFAULTS ==> k in m by {
        forall k | k in DEFAULTS ensures k in m { ApplyAllKeys(Parsed(lines), DEFAULTS, table, k); }
      }
      Collected(m, false)
  }

  /** `Sshd.Run` as written. */
  function RunAsWritten(file: Option<seq<string>>): Collected
  {
    Collect(file, KEYS_AS_WRITTEN)
  }

  /** `Sshd.Run` with `MaxAuthTries` stored under the key of its default. */
  function Run(file: Option<seq<string>>): Collected
  {
    Collect(file, KEYS)
  }

  /**
   As written, `max_authtries` keeps its default `-1` whatever the file says,
   and a `MaxAuthTries` line lands under the separate key `max_auth_tries`.
   */
  lemma MaxAuthTriesAsWritten(lines: seq<string>)
    ensures Get(RunAsWritten(Some(lines)).result, "max_authtries") == Some("-1")
    ensures Get(RunAsWritten(Some(lines)).result, "max_auth_tries") ==
            match LastSetting(Parsed(lines), "MaxAuthTries") case Some(v) => Some("max_auth_tries=" + v) case None => None
  {
    TablesDistinct();
    forall kw ensures KeyFor(KEYS_AS_WRITTEN, kw) != Some("max_authtries") {
      NoKeyIsDefaultMaxAuthTries(kw);
    }
    ApplyAllOther(Parsed(lines), DEFAULTS, KEYS_AS_WRITTEN, "max_authtries");
    KeyForEntry(KEYS_AS_WRITTEN, 3);
    ApplyAllLast(Parsed(lines), DEFAULTS, KEYS_AS_WRITTEN, "MaxAuthTries", "max_auth_tries");
    assert Get(DEFAULTS, "max_authtries") == Some("-1");
    assert "max_auth_tries" !in DEFAULTS by {
      assert |"max_auth_tries"| == 14;
    }
    assert Get(DEFAULTS, "max_auth_tries") == None;
    assert "max_auth_tries" + "=" == "max_auth_tries=";
    assert RunAsWritten(Some(lines)).result == ApplyAll(Parsed(lines), DEFAULTS, KEYS_AS_WRITTEN);
  }

  /** No keyword of the table as written leads to the `max_authtries` key. */
  lemma NoKeyIsDefaultMaxAuthTries(kw: string)
    ensures KeyFor(KEYS_AS_WRITTEN, kw) != Some("max_authtries")
  {
    var r := KeyFor(KEYS_AS_WRITTEN, kw);
    if r.Some? {
      var j :| 0 <= j < |KEYS_AS_WRITTEN| && KEYS_AS_WRITTEN[j] == (kw, r.value);
      assert |KEYS_AS_WRITTEN[j].1| != |"max_authtries"|;
    }
  }

  /** The line `MaxAuthTries 3` (any value) leaves `max_authtries` at `-1` as written. */
  lemma MaxAuthTriesLineIgnored(value: string)
    requires |value| > 0 && NoFieldSep(value)
    ensures var r := RunAsWritten(Some(["MaxAuthTries" + " " + value])).result;
            Get(r, "max_authtries") == Some("-1") && Get(r, "max_auth_tries") == Some("max_auth_tries=" + value)
  {
    var line := "MaxAuthTries" + " " + value;
    assert NoFieldSep("MaxAuthTries");
    ParseSetting("MaxAuthTries", ' ', value);
    assert Parsed([line]) == [Some(("MaxAuthTries", value))];
    MaxAuthTriesAsWritten([line]);
  }

  /**
   Every collected setting reports the last line that sets it, as
   `key=value`, or its default when no line does (`max_authtries` included).
   */
  lemma RunReportsLastSetting(lines: seq<string>, i: nat)
    requires i < |KEYS|
    ensures Get(Run(Some(lines)).result, KEYS[i].1) ==
            match LastSetting(Parsed(lines), KEYS[i].0) case Some(v) => Some(KEYS[i].1 + "=" + v) case None => Get(DEFAULTS, KEYS[i].1)
  {
    TablesDistinct();
    KeyForEntry(KEYS, i);
    ApplyAllLast(Parsed(lines), DEFAULTS, KEYS, KEYS[i].0, KEYS[i].1);
  }

  /** The three settings both tables share are reported the same way as written. */
  lemma RunAsWrittenSharedSettings(lines: seq<string>, i: nat)
    requires i < 3
    ensures Get(RunAsWritten(Some(lines)).result, KEYS[i].1) == Get(Run(Some(lines)).result, KEYS[i].1)
  {
    TablesDistinct();
    assert KEYS_AS_WRITTEN[i] == KEYS[i];
    KeyForEntry(KEYS, i);
    KeyForEntry(KEYS_AS_WRITTEN, i);
    ApplyAllLast(Parsed(lines), DEFAULTS, KEYS, KEYS[i].0, KEYS[i].1);
    ApplyAllLast(Parsed(lines), DEFAULTS, KEYS_AS_WRITTEN, KEYS[i].0, KEYS[i].1);
  }
}

=== FILE: text.dfy ===
/**
 Text helpers with the semantics of the Go standard library calls the
 user-space side relies on: `strconv.FormatUint`, `fmt.Sprintf("%x")`,
 `strconv.ParseUint(s, 10, 32)`, `strings.Split`, `strings.Join`,
 `strings.HasPrefix`, `strings.TrimPrefix`, `strings.TrimSpace` and
 `strings.FieldsFunc`. Strings are sequences of Unicode scalar values: the
 runes Go decodes from UTF-8 before `TrimSpace` and `FieldsFunc` test them
 for white space. Text that is not valid UTF-8 has no counterpart here.
 */
module Text {
  import opened Bits

  const MAX_U32: nat := U32_LIMIT - 1

  // ---------------------------------------------------------------------------
  // Rendering and reading unsigned numbers
  // ---------------------------------------------------------------------------

  /** Lower-case digit for a value below 16. */
  function DigitChar(d: nat): (c: char)
    requires d < 16
    ensures CharValue(c) == d
    ensures c == '0' <==> d == 0
  {
    if d < 10 then (48 + d) as char else (87 + d) as char
  }

  /** Value of a lower-case digit character; 16 for anything else. */
  function CharValue(c: char): nat
  {
    if '0' <= c <= '9' then c as nat - '0' as nat
    else if 'a' <= c <= 'f' then c as nat - 'a' as nat + 10
    else 16
  }

  predicate IsDecimalDigit(c: char)
  {
    '0' <= c <= '9'
  }

  /**
   `n` rendered in `base` with lower-case digits, no sign, no prefix and no
   leading zeros (the rendering of `strconv.FormatUint(n, 10)` and of `%x`).
   */
  function FormatBase(n: nat, base: nat): (s: string)
    requires 2 <= base <= 16
    ensures |s| >= 1
    ensures forall i :: 0 <= i < |s| ==> CharValue(s[i]) < base
    ensures s[0] == '0' <==> n == 0
    decreases n
  {
    if n < base then [DigitChar(n)]
    else
      DivShrinks(n, base);
      FormatBase(n / base, base) + [DigitChar(n % base)]
  }

  function FormatDecimal(n: nat): string
  {
    FormatBase(n, 10)
  }

  function FormatHex(n: nat): string
  {
    FormatBase(n, 16)
  }

  /** Positional value of the digits of `s` read after an accumulated prefix `acc`. */
  function Value(acc: nat, s: string, base: nat): nat
    decreases |s|
  {
    if |s| == 0 then acc else Value(acc * base + CharValue(s[0]), s[1..], base)
  }

  lemma {:induction false} ValueAppend(acc: nat, s: string, c: char, base: nat)
    ensures Value(acc, s + [c], base) == Value(acc, s, base) * base + CharValue(c)
    decreases |s|
  {
    if |s| == 0 {
      assert (s + [c])[1..] == [];
    } else {
      assert (s + [c])[0] == s[0];
      assert (s + [c])[1..] == s[1..] + [c];
      ValueAppend(acc * base + CharValue(s[0]), s[1..], c, base);
    }
  }

  /** Reading back a rendered number gives the number: rendering is injective. */
  lemma {:induction false} FormatBaseRoundTrip(n: nat, base: nat)
    requires 2 <= base <= 16
    ensures Value(0, FormatBase(n, base), base) == n
    decreases n
  {
    if n >= base {
      var q, r := n / base, n % base;
      calc {
        Value(0, FormatBase(n, base), base);
        { assert FormatBase(n, base) == FormatBase(q, base) + [DigitChar(r)]; }
        Value(0, FormatBase(q, base) + [DigitChar(r)], base);
        { ValueAppend(0, FormatBase(q, base), DigitChar(r), base); }
        Value(0, FormatBase(q, base), base) * base + CharValue(DigitChar(r));
        { DivShrinks(n, base); FormatBaseRoundTrip(q, base); }
        q * base + r;
        { DivShrinks(n, base); }
        n;
      }
    }
  }

  lemma FormatDecimalInjective(a: nat, b: nat)
    ensures FormatDecimal(a) == FormatDecimal(b) <==> a == b
  {
    FormatBaseRoundTrip(a, 10);
    FormatBaseRoundTrip(b, 10);
  }

  /**
   `strconv.ParseUint(s, 10, 32)` with its error discarded: the empty string
   and any non-digit met before an overflow give 0 (syntax error); an overflow
   of 32 bits gives 4294967295 (range error), even if a non-digit follows.
   */
  function ParseUint32(s: string): (r: nat)
    ensures r <= MAX_U32
    ensures |s| == 0 || !IsDecimalDigit(s[0]) ==> r == 0
  {
    if |s| == 0 then 0 else ParseDigits(s, 0)
  }

  function ParseDigits(s: string, acc: nat): (r: nat)
    requires acc <= MAX_U32
    ensures r <= MAX_U32
    decreases |s|
  {
    if |s| == 0 then acc
    else if !IsDecimalDigit(s[0]) then 0
    else
      var n1 := acc * 10 + CharValue(s[0]);
      if n1 > MAX_U32 then MAX_U32 else ParseDigits(s[1..], n1)
  }

  predicate AllDecimal(s: string)
  {
    forall i :: 0 <= i < |s| ==> IsDecimalDigit(s[i])
  }

  lemma {:induction false} ValueGrows(acc: nat, s: string)
    requires AllDecimal(s)
    ensures Value(acc, s, 10) >= acc
    decreases |s|
  {
    if |s| > 0 {
      ValueGrows(acc * 10 + CharValue(s[0]), s[1..]);
    }
  }

  /** On a string of digits the parse is the decimal value, saturated at 2^32 - 1. */
  lemma {:induction false} ParseDigitsValue(s: string, acc: nat)
    requires acc <= MAX_U32 && AllDecimal(s)
    ensures ParseDigits(s, acc) == (if Value(acc, s, 10) > MAX_U32 then MAX_U32 else Value(acc, s, 10))
    decreases |s|
  {
    if |s| > 0 {
      var n1 := acc * 10 + CharValue(s[0]);
      ValueGrows(n1, s[1..]);
      if n1 <= MAX_U32 {
        ParseDigitsValue(s[1..], n1);
      }
    }
  }

  /** A non-digit met while the value still fits makes the whole parse 0. */
  lemma {:induction false} ParseDigitsSyntaxError(s: string, acc: nat, i: nat)
    requires acc <= MAX_U32 && i < |s| && !IsDecimalDigit(s[i])
    requires AllDecimal(s[..i]) && Value(acc, s[..i], 10) <= MAX_U32
    ensures ParseDigits(s, acc) == 0
    decreases i
  {
    if i > 0 {
      var n1 := acc * 10 + CharValue(s[0]);
      assert s[..i][1..] == s[1..][..i - 1];
      assert IsDecimalDigit(s[..i][0]);
      ValueGrows(n1, s[1..][..i - 1]);
      ParseDigitsSyntaxError(s[1..], n1, i - 1);
    }
  }

  /** Every 32-bit value survives a render/parse round trip. */
  lemma DecimalRoundTrip(n: nat)
    requires n <= MAX_U32
    ensures ParseUint32(FormatDecimal(n)) == n
  {
    FormatBaseRoundTrip(n, 10);
    ParseDigitsValue(FormatDecimal(n), 0);
  }

  // ---------------------------------------------------------------------------
  // Prefixes, joining and splitting
  // ---------------------------------------------------------------------------

  predicate HasPrefix(s: string, p: string)
  {
    |p| <= |s| && s[..|p|] == p
  }

  /** `strings.TrimPrefix`: drops `p` when `s` starts with it, else returns `s`. */
  function TrimPrefix(s: string, p: string): (r: string)
    ensures HasPrefix(s, p) ==> p + r == s
    ensures !HasPrefix(s, p) ==> r == s
  {
    if HasPrefix(s, p) then s[|p|..] else s
  }

  /** `strings.Join`: the parts with `sep` between consecutive ones. */
  function Join(parts: seq<string>, sep: string): (r: string)
    decreases |parts|
  {
    if |parts| == 0 then ""
    else if |parts| == 1 then parts[0]
    else parts[0] + sep + Join(parts[1..], sep)
  }

  function Count(s: string, c: char): nat
    decreases |s|
  {
    if |s| == 0 then 0 else (if s[0] == c then 1 else 0) + Count(s[1..], c)
  }

  /**
   `strings.Split(s, [c])`: the pieces between occurrences of `c`; always one
   more piece than there are separators, and no piece holds a separator.
   */
  function Split(s: string, c: char): (r: seq<string>)
    ensures |r| == Count(s, c) + 1
    ensures forall i :: 0 <= i < |r| ==> c !in r[i]
    decreases |s|
  {
    if |s| == 0 then [""]
    else
      var rest := Split(s[1..], c);
      if s[0] == c then [""] + rest
      else [[s[0]] + rest[0]] + rest[1..]
  }

  /** Joining the pieces back with the separator restores the input. */
  lemma {:induction false} SplitJoin(s: string, c: char)
    ensures Join(Split(s, c), [c]) == s
    decreases |s|
  {
    if |s| > 0 {
      var rest := Split(s[1..], c);
      SplitJoin(s[1..], c);
      if s[0] == c {
        assert Split(s, c) == [""] + rest;
        assert ([""] + rest)[1..] == rest;
      } else {
        var r := [[s[0]] + rest[0]] + rest[1..];
        assert Split(s, c) == r;
        if |rest| == 1 {
          assert Join(rest, [c]) == rest[0];
        } else {
          assert r[1..] == rest[1..];
          assert Join(rest, [c]) == rest[0] + [c] + Join(rest[1..], [c]);
        }
      }
    }
  }

  /** A string without the separator splits into itself alone. */
  lemma {:induction false} SplitNoSep(s: string, c: char)
    requires c !in s
    ensures Split(s, c) == [s]
    decreases |s|
  {
    if |s| > 0 {
      assert c !in s[1..];
      SplitNoSep(s[1..], c);
      assert s[0] != c && [s[0]] + s[1..] == s;
    }
  }

  /** A separator-free piece followed by the separator splits off as the first piece. */
  lemma {:induction false} SplitAfter(a: string, t: string, c: char)
    requires c !in a
    ensures Split(a + [c] + t, c) == [a] + Split(t, c)
    decreases |a|
  {
    var s := a + [c] + t;
    if |a| == 0 {
      assert s[0] == c && s[1..] == t;
    } else {
      assert s[0] == a[0] && s[1..] == a[1..] + [c] + t;
      assert c !in a[1..];
      SplitAfter(a[1..], t, c);
      assert [a[0]] + a[1..] == a;
    }
  }

  /** Splitting undoes joining when no part holds the separator. */
  lemma {:induction false} JoinSplit(parts: seq<string>, c: char)
    requires |parts| > 0
    requires forall i :: 0 <= i < |parts| ==> c !in parts[i]
    ensures Split(Join(parts, [c]), c) == parts
    decreases |parts|
  {
    if |parts| == 1 {
      SplitNoSep(parts[0], c);
    } else {
      JoinSplit(parts[1..], c);
      SplitAfter(parts[0], Join(parts[1..], [c]), c);
      assert [parts[0]] + parts[1..] == parts;
    }
  }

  // ---------------------------------------------------------------------------
  // White space
  // ---------------------------------------------------------------------------

  /** `unicode.IsSpace`: the Latin-1 spaces plus the Unicode White_Space characters. */
  predicate IsSpace(c: char)
  {
    || c == '\t' || c == '\n' || c == '\U{0B}' || c == '\U{0C}' || c == '\r' || c == ' '
    || c == '\U{85}' || c == '\U{A0}' || c == '\U{1680}'
    || ('\U{2000}' <= c <= '\U{200A}')
    || c == '\U{2028}' || c == '\U{2029}' || c == '\U{202F}' || c == '\U{205F}' || c == '\U{3000}'
  }

  function TrimLeft(s: string): (r: string)
    ensures |r| <= |s| && r == s[|s| - |r|..]
    ensures |r| > 0 ==> !IsSpace(r[0])
    ensures forall i :: 0 <= i < |s| - |r| ==> IsSpace(s[i])
    decreases |s|
  {
    if |s| > 0 && IsSpace(s[0]) then TrimLeft(s[1..]) else s
  }

  function TrimRight(s: string): (r: string)
    ensures |r| <= |s| && r == s[..|r|]
    ensures |r| > 0 ==> !IsSpace(r[|r| - 1])
    ensures forall i :: |r| <= i < |s| ==> IsSpace(s[i])
    decreases |s|
  {
    if |s| > 0 && IsSpace(s[|s| - 1]) then TrimRight(s[..|s| - 1]) else s
  }

  /** `strings.TrimSpace`: the input without its leading and trailing white space. */
  function TrimSpace(s: string): (r: string)
    ensures |r| > 0 ==> !IsSpace(r[0]) && !IsSpace(r[|r| - 1])
    ensures |s| - |TrimLeft(s)| + |r| <= |s|
    ensures r == s[|s| - |TrimLeft(s)|..|s| - |TrimLeft(s)| + |r|]
  {
    var l := TrimLeft(s);
    var r := TrimRight(l);
    SliceOfSuffix(s, |s| - |l|, |r|);
    r
  }

  lemma SliceOfSuffix(s: string, k: nat, n: nat)
    requires k + n <= |s|
    ensures s[k..][..n] == s[k..k + n]
  {
  }

  lemma TrimSpaceNoSpace(s: string)
    requires forall i :: 0 <= i < |s| ==> !IsSpace(s[i])
    ensures TrimSpace(s) == s
  {
  }

  // ---------------------------------------------------------------------------
  // Field splitting
  // ---------------------------------------------------------------------------

  /** The characters of `s` that are not separators, in order. */
  function Keep(s: string, isSep: char -> bool): (r: string)
    decreases |s|
  {
    if |s| == 0 then "" else (if isSep(s[0]) then "" else [s[0]]) + Keep(s[1..], isSep)
  }

  function Concat(parts: seq<string>): string
    decreases |parts|
  {
    if |parts| == 0 then "" else parts[0] + Concat(parts[1..])
  }

  /**
   `strings.FieldsFunc`: the maximal non-empty runs of non-separator
   characters, in order. `cur` is the run being collected.
   */
  function FieldsFrom(s: string, cur: string, isSep: char -> bool): (r: seq<string>)
    ensures forall i :: 0 <= i < |r| ==> |r[i]| > 0
    ensures (forall j :: 0 <= j < |cur| ==> !isSep(cur[j])) ==>
              forall i, j :: 0 <= i < |r| && 0 <= j < |r[i]| ==> !isSep(r[i][j])
    decreases |s|
  {
    if |s| == 0 then (if |cur| == 0 then [] else [cur])
    else if isSep(s[0]) then (if |cur| == 0 then [] else [cur]) + FieldsFrom(s[1..], "", isSep)
    else FieldsFrom(s[1..], cur + [s[0]], isSep)
  }

  function FieldsFunc(s: string, isSep: char -> bool): (r: seq<string>)
    ensures forall i :: 0 <= i < |r| ==> |r[i]| > 0
    ensures forall i, j :: 0 <= i < |r| && 0 <= j < |r[i]| ==> !isSep(r[i][j])
  {
    FieldsFrom(s, "", isSep)
  }

  lemma {:induction false} ConcatAppend(a: seq<string>, b: seq<string>)
    ensures Concat(a + b) == Concat(a) + Concat(b)
    decreases |a|
  {
    if |a| > 0 {
      assert (a + b)[0] == a[0];
      assert (a + b)[1..] == a[1..] + b;
      ConcatAppend(a[1..], b);
      calc {
        Concat(a + b);
        a[0] + Concat(a[1..] + b);
        a[0] + (Concat(a[1..]) + Concat(b));
        (a[0] + Concat(a[1..])) + Concat(b);
      }
    } else {
      assert a + b == b;
    }
  }

  /** The fields hold exactly the non-separator characters of the input, in order. */
  lemma {:induction false} FieldsKeepAll(s: string, cur: string, isSep: char -> bool)
    ensures Concat(FieldsFrom(s, cur, isSep)) == cur + Keep(s, isSep)
    decreases |s|
  {
    if |s| > 0 {
      if isSep(s[0]) {
        var head: seq<string> := if |cur| == 0 then [] else [cur];
        ConcatAppend(head, FieldsFrom(s[1..], "", isSep));
        FieldsKeepAll(s[1..], "", isSep);
      } else {
        FieldsKeepAll(s[1..], cur + [s[0]], isSep);
      }
    }
  }

  /** A run of non-separators extends the field being collected. */
  lemma {:induction false} FieldsRun(s: string, rest: string, cur: string, isSep: char -> bool)
    requires forall j :: 0 <= j < |s| ==> !isSep(s[j])
    ensures FieldsFrom(s + rest, cur, isSep) == FieldsFrom(rest, cur + s, isSep)
    decreases |s|
  {
    if |s| > 0 {
      assert (s + rest)[0] == s[0] && (s + rest)[1..] == s[1..] + rest;
      FieldsRun(s[1..], rest, cur + [s[0]], isSep);
      assert cur + [s[0]] + s[1..] == cur + s;
    } else {
      assert s + rest == rest && cur + s == cur;
    }
  }

  /** Two separator-free words around one separator are exactly two fields. */
  lemma FieldsOfPair(a: string, sep: char, b: string, isSep: char -> bool)
    requires |a| > 0 && |b| > 0 && isSep(sep)
    requires forall j :: 0 <= j < |a| ==> !isSep(a[j])
    requires forall j :: 0 <= j < |b| ==> !isSep(b[j])
    ensures FieldsFunc(a + [sep] + b, isSep) == [a, b]
  {
    assert a + [sep] + b == a + ([sep] + b);
    FieldsRun(a, [sep] + b, "", isSep);
    assert "" + a == a;
    assert ([sep] + b)[0] == sep && ([sep] + b)[1..] == b;
    assert b == b + "";
    FieldsRun(b, "", "", isSep);
    assert "" + b == b;
  }
}

=== FILE: users.dfy ===
/**
 The user collector (data type 3004): accounts from `/etc/passwd`, keyed by
 user name with the last line winning, last-login data from the login
 records of `/var/log/wtmp`, and a result keyed by decimal UID. Files are
 given as their lines and bytes; the group lookup, the IP parser and the
 order in which the runtime walks a map are passed in.
 */
module Users {
  import opened Bits
  import opened Events
  import opened Text
  import opened Decoder

  const USER_DATATYPE: nat := 3004

  /** One account as the collector caches it. */
  datatype User = User(username: string, password: string, uid: nat, gid: nat, groupName: string,
                       info: string, homeDir: string, shell: string,
                       lastLoginIP: seq<byte>, lastLoginTime: nat)

  /** What lies outside the collector: group names by id, the IP parser, and map iteration order. */
  datatype Lookups = Lookups(
    groupOf: string -> Option<string>,
    parseIP: string -> seq<byte>,
    order: map<string, User> -> seq<string>)

  // ---------------------------------------------------------------------------
  // /etc/passwd
  // ---------------------------------------------------------------------------

  /**
   One passwd line: name, password, uid, gid, comment, home and shell are
   fields 0 to 6 of its `:`-split. UID and GID are parsed as 32-bit decimals
   with the error dropped, and the group name is looked up by the raw GID
   field. A line with fewer than seven fields indexes past the split and
   panics: `None`.
   */
  function ParsePasswdLine(line: string, groupOf: string -> Option<string>): (r: Option<User>)
    ensures r.None? <==> Count(line, ':') < 6
    ensures r.Some? ==> r.value.uid <= MAX_U32 && r.value.gid <= MAX_U32
    ensures r.Some? ==> r.value.lastLoginIP == [] && r.value.lastLoginTime == 0
    ensures r.Some? ==> ':' !in r.value.username && ':' !in r.value.shell
  {
    var f := Split(line, ':');
    if |f| < 7 then None
    else
      var group := match groupOf(f[3]) case Some(g) => g case None => "";
      Some(User(f[0], f[1], ParseUint32(f[2]), ParseUint32(f[3]), group, f[4], f[5], f[6], [], 0))
  }

  /** The passwd line of an account: its seven fields joined with `:`. */
  function PasswdLine(name: string, password: string, uid: nat, gid: nat, info: string, home: string, shell: string): string
  {
    Join([name, password, FormatDecimal(uid), FormatDecimal(gid), info, home, shell], ":")
  }

  lemma DecimalHasNoColon(n: nat)
    ensures ':' !in FormatDecimal(n)
  {
    assert CharValue(':') == 16;
  }

  /** A line written from an account's fields parses back to that account, with no login data yet. */
  lemma PasswdRoundTrip(name: string, password: string, uid: nat, gid: nat, info: string, home: string, shell: string,
                        groupOf: string -> Option<string>)
    requires uid <= MAX_U32 && gid <= MAX_U32
    requires ':' !in name && ':' !in password && ':' !in info && ':' !in home && ':' !in shell
    ensures var group := match groupOf(FormatDecimal(gid)) case Some(g) => g case None => "";
            ParsePasswdLine(PasswdLine(name, password, uid, gid, info, home, shell), groupOf) ==
            Some(User(name, password, uid, gid, group, info, home, shell, [], 0))
  {
    var parts := [name, password, FormatDecimal(uid), FormatDecimal(gid), info, home, shell];
    DecimalHasNoColon(uid);
    DecimalHasNoColon(gid);
    JoinSplit(parts, ':');
    DecimalRoundTrip(uid);
    DecimalRoundTrip(gid);
  }

  function Parsed(lines: seq<string>, groupOf: string -> Option<string>): seq<Option<User>>
  {
    seq(|lines|, i requires 0 <= i < |lines| => ParsePasswdLine(lines[i], groupOf))
  }

  /** The accounts by name, later lines overwriting earlier ones; `None` once a line panics. */
  function UserMap(ps: seq<Option<User>>): Option<map<string, User>>
  {
    if |ps| == 0 then Some(map[])
    else
      match UserMap(ps[..|ps| - 1])
      case None => None
      case Some(m) =>
        match ps[|ps| - 1]
        case None => None
        case Some(u) => Some(m[u.username := u])
  }

  /** The line is an account named `name`. */
  predicate Names(p: Option<User>, name: string)
  {
    p.Some? && p.value.username == name
  }

  /**
   Building the map panics exactly when some line does; otherwise a name is
   in the map exactly when some line names it, and it maps to the account of
   the last such line.
   */
  lemma {:induction false} UserMapLastWins(ps: seq<Option<User>>, name: string)
    ensures UserMap(ps).None? <==> exists i :: 0 <= i < |ps| && ps[i].None?
    ensures UserMap(ps).Some? ==> (name in UserMap(ps).value <==> exists i :: 0 <= i < |ps| && Names(ps[i], name))
    ensures UserMap(ps).Some? && name in UserMap(ps).value ==>
              exists i :: 0 <= i < |ps| && ps[i] == Some(UserMap(ps).value[name])
                          && UserMap(ps).value[name].username == name
                          && forall j :: i < j < |ps| ==> !Names(ps[j], name)
    decreases |ps|
  {
    if |ps| > 0 {
      var n := |ps| - 1;
      var init := ps[..n];
      UserMapLastWins(init, name);
      assert forall i :: 0 <= i < n ==> init[i] == ps[i];
      if UserMap(init).Some? && ps[n].Some? && ps[n].value.username != name {
        var m := UserMap(init).value;
        assert UserMap(ps).value == m[ps[n].value.username := ps[n].value];
        if name in m {
          var i :| 0 <= i < n && init[i] == Some(m[name]) && m[name].username == name
                   && forall j :: i < j < n ==> !Names(init[j], name);
          assert ps[i] == Some(UserMap(ps).value[name]);
        }
      }
    }
  }

  // ---------------------------------------------------------------------------
  // /var/log/wtmp
  // ---------------------------------------------------------------------------

  /** The size of a `utmp` record and the offsets of the fields the collector reads. */
  const UTMP_SIZE: nat := 384
  const USER_OFFSET: nat := 44
  const USER_SIZE: nat := 32
  const HOST_OFFSET: nat := 76
  const HOST_SIZE: nat := 256
  const SEC_OFFSET: nat := 340

  /** A login record as the collector reads it: user, host, and the raw 32 bits of the login second. */
  datatype Login = Login(user: string, host: string, sec: u32)

  /** Bytes as a Go string: one character per byte. */
  function ByteString(b: seq<byte>): (s: string)
    ensures |s| == |b|
  {
    seq(|b|, i requires 0 <= i < |b| => b[i] as char)
  }

  const NUL: char := 0 as char

  /** `strings.TrimRight(s, "\x00")`. */
  function TrimNul(s: string): (r: string)
    ensures |r| <= |s| && r == s[..|r|]
    ensures |r| > 0 ==> r[|r| - 1] != NUL
    ensures forall i :: |r| <= i < |s| ==> s[i] == NUL
    decreases |s|
  {
    if |s| > 0 && s[|s| - 1] == NUL then TrimNul(s[..|s| - 1]) else s
  }

  /** One record: the NUL-trimmed user and host arrays and the little-endian `int32` second. */
  function DecodeUtmp(b: seq<byte>): Login
    requires |b| == UTMP_SIZE
  {
    assert Pow256(4) == U32_LIMIT;
    Login(TrimNul(ByteString(b[USER_OFFSET..USER_OFFSET + USER_SIZE])),
          TrimNul(ByteString(b[HOST_OFFSET..HOST_OFFSET + HOST_SIZE])),
          LEValue(b[SEC_OFFSET..SEC_OFFSET + 4]))
  }

  /** The records read until one no longer fits: a partial trailing record ends the loop. */
  function Logins(b: seq<byte>): (r: seq<Login>)
    ensures |r| == |b| / UTMP_SIZE
    decreases |b|
  {
    if |b| < UTMP_SIZE then [] else [DecodeUtmp(b[..UTMP_SIZE])] + Logins(b[UTMP_SIZE..])
  }

  /** A name stored in a fixed array: its bytes, then NUL padding. */
  function Padded(name: seq<byte>, size: nat): (b: seq<byte>)
    requires |name| <= size
    ensures |b| == size
  {
    name + seq(size - |name|, _ => 0)
  }

  lemma {:induction false} TrimNulPadding(s: string, k: nat)
    requires |s| == 0 || s[|s| - 1] != NUL
    ensures TrimNul(s + seq(k, _ => NUL)) == s
    decreases k
  {
    if k > 0 {
      var t := s + seq(k, _ => NUL);
      assert t[..|t| - 1] == s + seq(k - 1, _ => NUL);
      TrimNulPadding(s, k - 1);
    }
  }

  lemma PaddedName(name: seq<byte>, size: nat)
    requires |name| <= size && (|name| == 0 || name[|name| - 1] != 0)
    ensures TrimNul(ByteString(Padded(name, size))) == ByteString(name)
  {
    assert ByteString(Padded(name, size)) == ByteString(name) + seq(size - |name|, _ => NUL);
    TrimNulPadding(ByteString(name), size - |name|);
  }

  /** The 384 bytes of a record with the given user, host and second; the other fields are given as filler. */
  function UtmpBytes(user: seq<byte>, host: seq<byte>, sec: nat, head: seq<byte>, mid: seq<byte>, tail: seq<byte>): (b: seq<byte>)
    requires |user| <= USER_SIZE && |host| <= HOST_SIZE && sec < U32_LIMIT
    requires |head| == USER_OFFSET && |mid| == SEC_OFFSET - (HOST_OFFSET + HOST_SIZE) && |tail| == UTMP_SIZE - SEC_OFFSET - 4
    ensures |b| == UTMP_SIZE
  {
    head + Padded(user, USER_SIZE) + Padded(host, HOST_SIZE) + mid + LEBytes(sec, 4) + tail
  }

  /** A record written with a user and host (no trailing NUL) and a second reads back as that login. */
  lemma UtmpRoundTrip(user: seq<byte>, host: seq<byte>, sec: nat, head: seq<byte>, mid: seq<byte>, tail: seq<byte>)
    requires |user| <= USER_SIZE && |host| <= HOST_SIZE && sec < U32_LIMIT
    requires |head| == USER_OFFSET && |mid| == SEC_OFFSET - (HOST_OFFSET + HOST_SIZE) && |tail| == UTMP_SIZE - SEC_OFFSET - 4
    requires |user| == 0 || user[|user| - 1] != 0
    requires |host| == 0 || host[|host| - 1] != 0
    ensures DecodeUtmp(UtmpBytes(user, host, sec, head, mid, tail)) == Login(ByteString(user), ByteString(host), sec)
  {
    var b := UtmpBytes(user, host, sec, head, mid, tail);
    assert b[USER_OFFSET..USER_OFFSET + USER_SIZE] == Padded(user, USER_SIZE);
    assert b[HOST_OFFSET..HOST_OFFSET + HOST_SIZE] == Padded(host, HOST_SIZE);
    assert b[SEC_OFFSET..SEC_OFFSET + 4] == LEBytes(sec, 4);
    PaddedName(user, USER_SIZE);
    PaddedName(host, HOST_SIZE);
    assert Pow256(4) == U32_LIMIT;
    LERoundTrip(sec, 4);
  }

  /** `uint64(int32)`: the second sign-extended to 64 bits. */
  function SecToU64(raw: nat): (r: nat)
    requires raw < U32_LIMIT
    ensures r < U64_LIMIT && r % U32_LIMIT == raw
    ensures raw < 0x8000_0000 ==> r == raw
    ensures raw >= 0x8000_0000 ==> r >= 0xFFFF_FFFF_0000_0000
  {
    ToInt32(raw) % U64_LIMIT
  }

  /** A login recorded for an account: its parsed host and sign-extended second. */
  function WithLogin(u: User, l: Login, parseIP: string -> seq<byte>): User
  {
    u.(lastLoginIP := parseIP(l.host), lastLoginTime := SecToU64(l.sec))
  }

  /**
   One record as the loop is written: the account is copied out of the map
   and the copy updated, so the map itself is left as it was.
   */
  function RecordAsWritten(m: map<string, User>, l: Login, parseIP: string -> seq<byte>): map<string, User>
  {
    if l.user in m then
      var copy := WithLogin(m[l.user], l, parseIP);
      m
    else m
  }

  function RecordAllAsWritten(m: map<string, User>, ls: seq<Login>, parseIP: string -> seq<byte>): map<string, User>
  {
    if |ls| == 0 then m
    else RecordAsWritten(RecordAllAsWritten(m, ls[..|ls| - 1], parseIP), ls[|ls| - 1], parseIP)
  }

  /** As written, the login records change nothing. */
  lemma {:induction false} RecordAllAsWrittenLost(m: map<string, User>, ls: seq<Login>, parseIP: string -> seq<byte>)
    ensures RecordAllAsWritten(m, ls, parseIP) == m
    decreases |ls|
  {
    if |ls| > 0 {
      RecordAllAsWrittenLost(m, ls[..|ls| - 1], parseIP);
    }
  }

  /** One record with the updated account written back to the map. */
  function Record(m: map<string, User>, l: Login, parseIP: string -> seq<byte>): map<string, User>
  {
    if l.user in m then m[l.user := WithLogin(m[l.user], l, parseIP)] else m
  }

  function RecordAll(m: map<string, User>, ls: seq<Login>, parseIP: string -> seq<byte>): map<string, User>
  {
    if |ls| == 0 then m
    else Record(RecordAll(m, ls[..|ls| - 1], parseIP), ls[|ls| - 1], parseIP)
  }

  /** The last record for `name`, if any. */
  function LastLogin(ls: seq<Login>, name: string): Option<Login>
  {
    if |ls| == 0 then None
    else if ls[|ls| - 1].user == name then Some(ls[|ls| - 1])
    else LastLogin(ls[..|ls| - 1], name)
  }

  /** `LastLogin` is the record for `name` with no later record for it, and finds nothing exactly when there is none. */
  lemma {:induction false} LastLoginIsLast(ls: seq<Login>, name: string)
    ensures LastLogin(ls, name).None? <==> forall i :: 0 <= i < |ls| ==> ls[i].user != name
    ensures LastLogin(ls, name).Some? ==>
              exists i :: 0 <= i < |ls| && ls[i] == LastLogin(ls, name).value && ls[i].user == name
                          && forall j :: i < j < |ls| ==> ls[j].user != name
    decreases |ls|
  {
    if |ls| > 0 {
      var n := |ls| - 1;
      var init := ls[..n];
      if ls[n].user == name {
        assert ls[n] == LastLogin(ls, name).value;
      } else {
        LastLoginIsLast(init, name);
        assert forall i :: 0 <= i < n ==> init[i] == ls[i];
        if LastLogin(init, name).Some? {
          var i :| 0 <= i < n && init[i] == LastLogin(init, name).value && init[i].user == name
                   && forall j :: i < j < n ==> init[j].user != name;
          assert ls[i] == LastLogin(ls, name).value;
        }
      }
    }
  }

  /**
   With the write-back, the records keep the set of accounts, and each
   account carries the login of the last record naming it, or what it had
   when no record does.
   */
  lemma {:induction false} RecordAllLast(m: map<string, User>, ls: seq<Login>, parseIP: string -> seq<byte>, name: string)
    requires name in m
    ensures RecordAll(m, ls, parseIP).Keys == m.Keys
    ensures RecordAll(m, ls, parseIP)[name] ==
            match LastLogin(ls, name) case Some(l) => WithLogin(m[name], l, parseIP) case None => m[name]
    decreases |ls|
  {
    if |ls| > 0 {
      RecordAllLast(m, ls[..|ls| - 1], parseIP, name);
    }
  }

  /** The records change no account's UID. */
  lemma {:induction false} RecordAllKeepsUids(m: map<string, User>, ls: seq<Login>, parseIP: string -> seq<byte>)
    ensures RecordAll(m, ls, parseIP).Keys == m.Keys
    ensures forall name :: name in m ==> RecordAll(m, ls, parseIP)[name].uid == m[name].uid
    decreases |ls|
  {
    if |ls| > 0 {
      RecordAllKeepsUids(m, ls[..|ls| - 1], parseIP);
    }
  }

  // ---------------------------------------------------------------------------
  // The result
  // ---------------------------------------------------------------------------

  /** The accounts in the given iteration order, each stored under its decimal UID. */
  function Publish(m: map<string, User>, order: seq<string>): map<string, User>
  {
    if |order| == 0 then map[]
    else
      var r := Publish(m, order[..|order| - 1]);
      var name := order[|order| - 1];
      if name in m then r[FormatDecimal(m[name].uid) := m[name]] else r
  }

  /** Every entry of the result is an account stored under its own UID, and every account in the order has its UID in the result. */
  lemma {:induction false} PublishEntries(m: map<string, User>, order: seq<string>)
    ensures forall k :: k in Publish(m, order) ==>
              exists name :: name in m && Publish(m, order)[k] == m[name] && FormatDecimal(m[name].uid) == k
    ensures forall i :: 0 <= i < |order| && order[i] in m ==> FormatDecimal(m[order[i]].uid) in Publish(m, order)
    decreases |order|
  {
    if |order| > 0 {
      var n := |order| - 1;
      PublishEntries(m, order[..n]);
      assert forall i :: 0 <= i < n ==> order[..n][i] == order[i];
    }
  }

  /** No two accounts share a UID. */
  predicate UidsDistinct(m: map<string, User>)
  {
    forall a, b :: a in m && b in m && a != b ==> m[a].uid != m[b].uid
  }

  /** With distinct UIDs, every account in the order is in the result under its UID, whatever the order. */
  lemma {:induction false} PublishKeepsAll(m: map<string, User>, order: seq<string>, name: string)
    requires UidsDistinct(m) && name in m && name in order
    ensures FormatDecimal(m[name].uid) in Publish(m, order)
    ensures Publish(m, order)[FormatDecimal(m[name].uid)] == m[name]
    decreases |order|
  {
    var n := |order| - 1;
    var other := order[n];
    if other != name {
      assert name in order[..n] by {
        var i :| 0 <= i < |order| && order[i] == name;
        assert order[..n][i] == name;
      }
      PublishKeepsAll(m, order[..n], name);
      if other in m {
        FormatDecimalInjective(m[other].uid, m[name].uid);
      }
    }
  }

  /** Two accounts sharing a UID collapse to one entry: the one met last. */
  lemma SharedUidCollapses(m: map<string, User>, a: string, b: string)
    requires a in m && b in m && m[a].uid == m[b].uid
    ensures Publish(m, [a, b]) == map[FormatDecimal(m[b].uid) := m[b]]
  {
    var k := FormatDecimal(m[b].uid);
    assert [a, b][..1] == [a];
    assert [a][..0] == [];
    assert Publish(m, [a]) == map[k := m[a]];
    assert Publish(m, [a, b]) == map[k := m[a]][k := m[b]];
  }

  // ---------------------------------------------------------------------------
  // User.Run
  // ---------------------------------------------------------------------------

  /** The collector's outcome: the result and whether `/etc/passwd` failed to open, or a panic on a short line. */
  datatype RunResult = Collected(result: map<string, User>, failed: bool) | Panicked

  /** `User.Run` with the given treatment of login records. */
  function Collect(passwd: Option<seq<string>>, wtmp: Option<seq<byte>>, lk: Lookups, writeBack: bool): (r: RunResult)
    ensures passwd.None? ==> r == Collected(map[], true)
    ensures r.Collected? && passwd.Some? ==> !r.failed
  {
    match passwd
    case None => Collected(map[], true)
    case Some(lines) =>
      match UserMap(Parsed(lines, lk.groupOf))
      case None => Panicked
      case Some(m) =>
        var ls := match wtmp case Some(b) => Logins(b) case None => [];
        var m' := if writeBack then RecordAll(m, ls, lk.parseIP) else RecordAllAsWritten(m, ls, lk.parseIP);
        Collected(Publish(m', lk.order(m')), false)
  }

  /** `User.Run` as written: the login records are read and lost. */
  function RunAsWritten(passwd: Option<seq<string>>, wtmp: Option<seq<byte>>, lk: Lookups): RunResult
  {
    Collect(passwd, wtmp, lk, false)
  }

  /** `User.Run` with each updated account written back to the map. */
  function Run(passwd: Option<seq<string>>, wtmp: Option<seq<byte>>, lk: Lookups): RunResult
  {
    Collect(passwd, wtmp, lk, true)
  }

  /** As written, the result does not depend on the login records at all. */
  lemma RunAsWrittenIgnoresWtmp(passwd: Option<seq<string>>, wtmp: Option<seq<byte>>, lk: Lookups)
    ensures RunAsWritten(passwd, wtmp, lk) == RunAsWritten(passwd, None, lk)
  {
    if passwd.Some? && UserMap(Parsed(passwd.value, lk.groupOf)).Some? {
      var m := UserMap(Parsed(passwd.value, lk.groupOf)).value;
      var ls := match wtmp case Some(b) => Logins(b) case None => [];
      RecordAllAsWrittenLost(m, ls, lk.parseIP);
      RecordAllAsWrittenLost(m, [], lk.parseIP);
    }
  }

  /** As written, no reported account ever has a last login, even when a record names it. */
  lemma RunAsWrittenNeverLogsIn(lines: seq<string>, b: seq<byte>, lk: Lookups, k: string)
    requires RunAsWritten(Some(lines), Some(b), lk).Collected?
    requires k in RunAsWritten(Some(lines), Some(b), lk).result
    ensures RunAsWritten(Some(lines), Some(b), lk).result[k].lastLoginTime == 0
    ensures RunAsWritten(Some(lines), Some(b), lk).result[k].lastLoginIP == []
  {
    var ps := Parsed(lines, lk.groupOf);
    var m := UserMap(ps).value;
    RecordAllAsWrittenLost(m, Logins(b), lk.parseIP);
    PublishEntries(m, lk.order(m));
    var name :| name in m && Publish(m, lk.order(m))[k] == m[name] && FormatDecimal(m[name].uid) == k;
    UserMapLastWins(ps, name);
    var i :| 0 <= i < |ps| && ps[i] == Some(m[name]) && m[name].username == name
             && forall j :: i < j < |ps| ==> !Names(ps[j], name);
    assert ps[i] == ParsePasswdLine(lines[i], lk.groupOf);
  }

  /** `order` walks the keys of `m`, each exactly once, as `range` over a Go map does. */
  ghost predicate Enumerates(order: seq<string>, m: map<string, User>)
  {
    && (forall i, j :: 0 <= i < j < |order| ==> order[i] != order[j])
    && (forall k :: k in m <==> k in order)
  }

  /** The iteration order the lookups give is a walk of each map's keys. */
  ghost predicate RangeOrder(lk: Lookups)
  {
    forall m :: Enumerates(lk.order(m), m)
  }

  /**
   With the write-back, an account whose UID no other account shares is
   reported under its UID with the login of the last record naming it.
   */
  lemma RunReportsLastLogin(lines: seq<string>, b: seq<byte>, lk: Lookups, name: string)
    requires UserMap(Parsed(lines, lk.groupOf)).Some?
    requires var m := UserMap(Parsed(lines, lk.groupOf)).value;
             var m' := RecordAll(m, Logins(b), lk.parseIP);
             name in m && UidsDistinct(m) && RangeOrder(lk)
    ensures var m := UserMap(Parsed(lines, lk.groupOf)).value;
            var r := Run(Some(lines), Some(b), lk);
            r.Collected? && FormatDecimal(m[name].uid) in r.result &&
            r.result[FormatDecimal(m[name].uid)] ==
              match LastLogin(Logins(b), name) case Some(l) => WithLogin(m[name], l, lk.parseIP) case None => m[name]
  {
    var m := UserMap(Parsed(lines, lk.groupOf)).value;
    var ls := Logins(b);
    var m' := RecordAll(m, ls, lk.parseIP);
    RecordAllLast(m, ls, lk.parseIP, name);
    RecordAllKeepsUids(m, ls, lk.parseIP);
    assert m'[name].uid == m[name].uid;
    assert name in lk.order(m');
    PublishKeepsAll(m', lk.order(m'), name);
  }
}
